=== FILE: README.md ===
# SafeSpace decision procedures in Dafny

SafeSpace is an anonymous-feedback platform. HR users create *campaigns*, each holding a question. Employees submit anonymous *responses* to it. Responses are classified by sentiment, attention and triage status, and are then worked through on a dashboard and an issues board.

This project models the deterministic logic of the platform over an abstract store. The store is a `seq` of `Campaign`, `Response` and `User` records. Time is an `int` instant (milliseconds). Strings are ASCII `seq<char>`.

The project has one module per core source file, plus four shared helper modules (`Domain`, `Text`, `Collections`, `Ordering`). `Schedule` covers both the scheduler route and the script:

| module | file | models |
|---|---|---|
| `Domain` | domain.dfy | the records, status and sentiment constants, the mood emojis, the existing-slug list and the user lookup |
| `Text` | text.dfy | ASCII lower-casing, trimming, blank test, substring test, keyword hits |
| `Collections` | collections.dfy | `filter`, counting, sub-sequences, the first-index search |
| `Ordering` | ordering.dfy | a descending insertion sort for the `orderBy`/`sort` calls |
| `Slug` | slug.dfy | `generateSlug` and `ensureUniqueSlug` (lib/slug.ts) |
| `Backfill` | backfill.dfy | the slug migration (scripts/backfill-slugs.ts) |
| `CampaignsApi` | campaigns_api.dfy | `GET` and `POST /api/campaigns` |
| `ResponsesApi` | responses_api.dfy | `POST /api/responses`: the open gate, sentiment, attention, triage status and the notification predicate |
| `Bulk` | bulk.dfy | `PATCH /api/responses/bulk` |
| `Schedule` | schedule.dfy | the scheduler route and scripts/process-schedules.ts |
| `Report` | report.dfy | the local parts of `generateAIReport` (lib/ai.ts) |
| `Digest` | digest.dfy | `POST /api/notifications/digest` |
| `Middleware` | middleware.dfy | the `authorized` callback, the admin redirect and the route matcher |
| `Wizard` | wizard.dfy | the three-step campaign-creation wizard |
| `Dashboard` | dashboard.dfy | the dashboard page's buckets, filters, counts, sort and keyboard selection |
| `Issues` | issues.dfy | the issues board: collection, filters, grouping and labels |
| `Templates` | templates.dfy | the campaign template catalogue |
| `Demo` | demo.dfy | `createDemoCampaign` (lib/demo-data.ts) |

## Environment parameters

Some effects are outside the model. They appear as parameters:

- Calendar arithmetic (`+7 days`, `+1 month`, `+3 months`) is an `Advance` function. Nothing is assumed about it: the schedule properties hold for every `advance`.
- The language model's reply is an optional string.
- Fence stripping and `JSON.parse` are function parameters.
- The demo seed's random back-dating is a list of offsets below seven days.
- New record ids and `now` are inputs.

## Model

| member | source | states |
|---|---|---|
| Slug.GenerateSlug | lib/slug.ts:1-16 | The slug is never empty and is at most 50 characters. Its characters are lower-case letters, digits or `-`. It has no leading hyphen and no `--`. An empty title, or one that normalises to nothing, gives `campaign`. Otherwise the slug is the first 50 characters of the normalised title, or all of it when shorter. A trailing hyphen survives only when the 50-character cut falls right after one. |
| Slug.NormaliseShape | lib/slug.ts:6-11 | Before the cut, the normalised title has only slug characters, starts and ends without a hyphen, and has no `--`. |
| Slug.CollapseShape | lib/slug.ts:10 | Collapsing runs of space, `_` and `-` leaves single hyphens between kept characters, and keeps the first character if it is not a separator. |
| Slug.TeamPulseExample | lib/slug.ts:6-12 | `generateSlug("Team Pulse!!")` is `team-pulse`. |
| Slug.NatToString | lib/slug.ts:23 | The decimal counter is a non-empty string of digits. |
| Slug.ParseNatToString | lib/slug.ts:23 | Reading the decimal counter back gives the number, so distinct counters print differently. |
| Slug.CandidateInjective | lib/slug.ts:19-25 | The probed candidates `base`, `base-1`, `base-2`, … are pairwise distinct. |
| Slug.TakenBound | lib/slug.ts:22-25 | If the first `m` candidates are all taken, then `m` is at most the number of existing slugs. This bounds the probing loop. |
| Slug.UniqueSlug | lib/slug.ts:18-28 | The result is not in the existing list, and it is the candidate with the least free index. |
| Slug.EnsureUniqueSlug | lib/slug.ts:18-28 | The loop terminates. Its result is not in `existingSlugs`. It equals `baseSlug` when that is free, and otherwise is `baseSlug-k` for the least free `k`. |
| Slug.LeastFreeUnique | lib/slug.ts:22-25 | At most one index is the least free one. |
| Slug.EnsureUniqueSlugAgrees | lib/slug.ts:18-28 | The loop and the functional definition pick the same slug. |
| Domain.ExistingSlugs | app/api/campaigns/route.ts:102-106 | A string is listed exactly when it is non-empty and some campaign holds it as its slug. |
| Domain.ParseMood | app/api/responses/route.ts:9 | A mood parses exactly when it is one of the five emojis, and it parses to that emoji's mood. |
| Domain.FindUser | app/api/notifications/digest/route.ts:21-22 | The result is a user with that id, or none when no user has it. |
| Backfill.NewSlug | scripts/backfill-slugs.ts:30-31 | The slug given to a slug-less campaign is non-empty and not yet taken. |
| Backfill.BackfillFromAt | scripts/backfill-slugs.ts:29-40 | For any allocator of fresh slugs: a campaign that had a slug is unchanged, and one without a slug changes only in its slug, to a non-empty slug absent from the slugs taken at the start. |
| Backfill.BackfillFromDistinctAt | scripts/backfill-slugs.ts:29-40 | Two slug-less campaigns never receive the same slug, because each new slug joins the taken list. |
| Backfill.BackfillSound | scripts/backfill-slugs.ts:11-40 | After the migration, every campaign has a slug, and campaigns that had one keep it. New slugs differ from each other and from every pre-existing slug. Nothing but the slug changes. |
| Backfill.AssignSlug | scripts/backfill-slugs.ts:30-38 | One loop step: a campaign without a slug gets the unique slug of its title, and exactly that slug is pushed onto the taken list. A campaign that has a slug is left alone. |
| Backfill.BackfillSlugs | scripts/backfill-slugs.ts:20-40 | The loop computes the left-to-right fold, so `BackfillSound` describes its result. |
| CampaignsApi.ListCampaigns | app/api/campaigns/route.ts:17-63 | Without a session the result is 401. Otherwise the list is the visible campaigns ordered by `createdAt`, newest first. |
| CampaignsApi.ListedMembers | app/api/campaigns/route.ts:27-32 | An `hr` user sees exactly their own campaigns. An admin sees every campaign. |
| CampaignsApi.CreateCampaign | app/api/campaigns/route.ts:75-147 | The result is 201 exactly when a session exists and the title and question are non-empty. Without a session it is 401; otherwise it is 400. A failure leaves the store unchanged; success appends exactly the new campaign. |
| CampaignsApi.CandidateNotBlank | app/api/campaigns/route.ts:93-100 | No slug that `ensureUniqueSlug` can return is blank, so the blank-slug 400 branch cannot be taken. |
| CampaignsApi.CreatedFields | app/api/campaigns/route.ts:89-120 | `isActive` holds exactly when there is no start date or it is not after now. `publicReportOn` and `aiReportGenerated` are false, and the owner is the caller. `isRecurring` is true only when true was sent. The interval and dates are copied. |
| CampaignsApi.CreatedSlugFresh | app/api/campaigns/route.ts:102-125 | The new slug is the unique slug of the title, is non-empty, and is held by no campaign in the store. |
| CampaignsApi.CreatePreservesSlugsDistinct | app/api/campaigns/route.ts:102-140 | If slugs were pairwise distinct before a create, they still are after it. |
| CampaignsApi.CreatedIsListed | app/api/campaigns/route.ts:29-31 | The creator's next listing contains the new campaign. |
| ResponsesApi.Sentiment | app/api/responses/route.ts:52-62 | The result is one of `positive`, `neutral` or `negative`. |
| ResponsesApi.SentimentIff | app/api/responses/route.ts:52-62 | The result is `positive` exactly when more positive than negative words occur, `negative` exactly when more negative words occur, and `neutral` on a tie. Each word counts at most once. |
| Text.HitsPositive | app/api/responses/route.ts:58-59 | A word list scores above zero exactly when one of its words occurs in the text. |
| ResponsesApi.ScenarioClassification | app/api/responses/route.ts:51-75 | The text "I hate the broken tools, this is terrible" is classified negative, so its attention is urgent whatever the mood. It holds no risk keyword, so its status is `new`. |
| ResponsesApi.Attention | app/api/responses/route.ts:65-70 | The result is one of `urgent`, `moderate` or `positive`. |
| ResponsesApi.AttentionIff | app/api/responses/route.ts:65-70 | `urgent` exactly when the sentiment is negative or the mood is 🙁 or 😞. Otherwise `positive` exactly when the sentiment is positive or the mood is 😀 or 🙂. Otherwise `moderate`. |
| ResponsesApi.TriageStatusIff | app/api/responses/route.ts:73-75 | The status is `needs_attention` exactly when a risk keyword occurs in the text; otherwise it is `new`. |
| ResponsesApi.TriageStatusIgnoresSentiment | app/api/responses/route.ts:73-75 | Two texts with the same risk keywords get the same status, whatever their sentiment. |
| ResponsesApi.FindCampaign | app/api/responses/route.ts:19-35 | The lookup fails only when no campaign has that id or slug. A campaign found by slug means no campaign has that id. |
| ResponsesApi.NewResponse | app/api/responses/route.ts:117-126 | The stored text, mood and campaign id are those sent. Sentiment, attention and status are computed from the lower-cased text. No assignee or tags are set. |
| ResponsesApi.Submit | app/api/responses/route.ts:12-172 | The result is 201 exactly when the request is valid, the campaign is found by its id, and it is active and not past its close date. An open campaign found only by its slug gives 500, because the row's `campaignId` names no campaign. 404 means a valid request for an unknown campaign. A failure stores nothing and notifies no one. On success the response is appended, and a notification is attempted exactly when the owner has Telegram on (default on) and a chat id. |
| ResponsesApi.StoredCampaignIdVerbatim | app/api/responses/route.ts:17-172 | The row the route writes carries the identifier sent as its `campaignId`. Addressed by id, the response is stored under the campaign's id. Addressed by slug, no campaign has that id, so the write fails with 500 and nothing is stored or notified. |
| ResponsesApi.LabelsDoNotAffectOutcome | app/api/responses/route.ts:78-115 | The AI labels change nothing but the stored labels: not the status, the stored record otherwise, or the notification. |
| Bulk.OwnerOf | app/api/responses/bulk/route.ts:28-39 | An owner is found exactly when a campaign has that id, and it is that campaign's owner. |
| Bulk.UpdateMany | app/api/responses/bulk/route.ts:61-66 | Listed responses get the update and the others are unchanged. |
| Bulk.BulkUpdate | app/api/responses/bulk/route.ts:14-78 | The result is 401 without a session and 400 for an empty id list. It is 200 exactly when the ownership gate passes. Any failure changes nothing and reports 0. Success applies the update and reports the number of listed responses. |
| Bulk.ForbiddenIff | app/api/responses/bulk/route.ts:41-52 | 403 happens exactly when the caller is `hr` and some listed response belongs to a campaign they do not own. |
| Bulk.AdminSkipsGate | app/api/responses/bulk/route.ts:41-42 | An admin's non-empty request always succeeds. |
| Bulk.ApplyFrame | app/api/responses/bulk/route.ts:55-58 | Only `status`, `assignedTo` and `tags` can change. Each supplied field is replaced, tags included, and each omitted field is kept. |
| Bulk.UpdateManyIdempotent | app/api/responses/bulk/route.ts:61-66 | Applying the same update twice equals applying it once. |
| Bulk.UpdatedCountsFoundIds | app/api/responses/bulk/route.ts:68-71 | With distinct response ids, `updated` is the number of listed ids that exist. |
| Schedule.Activate | app/api/campaigns/schedule/route.ts:21-31 | A campaign whose start date has passed becomes active. Nothing else changes. |
| Schedule.Deactivate | app/api/campaigns/schedule/route.ts:34-44 | A campaign whose close date has passed becomes inactive. Nothing else changes. |
| Schedule.Rollover | app/api/campaigns/schedule/route.ts:58-82 | A campaign without an interval is skipped. Otherwise the start becomes the advanced close date, the close date is cleared, and the campaign is active exactly when the new start is not after now. No other field changes. |
| Schedule.RecurringPass | app/api/campaigns/schedule/route.ts:47-83 | Exactly the selected campaigns (recurring, inactive, close date passed) are rolled over. |
| Schedule.SettleActive | app/api/campaigns/schedule/route.ts:21-44 | After steps 1 and 2, a campaign is active exactly when it was active or had started, and its close date has not passed. So a campaign with both dates past ends inactive. |
| Schedule.Untouched | app/api/campaigns/schedule/route.ts:21-83 | A campaign that matches none of the three passes is unchanged. |
| Schedule.SweepFrame | app/api/campaigns/schedule/route.ts:21-83 | The sweep changes only `startDate`, `closeDate` and `isActive`. |
| Schedule.RolledOver | app/api/campaigns/schedule/route.ts:60-82 | A selected campaign with an interval restarts at the advanced close date, with no close date. |
| Schedule.SweepIdempotent | app/api/campaigns/schedule/route.ts:21-83 | Sweeping twice at the same `now` gives the same store as sweeping once. |
| Schedule.RunSchedule | app/api/campaigns/schedule/route.ts:8-86 | The result is 200 exactly when the header is `Bearer` plus the secret; otherwise it is 401 and nothing changes. On success the store is swept and `processed` counts the selected campaigns, skipped ones included. |
| Schedule.UnsetSecretAcceptsUndefined | app/api/campaigns/schedule/route.ts:11 | With no secret configured, the header `Bearer undefined` is accepted. |
| Schedule.ActivateAll | scripts/process-schedules.ts:10-20 | The script's `updateMany`, written as a loop over the store, computes the activation pass. |
| Schedule.DeactivateAll | scripts/process-schedules.ts:23-33 | The script's `updateMany`, written as a loop over the store, computes the deactivation pass. |
| Schedule.FindSelected | scripts/process-schedules.ts:36-44 | The selection holds exactly the indices of the selected campaigns, in increasing order. |
| Schedule.SelectionCount | scripts/process-schedules.ts:36-74 | Such a selection is as long as the number of selected campaigns, so the logged count is the route's `processed`. |
| Schedule.RollAll | scripts/process-schedules.ts:46-72 | Rolling over the selected indices computes the recurring pass. |
| Schedule.ProcessSchedules | scripts/process-schedules.ts:7-75 | The script leaves the same store as the authorised route, and logs the same count. |
| Report.RoundedAverage | lib/ai.ts:149-150 | The average is within half a unit of `total / n`, with halves rounded up. |
| Report.RoundedAverageUnique | lib/ai.ts:150 | Only one natural number meets that rounding condition. |
| Report.LocalStats | lib/ai.ts:149-162 | The count is the number of responses. The average length is the total length divided by the count, rounded to the nearest integer with halves up. The sentiment counts are the numbers of responses labelled exactly `positive`, `neutral` and `negative`, and sum to at most the count. `detailed` counts texts over 200 characters and `actionable` counts actionable texts. |
| Report.SentimentCountsBounded | lib/ai.ts:151-155 | Exact-label sentiment counts sum to at most the number of responses. |
| Report.ActionableIff | lib/ai.ts:157-162 | A response is actionable exactly when its lower-cased text contains one of `should`, `need`, `suggest` or `recommend`. |
| Report.MoodBreakdownCounts | lib/ai.ts:270-276 | A mood is a key of the breakdown exactly when some response has it, and its value is the number of responses with that mood. |
| Report.MoodBreakdownSum | lib/ai.ts:270-276 | The breakdown's values sum to the number of responses with a mood. |
| Report.LastIndexOf | lib/ai.ts:224 | The result is the last position holding the character, or -1. |
| Report.ExtractJson | lib/ai.ts:221-234 | Text starting with `{` is kept. Otherwise extraction succeeds exactly when a `{` has a `}` after it, and yields the span from the first `{` to the last `}`. |
| Report.ExtractJsonIdempotent | lib/ai.ts:221-234 | Extracting again changes nothing. |
| Report.Fallback | lib/ai.ts:278-291 | Existing recommendations, or absent suggestions, leave the report unchanged. Otherwise each suggestion becomes one recommendation with title and description set to it and medium priority, impact and effort. |
| Report.FallbackCoversSuggestions | lib/ai.ts:279 | After the fallback, recommendations are missing only if suggestions are too. |
| Report.Overwrite | lib/ai.ts:263-276 | The participation totals, average length, detailed and actionable counts, and mood breakdown are the local values. The model's `engagementQuality`, `insights` and `responseRate` are kept. |
| Report.OverwriteIgnoresModel | lib/ai.ts:263-276 | Two model replies give the same stored participation exactly when they agree on `engagementQuality`, `insights` and `responseRate`. The model's own figures make no difference. |
| Report.MarkGenerated | lib/ai.ts:330-333 | Only the report's campaign is changed, and only `aiReportGenerated`, which becomes true. |
| Report.GenerateReport | lib/ai.ts:124-345 | Zero responses is an error. Any error leaves campaigns and reports unchanged. A missing or empty reply is an error. So is a cleaned reply with no `{` at its start and no `{` … `}` span. A reply that cleans to a brace span always yields a report when it parses and has a participation block. It is a parse error exactly when it does not parse, and a participation error exactly when the block is missing. On success the result is the parsed reply, with the participation overwritten and then the suggestion fallback applied. It is stored under the campaign, and the campaign is marked generated. |
| Digest.SummaryOf | app/api/notifications/digest/route.ts:51-69 | `newResponses` is the number of recent responses of the campaigns. `needsAttention` is how many of those have status `new` or `needs_attention`, so it is at most `newResponses`. The lines are the per-campaign lines. |
| Digest.LinesMembers | app/api/notifications/digest/route.ts:62-68 | A campaign is listed exactly when it has a recent response. Its line carries its title and its number of recent responses. |
| Digest.LinesFromCampaigns | app/api/notifications/digest/route.ts:62-68 | Every line belongs to one of the user's campaigns. |
| Digest.AllRecentCount | app/api/notifications/digest/route.ts:24-31 | New responses are those of the user's campaigns created in the last 24 hours. |
| Digest.AllRecentOpenCount | app/api/notifications/digest/route.ts:51-56 | The recent responses with status `new` or `needs_attention`, counted over the whole table. |
| Digest.DigestFigures | app/api/notifications/digest/route.ts:51-69 | `newResponses` counts the recent responses of the target's campaigns. The lines' counts sum to it. `needsAttention` counts the recent responses of those campaigns whose status is `new` or `needs_attention`. |
| Digest.RunDigest | app/api/notifications/digest/route.ts:7-86 | The result is 401 without a session and 200 exactly when the target user exists (404 otherwise). On success it returns the summary of that user's campaigns, and the digest is sent exactly when the send predicate holds. |
| Digest.DefaultPrefsSend | app/api/notifications/digest/route.ts:71-84 | With unset preferences, the digest is sent exactly when a chat id is linked. |
| Digest.AnyCallerMayTarget | app/api/notifications/digest/route.ts:18 | Any signed-in caller may name any existing user as the target. |
| Middleware.AdminGate | middleware.ts:10-14 | Redirect home exactly for `/admin…` paths without the admin role; otherwise pass. |
| Middleware.Decide | middleware.ts:4-50 | Unmatched paths pass. Unauthorised matched paths go to the login page. Authorised ones go through the admin gate. |
| Middleware.AuthorizedIff | middleware.ts:18-38 | Authorised exactly when the path starts with `/submit`, `/reports`, `/login` or `/api`, or a token is present. |
| Middleware.SignedOut | middleware.ts:18-38 | Without a token, a matched path passes exactly when it is public and not under `/admin`, and is sent to login exactly when it is not public. |
| Middleware.HrAdminPages | middleware.ts:10-12 | A signed-in `hr` user is redirected home exactly on `/admin…` paths, and never to login. |
| Middleware.AdminPassesEverywhere | middleware.ts:10-37 | An admin passes on every path. |
| Middleware.ApiUnmatched | middleware.ts:46-50 | `/api…` paths are outside the matcher and pass. |
| Middleware.SubmittedIsPublic | middleware.ts:22 | `/submitted` is public because of the `/submit` prefix. |
| Wizard.NextStep | components/campaign-wizard.tsx:36-44 | At step 1 with a blank title or question the state stays. At step 3 it stays. Any move is one step forward. The form is untouched. |
| Wizard.PrevStep | components/campaign-wizard.tsx:46-50 | Above step 1 the step goes back one; at step 1 nothing changes. |
| Wizard.RunPreserves | components/campaign-wizard.tsx:20-50 | Over any sequence of events, the step stays in 1..3, and past step 1 the title and question are non-blank. |
| Wizard.OrNull | components/campaign-wizard.tsx:61-62 | An empty date string is sent as null; any other is sent as is. |
| Wizard.BuildPayload | components/campaign-wizard.tsx:58-65 | Title and question are copied. Empty dates become null. The interval is sent exactly when recurring. |
| Wizard.ReviewPayloadHasRequiredFields | components/campaign-wizard.tsx:37-40 | Whatever the user did, a payload built at the review step has a non-empty title and question. |
| Wizard.DefaultIntervalMonthly | components/campaign-wizard.tsx:29 | Turning recurrence on without choosing an interval sends `monthly`. |
| Dashboard.ViewOf | app/page.tsx:85-88 | A card's responses are exactly those of its campaign, and its count is their number. |
| Dashboard.Bucket | app/page.tsx:77-83 | The three sentiment buckets sum to the number of responses. |
| Dashboard.BucketCounts | app/page.tsx:77-83 | Positive and negative buckets count those labels. Every other label counts as neutral. |
| Dashboard.FilterViewsMembers | app/page.tsx:155-179 | The filtered list is an order-preserving subsequence. A card is kept exactly when it passes the search, status and owner filters. |
| Dashboard.SearchIff | app/page.tsx:157-163 | A non-empty query matches exactly when it occurs, case-insensitively, in the title or question. |
| Dashboard.OwnerFilterAdminOnly | app/page.tsx:173-177 | For non-admins the owner filter has no effect. |
| Dashboard.ActiveClosedPartition | app/page.tsx:166-170 | Every card kept under `all` is kept by exactly one of `active` and `closed`: the sizes of those two results add up to the size of the `all` result. |
| Dashboard.UnresolvedCriticalIff | app/page.tsx:149-152 | The banner shows exactly when the `needsAttention` count is positive. |
| Dashboard.CriticalWithinUnresolved | app/page.tsx:350-356 | On each card, the critical count is at most the unresolved count. |
| Dashboard.AllResolvedIff | app/page.tsx:346-347 | `allResolved` holds exactly when the card has responses and all are resolved; then nothing is unresolved. |
| Dashboard.Navigate | app/page.tsx:54-61 | On an empty list nothing changes. From -1 the selection goes to 0. Otherwise it moves one step, clamped to the list. |
| Dashboard.NavigateStaysInside | app/page.tsx:54-61 | After any key presses, the selection lies inside the list. |
| Dashboard.SortViews | app/page.tsx:180-191 | Sorting permutes the cards. By `most_responses` or `newest`, the key does not increase along the list. |
| Dashboard.MostResponsesOrder | app/page.tsx:183-184 | An earlier card has at least as many responses as a later one. |
| Issues.IssuesOfMembers | app/issues/page.tsx:40-51 | A campaign's issues are exactly its open responses, tagged with its id, title and question. |
| Issues.AllIssuesMembers | app/issues/page.tsx:38-52 | `allIssues` is exactly the open responses of every campaign, tagged with their campaign. |
| Issues.AllIssuesOpen | app/issues/page.tsx:43 | Every issue is `needs_attention`, `new` or `in_review`. |
| Issues.FilterIssuesSpec | app/issues/page.tsx:55-73 | The filtered issues are an order-preserving subsequence. An issue is kept exactly when it passes the search, status and campaign filters. |
| Issues.NoFilterKeepsAll | app/issues/page.tsx:55-73 | With no search and `all` filters, every issue is kept. |
| Issues.GroupIssuesSpec | app/issues/page.tsx:76-89 | Groups have distinct campaign ids. Each holds exactly the issues of its campaign, in order. Every issue has a group, and the group sizes sum to the number of issues. |
| Issues.AddIssueKeepsGrouped | app/issues/page.tsx:77-87 | Adding one issue keeps the grouping correct for the longer list. |
| Issues.StatCountsSum | app/issues/page.tsx:146-171 | The three status counts sum to the number of issues. |
| Issues.StatusLabel | app/issues/page.tsx:104-115 | The three open states get their labels. Any other status is returned unchanged, and only those are. |
| Templates.IdsDistinct | lib/templates.ts:10-75 | Template ids are pairwise distinct. |
| Templates.ByCategory | lib/templates.ts:77-78 | With no category, the whole list is returned. |
| Templates.ByCategoryMembers | lib/templates.ts:77-80 | The result is an order-preserving subsequence holding exactly the templates of the category. |
| Templates.CategoriesPartition | lib/templates.ts:10-80 | Every template appears under exactly its own category among HR, Product, Team and Support. |
| Templates.ById | lib/templates.ts:82-84 | A found template is listed and has the id. None is found exactly when no template has the id. |
| Templates.ByIdFindsEach | lib/templates.ts:82-84 | Every listed template is found by its own id. |
| Demo.EnsureUser | lib/demo-data.ts:59-76 | A user is created exactly when none has the demo email. `userCreated` reports that. The new user is an `hr` user. |
| Demo.UpsertCampaign | lib/demo-data.ts:84-105 | The campaign holding the slug is updated in place: id kept, others unchanged. If none holds it, one is appended. Either way the result has the demo title and question, the demo owner, active, no public report, no AI report, and closes 90 days out. |
| Demo.SampleRows | lib/demo-data.ts:113-128 | The five samples are stored in order under the campaign, with their text, mood, sentiment and status, and created within the last seven days. |
| Demo.SeedOutcome | lib/demo-data.ts:55-140 | The result reports the demo email, whether the user was created, and the slug. `existingResponses` is the count before seeding. Five responses are added exactly when it is zero, and earlier responses are kept. |
| Demo.SecondSeedAddsNothing | lib/demo-data.ts:59-129 | Seeding again creates no user, reuses the campaign, and adds no responses. |
| Demo.DemoSeedIdempotent | lib/demo-data.ts:55-140 | Seeding twice leaves the users and responses as seeding once. |

## Left out

- Prisma, bcrypt and next-auth are not modelled.
  - The database is a set of sequences.
  - Sessions are an optional `(userId, role)` pair, and the middleware token is an optional role.
  - Password hashing and the demo password are not modelled.
- Telegram delivery is replaced by the boolean send predicates.
- The OpenAI calls are out of scope: the report request, the response labelling and its JSON parsing. The labels are an opaque optional input.
- Report.GenerateReport: of the model's reply, only `summary`, `participation`, `recommendations` and `suggestions` are modelled. The other sections (sentiment, themes, highlights, quotes, risks, trends, action plan, comparisons) are passed through unread and stored as the model wrote them, so they are not modelled.
- The prompt text, the fence-stripping regular expressions and `JSON.parse` are function parameters, not definitions.
- Calendar arithmetic (`setDate`, `setMonth`, month overflow, time zones) is the `Advance` parameter.
- Invalid date strings in request bodies are not modelled: dates are already instants.
- Case and whitespace follow ASCII only. JavaScript's Unicode lower-casing, Unicode `\s` and `\w`, and UTF-16 string lengths are not modelled.
- A stored mood is one of the five moods (`Option<Mood>`), although the database column is a free string. This restriction loses nothing: every writer stores one of the five emojis. These are the zod enum of the response intake (app/api/responses/route.ts:9) and the demo samples (lib/demo-data.ts:12-43).
- Dashboard.SortViews: the `alphabetical` order (`localeCompare`) is not modelled at all; `SortKey` has only the two numeric orders. The comparator sorts are not claimed to be stable. Only the multiset and the order of the numeric keys are stated.
- Floating-point percentages, analytics and chart geometry are not modelled, nor are rendering, toasts, drag-and-drop, QR codes, clipboard and keyboard wiring.
- Campaign cloning, single-response edits, action items and user administration are not modelled. Their routes are not part of this model.
- The 500 branches (thrown database or network errors) are not modelled, with one exception. Each modelled route returns only the statuses it chooses itself.
  - The exception is the response intake's write under a slug. The store's `campaignId` must name a campaign, so it is refused. This is modelled as `ServerError` in `ResponsesApi.Submit`. The submit page sends the campaign's id (app/submit/[id]/page.tsx:75), so only direct API callers reach it.
- Zod type errors in a request body (a non-string title, say) are not modelled. Request fields are typed, and only the checked conditions (empty strings, unknown moods, an empty id list) are modelled.
- Bulk.BulkUpdate: a response whose campaign is missing from the store counts as owned by someone else.
- Digest.SummaryOf: `totalResponses` (the all-time count) is computed but has no property of its own.
- Backfill.BackfillSlugs: its contract equates the loop with the fold. The store properties are stated by `Backfill.BackfillSound`, not repeated on the method.
- Demo.UpsertCampaign: on create, `isRecurring` defaults to false, `startDate` to none and `createdAt` to now. These are the database defaults. The attention of the seeded responses is an environment value, since the seed does not set it.
- Demo.SampleRows: `Math.random` back-dating is given as offsets in the environment.
- Issues.GroupIssuesSpec: groups are listed in first-appearance order. A JavaScript object lists integer-like keys first, which is not modelled; campaign ids are not integer-like.

=== FILE: backfill.dfy ===
/** The one-off migration that gives every campaign without a slug a
    unique one (scripts/backfill-slugs.ts). */
module Backfill {
  import opened Domain
  import opened Slug

  /** The slug a slug-less campaign is given: its title's slug, made unique
      against `existing`. */
  function NewSlug(title: string, existing: seq<string>): (s: string)
    ensures s != "" && s !in existing
  {
    var base := GenerateSlug(title);
    UniqueSlugNonEmpty(base, existing);
    UniqueSlug(base, existing)
  }

  lemma UniqueSlugNonEmpty(base: string, existing: seq<string>)
    requires base != ""
    ensures UniqueSlug(base, existing) != ""
  {
    var u := UniqueSlug(base, existing);
    var k :| LeastFree(base, existing, k) && u == Candidate(base, k);
    CandidateNonEmpty(base, k);
  }

  /** How a slug-less campaign's slug is chosen from its title and the
      slugs taken so far; the fold below is stated for any such allocator,
      and the migration uses `NewSlug`. */
  type Allocator = (string, seq<string>) -> string

  /** The allocator hands out non-empty slugs nobody holds yet. */
  ghost predicate Fresh(alloc: Allocator)
  {
    forall t, e :: alloc(t, e) != "" && alloc(t, e) !in e
  }

  lemma NewSlugFresh()
    ensures Fresh(NewSlug)
  {
  }

  /** Campaign `c` after its turn: unchanged when it has a slug, otherwise
      given a slug by the allocator. */
  function Settled(c: Campaign, existing: seq<string>, alloc: Allocator): (r: Campaign)
    ensures c.slug.Some? ==> r == c
    ensures c.slug.None? ==> r == c.(slug := Some(alloc(c.title, existing)))
  {
    if c.slug.Some? then c else c.(slug := Some(alloc(c.title, existing)))
  }

  /** The taken slugs after `c`'s turn: a new slug joins them. */
  function After(c: Campaign, existing: seq<string>, alloc: Allocator): (r: seq<string>)
    ensures c.slug.Some? ==> r == existing
    ensures c.slug.None? ==> r == existing + [Settled(c, existing, alloc).slug.value]
  {
    if c.slug.Some? then existing else existing + [alloc(c.title, existing)]
  }

  /** The backfill as a fold over the store: each campaign is settled
      against the slugs taken so far, including those handed out to the
      campaigns before it. */
  function BackfillFrom(cs: seq<Campaign>, existing: seq<string>, alloc: Allocator): (r: seq<Campaign>)
    ensures |r| == |cs|
  {
    if |cs| == 0 then []
    else [Settled(cs[0], existing, alloc)] + BackfillFrom(cs[1..], After(cs[0], existing, alloc), alloc)
  }

  function Backfill(cs: seq<Campaign>): seq<Campaign>
  {
    BackfillFrom(cs, ExistingSlugs(cs), NewSlug)
  }

  lemma CandidateNonEmpty(base: string, k: nat)
    requires base != ""
    ensures Candidate(base, k) != ""
  {
    if k > 0 {
      assert |Candidate(base, k)| >= |base|;
    }
  }

  /** Campaign `i` of the result: untouched when it had a slug, otherwise
      changed in the slug only, to a non-empty slug absent from `existing`. */
  lemma {:induction false} BackfillFromAt(cs: seq<Campaign>, existing: seq<string>, alloc: Allocator, i: nat)
    requires Fresh(alloc)
    requires i < |cs|
    ensures var r := BackfillFrom(cs, existing, alloc);
      && (cs[i].slug.Some? ==> r[i] == cs[i])
      && (cs[i].slug.None? ==>
            r[i].slug.Some? && r[i] == cs[i].(slug := r[i].slug)
            && r[i].slug.value != "" && r[i].slug.value !in existing)
  {
    var r := BackfillFrom(cs, existing, alloc);
    if i > 0 {
      var ex' := After(cs[0], existing, alloc);
      BackfillFromAt(cs[1..], ex', alloc, i - 1);
      assert r[i] == BackfillFrom(cs[1..], ex', alloc)[i - 1];
    } else if cs[0].slug.None? {
      assert r[0].slug.value == alloc(cs[0].title, existing);
    }
  }

  /** Two slug-less campaigns never receive the same slug. */
  lemma {:induction false} BackfillFromDistinctAt(cs: seq<Campaign>, existing: seq<string>, alloc: Allocator, i: nat, j: nat)
    requires Fresh(alloc)
    requires i < j < |cs| && cs[i].slug.None? && cs[j].slug.None?
    ensures BackfillFrom(cs, existing, alloc)[i].slug != BackfillFrom(cs, existing, alloc)[j].slug
  {
    var ex' := After(cs[0], existing, alloc);
    var r := BackfillFrom(cs, existing, alloc);
    var t := BackfillFrom(cs[1..], ex', alloc);
    assert r[j] == t[j - 1];
    if i > 0 {
      assert r[i] == t[i - 1];
      BackfillFromDistinctAt(cs[1..], ex', alloc, i - 1, j - 1);
    } else {
      BackfillFromAt(cs[1..], ex', alloc, j - 1);
      assert r[0].slug.value in ex';
    }
  }

  /** What the migration promises about the whole store: campaigns that had
      a slug keep it, the rest get one, and no two slugs collide. */
  lemma BackfillSound(cs: seq<Campaign>)
    ensures var r := Backfill(cs);
      && |r| == |cs|
      && (forall i :: 0 <= i < |cs| && cs[i].slug.Some? ==> r[i] == cs[i])
      && (forall i :: 0 <= i < |cs| && cs[i].slug.None? ==>
            r[i].slug.Some? && r[i] == cs[i].(slug := r[i].slug))
      && (forall i, j :: 0 <= i < j < |cs| && cs[i].slug.None? && cs[j].slug.None? ==> r[i].slug != r[j].slug)
      && (forall i, j :: 0 <= i < |cs| && 0 <= j < |cs| && cs[i].slug.None? && cs[j].slug.Some? ==> r[i].slug != cs[j].slug)
  {
    var ex := ExistingSlugs(cs);
    var r := Backfill(cs);
    NewSlugFresh();
    forall i | 0 <= i < |cs|
      ensures (cs[i].slug.Some? ==> r[i] == cs[i])
      ensures (cs[i].slug.None? ==> r[i].slug.Some? && r[i] == cs[i].(slug := r[i].slug))
    {
      BackfillFromAt(cs, ex, NewSlug, i);
    }
    forall i, j | 0 <= i < j < |cs| && cs[i].slug.None? && cs[j].slug.None?
      ensures r[i].slug != r[j].slug
    {
      BackfillFromDistinctAt(cs, ex, NewSlug, i, j);
    }
    forall i, j | 0 <= i < |cs| && 0 <= j < |cs| && cs[i].slug.None? && cs[j].slug.Some?
      ensures r[i].slug != cs[j].slug
    {
      BackfillFromAt(cs, ex, NewSlug, i);
      if cs[j].slug.value != "" {
        assert cs[j].slug.value in ex;
      }
    }
  }

  /** One iteration of the loop below, in terms of the fold. */
  lemma Step(cs: seq<Campaign>, i: nat, existing: seq<string>, alloc: Allocator, done: seq<Campaign>, total: seq<Campaign>)
    requires i < |cs|
    requires done + BackfillFrom(cs[i..], existing, alloc) == total
    ensures (done + [Settled(cs[i], existing, alloc)]) + BackfillFrom(cs[i + 1..], After(cs[i], existing, alloc), alloc) == total
  {
    assert cs[i..][1..] == cs[i + 1..];
  }

  /** The body of the loop in `backfillSlugs` for one campaign: a campaign
      without a slug gets `ensureUniqueSlug(generateSlug(title), existing)`,
      which then counts as taken. */
  method AssignSlug(c: Campaign, existingSlugs: seq<string>) returns (c': Campaign, existing': seq<string>)
    ensures c' == Settled(c, existingSlugs, NewSlug) && existing' == After(c, existingSlugs, NewSlug)
  {
    if c.slug.None? {
      var baseSlug := GenerateSlug(c.title);
      var slug := EnsureUniqueSlug(baseSlug, existingSlugs);
      EnsureUniqueSlugAgrees(baseSlug, existingSlugs, slug);
      c' := c.(slug := Some(slug));
      existing' := existingSlugs + [slug];
    } else {
      c' := c;
      existing' := existingSlugs;
    }
  }

  /** `backfillSlugs` (scripts/backfill-slugs.ts): each slug-less campaign
      gets `ensureUniqueSlug(generateSlug(title), existingSlugs)`, and the
      new slug is then pushed onto `existingSlugs`. The loop computes the
      fold, so `BackfillSound` describes its result. */
  method BackfillSlugs(campaigns: seq<Campaign>) returns (result: seq<Campaign>)
    ensures result == Backfill(campaigns)
  {
    var existingSlugs := ExistingSlugs(campaigns);
    result := [];
    var i := 0;
    while i < |campaigns|
      invariant 0 <= i <= |campaigns|
      invariant result + BackfillFrom(campaigns[i..], existingSlugs, NewSlug) == Backfill(campaigns)
    {
      Step(campaigns, i, existingSlugs, NewSlug, result, Backfill(campaigns));
      var c', existing' := AssignSlug(campaigns[i], existingSlugs);
      result := result + [c'];
      existingSlugs := existing';
      i := i + 1;
    }
    assert campaigns[i..] == [];
  }
}

=== FILE: bulk.dfy ===
/** The triage board's batch edit (app/api/responses/bulk/route.ts): an
    all-or-nothing ownership check followed by one `updateMany` that writes
    only the fields the caller supplied. */
module Bulk {
  import opened Domain
  import Collections

  /** The body after validation. `assignedTo` distinguishes "not supplied"
      (`None`) from "supplied as null" (`Some(None)`). */
  datatype BulkRequest = BulkRequest(
    responseIds: seq<string>,
    status: Option<string>,
    assignedTo: Option<Option<string>>,
    tags: Option<seq<string>>)

  datatype BulkResult = BulkResult(status: int, updated: nat, responses: seq<Response>)

  /** The owner of the campaign a response belongs to, if that campaign is stored. */
  function OwnerOf(campaigns: seq<Campaign>, campaignId: string): (o: Option<string>)
    ensures o.Some? <==> exists c :: c in campaigns && c.id == campaignId
    ensures o.Some? ==> exists c :: c in campaigns && c.id == campaignId && c.userId == o.value
  {
    var i := Collections.FirstIndex(campaigns, (c: Campaign) => c.id == campaignId);
    if i < |campaigns| then Some(campaigns[i].userId) else None
  }

  predicate Listed(req: BulkRequest, r: Response)
  {
    r.id in req.responseIds
  }

  /** A listed response the HR caller does not own. */
  predicate Foreign(s: Session, campaigns: seq<Campaign>, r: Response)
  {
    OwnerOf(campaigns, r.campaignId) != Some(s.userId)
  }

  /** `responses.some(r => r.campaign.userId !== session.user.id)` over the
      responses the listed ids find. */
  predicate Denied(s: Session, req: BulkRequest, campaigns: seq<Campaign>, responses: seq<Response>)
  {
    s.role == Hr && Collections.Count(responses, (r: Response) => Listed(req, r) && Foreign(s, campaigns, r)) > 0
  }

  /** One row after the update: each supplied field is overwritten, tags
      included; every other field is kept. */
  function Apply(req: BulkRequest, r: Response): Response
  {
    r.(status := if req.status.Some? then req.status.value else r.status,
       assignedTo := if req.assignedTo.Some? then req.assignedTo.value else r.assignedTo,
       tags := if req.tags.Some? then Some(req.tags.value) else r.tags)
  }

  /** `updateMany` with `id in responseIds`. */
  function UpdateMany(req: BulkRequest, responses: seq<Response>): (rs: seq<Response>)
    ensures |rs| == |responses|
    ensures forall i :: 0 <= i < |responses| && Listed(req, responses[i]) ==> rs[i] == Apply(req, responses[i])
    ensures forall i :: 0 <= i < |responses| && !Listed(req, responses[i]) ==> rs[i] == responses[i]
  {
    seq(|responses|, i requires 0 <= i < |responses| =>
      if Listed(req, responses[i]) then Apply(req, responses[i]) else responses[i])
  }

  /** `PATCH /api/responses/bulk`. */
  function BulkUpdate(session: Option<Session>, req: BulkRequest, campaigns: seq<Campaign>,
                      responses: seq<Response>): (r: BulkResult)
    ensures session.None? ==> r.status == Unauthorized
    ensures session.Some? && |req.responseIds| == 0 ==> r.status == BadRequest
    ensures r.status == Ok <==>
      session.Some? && |req.responseIds| > 0 && !Denied(session.value, req, campaigns, responses)
    ensures r.status == Ok || r.status == Unauthorized || r.status == BadRequest || r.status == Forbidden
    ensures r.status != Ok ==> r.responses == responses && r.updated == 0
    ensures r.status == Ok ==>
      r.responses == UpdateMany(req, responses)
      && r.updated == Collections.Count(responses, (x: Response) => Listed(req, x))
  {
    if session.None? then BulkResult(Unauthorized, 0, responses)
    else if |req.responseIds| == 0 then BulkResult(BadRequest, 0, responses)
    else if Denied(session.value, req, campaigns, responses) then BulkResult(Forbidden, 0, responses)
    else BulkResult(Ok, Collections.Count(responses, (x: Response) => Listed(req, x)), UpdateMany(req, responses))
  }

  /** The HR gate in positional terms: 403 exactly when some listed response
      belongs to a campaign the caller does not own. */
  lemma ForbiddenIff(s: Session, req: BulkRequest, campaigns: seq<Campaign>, responses: seq<Response>)
    requires |req.responseIds| > 0
    ensures BulkUpdate(Some(s), req, campaigns, responses).status == Forbidden <==>
      s.role == Hr && (exists i :: 0 <= i < |responses| && responses[i].id in req.responseIds
                                   && OwnerOf(campaigns, responses[i].campaignId) != Some(s.userId))
  {
    Collections.CountPositive(responses, (r: Response) => Listed(req, r) && Foreign(s, campaigns, r));
  }

  /** Admins are never refused once the id list is non-empty. */
  lemma AdminSkipsGate(s: Session, req: BulkRequest, campaigns: seq<Campaign>, responses: seq<Response>)
    requires s.role == Admin && |req.responseIds| > 0
    ensures BulkUpdate(Some(s), req, campaigns, responses).status == Ok
  {
  }

  /** The frame of one row: only supplied fields move, and the tag list is
      replaced rather than merged. */
  lemma ApplyFrame(req: BulkRequest, r: Response)
    ensures Apply(req, r).(status := r.status, assignedTo := r.assignedTo, tags := r.tags) == r
    ensures req.status.None? ==> Apply(req, r).status == r.status
    ensures req.status.Some? ==> Apply(req, r).status == req.status.value
    ensures req.assignedTo.None? ==> Apply(req, r).assignedTo == r.assignedTo
    ensures req.assignedTo.Some? ==> Apply(req, r).assignedTo == req.assignedTo.value
    ensures req.tags.None? ==> Apply(req, r).tags == r.tags
    ensures req.tags.Some? ==> Apply(req, r).tags == req.tags
  {
  }

  /** Repeating the same batch edit changes nothing more. */
  lemma UpdateManyIdempotent(req: BulkRequest, responses: seq<Response>)
    ensures UpdateMany(req, UpdateMany(req, responses)) == UpdateMany(req, responses)
  {
    var once := UpdateMany(req, responses);
    var twice := UpdateMany(req, once);
    forall i | 0 <= i < |responses|
      ensures twice[i] == once[i]
    {
      assert once[i].id == responses[i].id;
    }
  }

  // ---------------------------------------------------------------------
  // The reported count

  predicate IdsDistinct(responses: seq<Response>)
  {
    forall i, j :: 0 <= i < j < |responses| ==> responses[i].id != responses[j].id
  }

  function Ids(responses: seq<Response>): set<string>
  {
    set r | r in responses :: r.id
  }

  /** The listed ids that name a stored response. */
  function FoundIds(req: BulkRequest, responses: seq<Response>): set<string>
  {
    set id | id in req.responseIds && id in Ids(responses)
  }

  lemma {:induction false} CountFound(req: BulkRequest, responses: seq<Response>)
    requires IdsDistinct(responses)
    ensures Collections.Count(responses, (x: Response) => Listed(req, x)) == |FoundIds(req, responses)|
  {
    if |responses| > 0 {
      var rest := responses[1..];
      CountFound(req, rest);
      var h := responses[0];
      assert h.id !in Ids(rest);
      assert Ids(responses) == {h.id} + Ids(rest) by {
        assert responses == [h] + rest;
      }
      if Listed(req, h) {
        assert FoundIds(req, responses) == {h.id} + FoundIds(req, rest);
      } else {
        assert FoundIds(req, responses) == FoundIds(req, rest);
      }
    }
  }

  /** With the store's unique ids, `updated` is the number of distinct
      listed ids that exist; duplicates and unknown ids add nothing. */
  lemma UpdatedCountsFoundIds(s: Session, req: BulkRequest, campaigns: seq<Campaign>, responses: seq<Response>)
    requires IdsDistinct(responses)
    requires BulkUpdate(Some(s), req, campaigns, responses).status == Ok
    ensures BulkUpdate(Some(s), req, campaigns, responses).updated == |FoundIds(req, responses)|
  {
    CountFound(req, responses);
  }
}

=== FILE: campaigns_api.dfy ===
/** The campaigns collection endpoint (app/api/campaigns/route.ts): listing
    the campaigns a caller may see and creating a new one. */
module CampaignsApi {
  import opened Domain
  import opened Text
  import opened Slug
  import opened Ordering
  import Collections

  // ---------------------------------------------------------------------
  // GET

  datatype ListResult = ListUnauthorized | Listed(campaigns: seq<Campaign>)

  /** An admin sees every campaign; an HR user only the ones they own. */
  predicate Visible(s: Session, c: Campaign)
  {
    s.role == Admin || c.userId == s.userId
  }

  function CreatedAt(c: Campaign): int { c.createdAt }

  function VisibleTo(s: Session, store: seq<Campaign>): seq<Campaign>
  {
    Collections.Filter(store, c => Visible(s, c))
  }

  /** `GET`: 401 without a session, otherwise the visible campaigns, newest first. */
  function ListCampaigns(session: Option<Session>, store: seq<Campaign>): (r: ListResult)
    ensures r.ListUnauthorized? <==> session.None?
    ensures r.Listed? ==> SortedDesc(r.campaigns, CreatedAt)
    ensures r.Listed? ==> multiset(r.campaigns) == multiset(VisibleTo(session.value, store))
  {
    if session.None? then ListUnauthorized
    else Listed(SortDesc(VisibleTo(session.value, store), CreatedAt))
  }

  /** Which campaigns the listing holds, in terms of the store and the role. */
  lemma ListedMembers(s: Session, store: seq<Campaign>, c: Campaign)
    ensures var r := ListCampaigns(Some(s), store);
      && (c in r.campaigns <==> c in store && Visible(s, c))
      && (s.role == Hr && c in r.campaigns ==> c.userId == s.userId)
      && (s.role == Admin ==> (c in r.campaigns <==> c in store))
  {
    var r := ListCampaigns(Some(s), store);
    Collections.FilterMembers(store, c => Visible(s, c));
    assert c in r.campaigns <==> c in multiset(r.campaigns);
    assert c in VisibleTo(s, store) <==> c in multiset(VisibleTo(s, store));
  }

  // ---------------------------------------------------------------------
  // POST

  /** The validated request body. Dates arrive already parsed; an absent,
      null or empty date string is `None`. */
  datatype CreateRequest = CreateRequest(
    title: string,
    question: string,
    startDate: Option<int>,
    closeDate: Option<int>,
    isRecurring: Option<bool>,
    recurringInterval: Option<Interval>)

  datatype CreateResult = CreateResult(status: int, created: Option<Campaign>, store: seq<Campaign>)

  /** `shouldStartNow`: no start date, or one that is not in the future. */
  predicate ShouldStartNow(startDate: Option<int>, now: int)
  {
    startDate.None? || startDate.value <= now
  }

  /** `POST`: 401 without a session; 400 for an empty title or question
      (the zod schema) or a blank base slug; otherwise the new campaign is
      appended to the store under a slug no other campaign holds. */
  function CreateCampaign(session: Option<Session>, req: CreateRequest, store: seq<Campaign>,
                          now: int, newId: string): (r: CreateResult)
    ensures r.status == Created <==> session.Some? && req.title != "" && req.question != ""
    ensures session.None? ==> r.status == Unauthorized
    ensures session.Some? && r.status != Created ==> r.status == BadRequest
    ensures r.status != Created ==> r.created.None? && r.store == store
    ensures r.status == Created ==> r.created.Some? && r.store == store + [r.created.value]
  {
    if session.None? then CreateResult(Unauthorized, None, store)
    else if req.title == "" || req.question == "" then CreateResult(BadRequest, None, store)
    else
      var baseSlug := GenerateSlug(req.title);
      NotBlank(baseSlug);
      if Blank(baseSlug) then CreateResult(BadRequest, None, store)
      else
        var slug := UniqueSlug(baseSlug, ExistingSlugs(store));
        var c := Campaign(
          id := newId,
          title := req.title,
          slug := if Blank(slug) then None else Some(slug),
          question := req.question,
          startDate := req.startDate,
          closeDate := req.closeDate,
          isActive := ShouldStartNow(req.startDate, now),
          isRecurring := req.isRecurring.GetOr(false),
          recurringInterval := req.recurringInterval,
          publicReportOn := false,
          aiReportGenerated := false,
          userId := session.value.userId,
          createdAt := now);
        CreateResult(Created, Some(c), store + [c])
  }

  /** A slug starts with a letter, digit or hyphen, so it is never blank. */
  lemma NotBlank(s: string)
    requires WellShaped(s)
    ensures !Blank(s)
  {
    BlankIffAllSpace(s);
    assert !IsSpace(s[0]);
  }

  lemma CandidateNotBlank(base: string, k: nat)
    requires WellShaped(base)
    ensures !Blank(Candidate(base, k))
  {
    var c := Candidate(base, k);
    BlankIffAllSpace(c);
    assert c[0] == base[0];
    assert !IsSpace(c[0]);
  }

  /** The fields a successful `POST` gives the new campaign. */
  lemma CreatedFields(s: Session, req: CreateRequest, store: seq<Campaign>, now: int, newId: string)
    requires req.title != "" && req.question != ""
    ensures var r := CreateCampaign(Some(s), req, store, now, newId);
      var c := r.created.value;
      && c.isActive == (req.startDate.None? || req.startDate.value <= now)
      && c.publicReportOn == false && c.aiReportGenerated == false
      && c.userId == s.userId
      && c.isRecurring == (req.isRecurring == Some(true))
      && c.recurringInterval == req.recurringInterval
      && c.title == req.title && c.question == req.question
      && c.startDate == req.startDate && c.closeDate == req.closeDate
      && c.id == newId && c.createdAt == now
  {
  }

  /** The new slug is the suffix-probed `generateSlug(title)` and clashes
      with the slug of no campaign already stored. */
  lemma CreatedSlugFresh(s: Session, req: CreateRequest, store: seq<Campaign>, now: int, newId: string)
    requires req.title != "" && req.question != ""
    ensures var c := CreateCampaign(Some(s), req, store, now, newId).created.value;
      && c.slug == Some(UniqueSlug(GenerateSlug(req.title), ExistingSlugs(store)))
      && c.slug.value != ""
      && forall d :: d in store ==> d.slug != c.slug
  {
    var base := GenerateSlug(req.title);
    var slug := UniqueSlug(base, ExistingSlugs(store));
    var k :| LeastFree(base, ExistingSlugs(store), k) && slug == Candidate(base, k);
    CandidateNotBlank(base, k);
    assert slug != "";
  }

  /** No two stored campaigns share a non-empty slug. */
  predicate SlugsDistinct(store: seq<Campaign>)
  {
    forall i, j :: 0 <= i < j < |store| && Truthy(store[i].slug) ==> store[i].slug != store[j].slug
  }

  /** Creating a campaign keeps the slugs of the store distinct. */
  lemma CreatePreservesSlugsDistinct(session: Option<Session>, req: CreateRequest, store: seq<Campaign>,
                                     now: int, newId: string)
    requires SlugsDistinct(store)
    ensures SlugsDistinct(CreateCampaign(session, req, store, now, newId).store)
  {
    var r := CreateCampaign(session, req, store, now, newId);
    if r.status == Created {
      CreatedSlugFresh(session.value, req, store, now, newId);
      var c := r.created.value;
      forall i, j | 0 <= i < j < |r.store| && Truthy(r.store[i].slug)
        ensures r.store[i].slug != r.store[j].slug
      {
        if j == |store| {
          assert r.store[i] in store;
        }
      }
    }
  }

  /** The creator sees the campaign just created in their own listing. */
  lemma CreatedIsListed(s: Session, req: CreateRequest, store: seq<Campaign>, now: int, newId: string)
    requires req.title != "" && req.question != ""
    ensures var r := CreateCampaign(Some(s), req, store, now, newId);
      r.created.value in ListCampaigns(Some(s), r.store).campaigns
  {
    var r := CreateCampaign(Some(s), req, store, now, newId);
    ListedMembers(s, r.store, r.created.value);
  }
}

=== FILE: collections.dfy ===
/** Generic sequence helpers shared by the model: filtering and counting
    with a predicate, the two things the source does with `Array.filter`. */
module Collections {

  /** The elements of `s` that satisfy `p`, in their original order. */
  function Filter<T>(s: seq<T>, p: T -> bool): (r: seq<T>)
    ensures |r| <= |s|
  {
    if |s| == 0 then []
    else if p(s[0]) then [s[0]] + Filter(s[1..], p)
    else Filter(s[1..], p)
  }

  /** The filtered sequence holds exactly the elements satisfying `p`. */
  lemma {:induction false} FilterMembers<T>(s: seq<T>, p: T -> bool)
    ensures forall i :: 0 <= i < |Filter(s, p)| ==> Filter(s, p)[i] in s && p(Filter(s, p)[i])
    ensures forall i :: 0 <= i < |s| && p(s[i]) ==> s[i] in Filter(s, p)
  {
    if |s| > 0 {
      FilterMembers(s[1..], p);
    }
  }

  /** How many elements of `s` satisfy `p` (`s.filter(p).length`). */
  function Count<T>(s: seq<T>, p: T -> bool): (n: nat)
    ensures n <= |s|
  {
    if |s| == 0 then 0
    else (if p(s[0]) then 1 else 0) + Count(s[1..], p)
  }

  lemma {:induction false} CountIsFilterLength<T>(s: seq<T>, p: T -> bool)
    ensures Count(s, p) == |Filter(s, p)|
  {
    if |s| > 0 {
      CountIsFilterLength(s[1..], p);
    }
  }

  lemma {:induction false} CountAppend<T>(a: seq<T>, b: seq<T>, p: T -> bool)
    ensures Count(a + b, p) == Count(a, p) + Count(b, p)
  {
    if |a| == 0 {
      assert a + b == b;
    } else {
      assert (a + b)[1..] == a[1..] + b;
      CountAppend(a[1..], b, p);
    }
  }

  lemma {:induction false} FilterAppend<T>(a: seq<T>, b: seq<T>, p: T -> bool)
    ensures Filter(a + b, p) == Filter(a, p) + Filter(b, p)
  {
    if |a| == 0 {
      assert a + b == b;
    } else {
      assert (a + b)[1..] == a[1..] + b;
      FilterAppend(a[1..], b, p);
    }
  }

  /** Counting `q` among the elements kept by `p` is counting their conjunction. */
  lemma {:induction false} CountFilter<T>(s: seq<T>, p: T -> bool, q: T -> bool, pq: T -> bool)
    requires forall x :: pq(x) <==> p(x) && q(x)
    ensures Count(Filter(s, p), q) == Count(s, pq)
  {
    if |s| > 0 {
      CountFilter(s[1..], p, q, pq);
      if p(s[0]) {
        assert ([s[0]] + Filter(s[1..], p))[1..] == Filter(s[1..], p);
      }
    }
  }

  /** Count is positive exactly when some element satisfies the predicate. */
  lemma {:induction false} CountPositive<T>(s: seq<T>, p: T -> bool)
    ensures Count(s, p) > 0 <==> exists i :: 0 <= i < |s| && p(s[i])
  {
    if |s| > 0 {
      CountPositive(s[1..], p);
      if Count(s[1..], p) > 0 {
        var i :| 0 <= i < |s[1..]| && p(s[1..][i]);
        assert p(s[i + 1]);
      }
      if !p(s[0]) && (exists i :: 0 <= i < |s| && p(s[i])) {
        var i :| 0 <= i < |s| && p(s[i]);
        assert 0 <= i - 1 < |s[1..]| && p(s[1..][i - 1]);
      }
    }
  }

  /** Counting with a weaker predicate never yields less. */
  lemma {:induction false} CountMonotone<T>(s: seq<T>, p: T -> bool, q: T -> bool)
    requires forall x :: p(x) ==> q(x)
    ensures Count(s, p) <= Count(s, q)
  {
    if |s| > 0 {
      CountMonotone(s[1..], p, q);
    }
  }

  /** Counts of pairwise exclusive predicates add up to the count of their union. */
  lemma {:induction false} CountDisjointSum<T>(s: seq<T>, p: T -> bool, q: T -> bool, pq: T -> bool)
    requires forall x :: !(p(x) && q(x))
    requires forall x :: pq(x) <==> p(x) || q(x)
    ensures Count(s, p) + Count(s, q) == Count(s, pq)
  {
    if |s| > 0 {
      CountDisjointSum(s[1..], p, q, pq);
    }
  }

  /** `a` is an order-preserving subsequence of `b`. */
  predicate IsSubsequence<T(==)>(a: seq<T>, b: seq<T>)
    decreases |b|
  {
    if |a| == 0 then true
    else if |b| == 0 then false
    else if a[0] == b[0] then IsSubsequence(a[1..], b[1..])
    else IsSubsequence(a, b[1..])
  }

  lemma {:induction false} FilterIsSubsequence<T>(s: seq<T>, p: T -> bool)
    ensures IsSubsequence(Filter(s, p), s)
  {
    if |s| > 0 {
      FilterIsSubsequence(s[1..], p);
      FilterMembers(s[1..], p);
    }
  }

  /** The index of the first element satisfying `p` (`findIndex`), or `|s|`
      when there is none. */
  function FirstIndex<T>(s: seq<T>, p: T -> bool): (i: nat)
    ensures i <= |s|
    ensures forall j :: 0 <= j < i ==> !p(s[j])
    ensures i < |s| ==> p(s[i])
  {
    if |s| == 0 then 0
    else if p(s[0]) then 0
    else 1 + FirstIndex(s[1..], p)
  }

  /** Every element satisfies `p` exactly when all of them are counted. */
  lemma {:induction false} CountFull<T>(s: seq<T>, p: T -> bool)
    ensures (forall i :: 0 <= i < |s| ==> p(s[i])) <==> Count(s, p) == |s|
  {
    if |s| > 0 {
      CountFull(s[1..], p);
      assert forall i :: 1 <= i < |s| ==> s[i] == s[1..][i - 1];
    }
  }

  lemma {:induction false} SubsequenceRefl<T>(s: seq<T>)
    ensures IsSubsequence(s, s)
  {
    if |s| > 0 {
      SubsequenceRefl(s[1..]);
    }
  }

  lemma {:induction false} FilterKeepsAll<T>(s: seq<T>, p: T -> bool)
    requires forall i :: 0 <= i < |s| ==> p(s[i])
    ensures Filter(s, p) == s
  {
    if |s| > 0 {
      FilterKeepsAll(s[1..], p);
    }
  }

  lemma {:induction false} FilterDropsAll<T>(s: seq<T>, p: T -> bool)
    requires forall i :: 0 <= i < |s| ==> !p(s[i])
    ensures Filter(s, p) == []
  {
    if |s| > 0 {
      FilterDropsAll(s[1..], p);
    }
  }

  /** Extending a prefix by one element adds one to the count exactly when
      that element satisfies `p`. */
  lemma CountPrefixStep<T>(s: seq<T>, i: nat, p: T -> bool)
    requires i < |s|
    ensures Count(s[..i + 1], p) == Count(s[..i], p) + (if p(s[i]) then 1 else 0)
  {
    assert s[..i + 1] == s[..i] + [s[i]];
    CountAppend(s[..i], [s[i]], p);
  }
}

=== FILE: dashboard.dfy ===
/** The campaign dashboard (app/page.tsx): per-campaign sentiment buckets,
    the open/closed reading of a campaign, the search/status/owner filters,
    the summary counts, the keyboard selection and the sort orders. */
module Dashboard {
  import opened Domain
  import opened Text
  import opened Ordering
  import Collections

  /** A campaign as the listing returns it: with its responses and the
      `_count` of them. */
  datatype CampaignView = CampaignView(campaign: Campaign, responses: seq<Response>, responseCount: nat)

  /** The listing's view of a stored campaign. */
  function ViewOf(c: Campaign, responses: seq<Response>): (v: CampaignView)
    ensures v.responseCount == |v.responses|
    ensures forall r :: r in v.responses <==> r in responses && r.campaignId == c.id
  {
    var rs := Collections.Filter(responses, (r: Response) => r.campaignId == c.id);
    Collections.FilterMembers(responses, (r: Response) => r.campaignId == c.id);
    CampaignView(c, rs, |rs|)
  }

  // ---------------------------------------------------------------------
  // Sentiment buckets

  datatype Buckets = Buckets(positive: nat, neutral: nat, negative: nat)

  /** The `reduce`: positive and negative by label, everything else neutral. */
  function Bucket(rs: seq<Response>): (b: Buckets)
    ensures b.positive + b.neutral + b.negative == |rs|
  {
    if |rs| == 0 then Buckets(0, 0, 0)
    else
      var b := Bucket(rs[1..]);
      if rs[0].sentiment == SentimentPositive then b.(positive := b.positive + 1)
      else if rs[0].sentiment == SentimentNegative then b.(negative := b.negative + 1)
      else b.(neutral := b.neutral + 1)
  }

  predicate Other(r: Response)
  {
    r.sentiment != SentimentPositive && r.sentiment != SentimentNegative
  }

  /** Each bucket counts the responses carrying its label; neutral takes
      every response that is neither positive nor negative. */
  lemma {:induction false} BucketCounts(rs: seq<Response>)
    ensures Bucket(rs).positive == Collections.Count(rs, (r: Response) => r.sentiment == SentimentPositive)
    ensures Bucket(rs).negative == Collections.Count(rs, (r: Response) => r.sentiment == SentimentNegative)
    ensures Bucket(rs).neutral == Collections.Count(rs, Other)
  {
    if |rs| > 0 {
      BucketCounts(rs[1..]);
    }
  }

  // ---------------------------------------------------------------------
  // Open or closed

  /** A close date decides when there is one; otherwise the active flag. */
  predicate IsClosed(c: Campaign, now: int)
  {
    if c.closeDate.Some? then c.closeDate.value < now else !c.isActive
  }

  // ---------------------------------------------------------------------
  // Filters

  datatype StatusFilter = All | ActiveOnly | ClosedOnly

  /** The dashboard's controls; `owner == None` is the "all" choice. */
  datatype Filters = Filters(search: string, status: StatusFilter, owner: Option<string>)

  predicate SearchHit(v: CampaignView, query: string)
  {
    query == "" || MatchesQuery(v.campaign.title, query) || MatchesQuery(v.campaign.question, query)
  }

  predicate StatusHit(v: CampaignView, status: StatusFilter, now: int)
  {
    match status
    case All => true
    case ActiveOnly => !IsClosed(v.campaign, now)
    case ClosedOnly => IsClosed(v.campaign, now)
  }

  predicate OwnerHit(v: CampaignView, owner: Option<string>, isAdmin: bool)
  {
    !(isAdmin && owner.Some?) || v.campaign.userId == owner.value
  }

  predicate Keep(v: CampaignView, f: Filters, isAdmin: bool, now: int)
  {
    SearchHit(v, f.search) && StatusHit(v, f.status, now) && OwnerHit(v, f.owner, isAdmin)
  }

  function Keeper(f: Filters, isAdmin: bool, now: int): CampaignView -> bool
  {
    v => Keep(v, f, isAdmin, now)
  }

  /** `filteredCampaigns` before sorting. */
  function FilterViews(vs: seq<CampaignView>, f: Filters, isAdmin: bool, now: int): seq<CampaignView>
  {
    Collections.Filter(vs, Keeper(f, isAdmin, now))
  }

  /** The filtered list keeps the order of the listing and holds exactly the
      campaigns every active filter accepts. */
  lemma FilterViewsMembers(vs: seq<CampaignView>, f: Filters, isAdmin: bool, now: int, v: CampaignView)
    ensures Collections.IsSubsequence(FilterViews(vs, f, isAdmin, now), vs)
    ensures v in FilterViews(vs, f, isAdmin, now) <==> v in vs && Keep(v, f, isAdmin, now)
  {
    Collections.FilterIsSubsequence(vs, Keeper(f, isAdmin, now));
    Collections.FilterMembers(vs, Keeper(f, isAdmin, now));
  }

  /** The search box: a case-insensitive substring of title or question. */
  lemma SearchIff(v: CampaignView, query: string)
    requires query != ""
    ensures SearchHit(v, query) <==>
      Contains(Lower(v.campaign.title), Lower(query)) || Contains(Lower(v.campaign.question), Lower(query))
  {
  }

  /** The owner filter is ignored for non-admins. */
  lemma OwnerFilterAdminOnly(v: CampaignView, f: Filters, now: int)
    ensures Keep(v, f, false, now) == Keep(v, f.(owner := None), false, now)
  {
  }

  /** "Active" and "closed" split whatever the other filters let through. */
  lemma ActiveClosedPartition(vs: seq<CampaignView>, f: Filters, isAdmin: bool, now: int)
    ensures |FilterViews(vs, f.(status := ActiveOnly), isAdmin, now)|
          + |FilterViews(vs, f.(status := ClosedOnly), isAdmin, now)|
         == |FilterViews(vs, f.(status := All), isAdmin, now)|
  {
    var pa := Keeper(f.(status := ActiveOnly), isAdmin, now);
    var pc := Keeper(f.(status := ClosedOnly), isAdmin, now);
    var pall := Keeper(f.(status := All), isAdmin, now);
    Collections.CountIsFilterLength(vs, pa);
    Collections.CountIsFilterLength(vs, pc);
    Collections.CountIsFilterLength(vs, pall);
    Collections.CountDisjointSum(vs, pa, pc, pall);
  }

  // ---------------------------------------------------------------------
  // Counts

  predicate AwaitingTriage(r: Response)
  {
    r.status == StatusNeedsAttention || r.status == StatusNew
  }

  predicate Unresolved(r: Response)
  {
    r.status == StatusNeedsAttention || r.status == StatusNew || r.status == StatusInReview
  }

  predicate Critical(r: Response) { r.status == StatusNeedsAttention }

  predicate Resolved(r: Response) { r.status == StatusResolved }

  /** `needsAttention`: triage-pending responses over all campaigns. */
  function NeedsAttention(vs: seq<CampaignView>): nat
  {
    if |vs| == 0 then 0 else Collections.Count(vs[0].responses, AwaitingTriage) + NeedsAttention(vs[1..])
  }

  /** `unresolvedCritical`: some campaign has a triage-pending response. */
  predicate UnresolvedCritical(vs: seq<CampaignView>)
  {
    exists i :: 0 <= i < |vs| && Collections.Count(vs[i].responses, AwaitingTriage) > 0
  }

  lemma {:induction false} UnresolvedCriticalIff(vs: seq<CampaignView>)
    ensures UnresolvedCritical(vs) <==> NeedsAttention(vs) > 0
  {
    if |vs| > 0 {
      UnresolvedCriticalIff(vs[1..]);
      if UnresolvedCritical(vs[1..]) {
        var i :| 0 <= i < |vs[1..]| && Collections.Count(vs[1..][i].responses, AwaitingTriage) > 0;
        assert vs[i + 1] == vs[1..][i];
      }
      if UnresolvedCritical(vs) && Collections.Count(vs[0].responses, AwaitingTriage) == 0 {
        var i :| 0 <= i < |vs| && Collections.Count(vs[i].responses, AwaitingTriage) > 0;
        assert vs[1..][i - 1] == vs[i];
      }
    }
  }

  /** One card's badges: critical issues are among the unresolved ones. */
  lemma CriticalWithinUnresolved(v: CampaignView)
    ensures Collections.Count(v.responses, Critical) <= Collections.Count(v.responses, Unresolved)
  {
    Collections.CountMonotone(v.responses, Critical, Unresolved);
  }

  /** The "all resolved" mark. */
  predicate AllResolved(v: CampaignView)
  {
    v.responseCount > 0 && forall i :: 0 <= i < |v.responses| ==> Resolved(v.responses[i])
  }

  /** A card is all-resolved iff it has responses and every one is resolved;
      such a card shows no unresolved item. */
  lemma AllResolvedIff(v: CampaignView)
    requires v.responseCount == |v.responses|
    ensures AllResolved(v) <==> |v.responses| > 0 && Collections.Count(v.responses, Resolved) == |v.responses|
    ensures AllResolved(v) ==> Collections.Count(v.responses, Unresolved) == 0
  {
    Collections.CountFull(v.responses, Resolved);
    if AllResolved(v) {
      Collections.CountPositive(v.responses, Unresolved);
    }
  }

  // ---------------------------------------------------------------------
  // Keyboard selection

  /** `onNavigate`: nothing on an empty list; from "no selection" to the
      first card; otherwise one step, clamped to the list. */
  function Navigate(prev: int, down: bool, len: nat): (next: int)
    ensures len == 0 ==> next == prev
    ensures len > 0 ==> 0 <= next < len
    ensures len > 0 && prev == -1 ==> next == 0
    ensures len > 0 && 0 <= prev < len ==>
      next == (if down then (if prev + 1 < len then prev + 1 else prev) else (if prev > 0 then prev - 1 else 0))
  {
    if len == 0 then prev
    else if prev == -1 then 0
    else
      var step := if down then prev + 1 else prev - 1;
      var capped := if len - 1 < step then len - 1 else step;
      if capped < 0 then 0 else capped
  }

  /** From a selection inside the list, any number of key presses keep it inside. */
  lemma {:induction false} NavigateStaysInside(prev: int, moves: seq<bool>, len: nat)
    requires len > 0 && (prev == -1 || 0 <= prev < len)
    ensures var last := NavigateAll(prev, moves, len); last == -1 || 0 <= last < len
    ensures |moves| > 0 ==> 0 <= NavigateAll(prev, moves, len) < len
    decreases |moves|
  {
    if |moves| > 0 {
      NavigateStaysInside(Navigate(prev, moves[0], len), moves[1..], len);
    }
  }

  function NavigateAll(prev: int, moves: seq<bool>, len: nat): int
    decreases |moves|
  {
    if |moves| == 0 then prev else NavigateAll(Navigate(prev, moves[0], len), moves[1..], len)
  }

  // ---------------------------------------------------------------------
  // Sorting

  /** The numeric sort orders. The alphabetical order (`localeCompare`) is
      not modelled. */
  datatype SortKey = Newest | MostResponses

  function ResponseCount(v: CampaignView): int { v.responseCount }
  function Created(v: CampaignView): int { v.campaign.createdAt }

  function SortViews(vs: seq<CampaignView>, key: SortKey): (r: seq<CampaignView>)
    ensures multiset(r) == multiset(vs)
    ensures key == MostResponses ==> SortedDesc(r, ResponseCount)
    ensures key == Newest ==> SortedDesc(r, Created)
  {
    match key
    case Newest => SortDesc(vs, Created)
    case MostResponses => SortDesc(vs, ResponseCount)
  }

  /** Sorting by most responses: non-increasing counts along the list. */
  lemma MostResponsesOrder(vs: seq<CampaignView>, i: nat, j: nat)
    requires i <= j < |vs|
    ensures |SortViews(vs, MostResponses)| == |vs|
    ensures SortViews(vs, MostResponses)[i].responseCount >= SortViews(vs, MostResponses)[j].responseCount
  {
    var r := SortViews(vs, MostResponses);
    assert |r| == |multiset(r)| == |multiset(vs)| == |vs|;
  }
}

=== FILE: demo.dfy ===
/** The demo-workspace seeder (lib/demo-data.ts): make sure the demo user
    and the demo campaign exist, and give the campaign five sample
    responses the first time it has none. Fresh ids, the clock and the
    random back-dating of the samples are parameters. */
module Demo {
  import opened Domain
  import Slug
  import Collections

  const DemoEmail := "demo@example.com"
  const DemoName := "Demo User"
  const DemoTitle := "Q1 2024 Employee Satisfaction Survey"
  const DemoQuestion := "What are the top 3 things we should improve to make your work experience better?"

  const DayMs := 24 * 60 * 60 * 1000
  /** The demo campaign always closes ninety days after the seeding. */
  const CloseAfterMs := 90 * DayMs
  /** Samples are back-dated by a random amount below a week. */
  const BackdateLimitMs := 7 * DayMs

  datatype Sample = Sample(text: string, mood: Mood, sentiment: string, status: string)

  const Samples: seq<Sample> := [
    Sample("I love the flexible work hours and the supportive team culture. It really helps with work-life balance.",
      Grinning, SentimentPositive, StatusResolved),
    Sample("The technical debt is really slowing us down. We need dedicated time to refactor and improve our tools.",
      Disappointed, SentimentNegative, StatusNeedsAttention),
    Sample("Onboarding for new hires could be more streamlined. It feels a bit chaotic and unorganized.",
      Frowning, SentimentNegative, StatusNew),
    Sample("Communication between departments needs improvement. Sometimes we work in silos.",
      Frowning, SentimentNegative, StatusNeedsAttention),
    Sample("Appreciate the recent focus on mental health initiatives. It shows the company cares.",
      Smiling, SentimentPositive, StatusResolved)
  ]

  datatype Store = Store(users: seq<User>, campaigns: seq<Campaign>, responses: seq<Response>)

  /** What the environment supplies: ids the store would mint, the clock,
      the per-sample random back-dating and the `attention` column default. */
  datatype Env = Env(
    userId: string,
    campaignId: string,
    responseIds: seq<string>,
    now: int,
    backdates: seq<int>,
    attentionDefault: string)

  predicate ValidEnv(env: Env)
  {
    && |env.responseIds| == |Samples|
    && |env.backdates| == |Samples|
    && forall i :: 0 <= i < |env.backdates| ==> 0 <= env.backdates[i] < BackdateLimitMs
  }

  datatype SeedResult = SeedResult(
    userId: string,
    userEmail: string,
    userCreated: bool,
    campaignId: string,
    campaignSlug: string,
    responsesAdded: nat,
    existingResponses: nat)

  datatype Outcome = Outcome(store: Store, result: SeedResult)

  function EmailIs(email: string): User -> bool
  {
    (u: User) => u.email == email
  }

  function SlugIs(slug: string): Campaign -> bool
  {
    (c: Campaign) => c.slug == Some(slug)
  }

  function InCampaign(id: string): Response -> bool
  {
    (r: Response) => r.campaignId == id
  }

  const DemoSlug := Slug.GenerateSlug(DemoTitle)

  /** The demo user, created (as an HR user) only when no user has the demo
      e-mail; the flag says whether it was created. */
  function EnsureUser(us: seq<User>, newId: string): (r: (seq<User>, User, bool))
    ensures r.1.email == DemoEmail && r.1 in r.0
    ensures r.2 <==> forall u :: u in us ==> u.email != DemoEmail
    ensures !r.2 ==> r.0 == us
    ensures r.2 ==> r.0 == us + [r.1] && r.1.id == newId && r.1.role == Hr
  {
    var k := Collections.FirstIndex(us, EmailIs(DemoEmail));
    if k < |us| then (us, us[k], false)
    else
      var u := User(newId, DemoEmail, DemoName, Hr, None, None);
      (us + [u], u, true)
  }

  /** The `upsert` keyed by the demo slug: the campaign holding that slug is
      reset and handed to the demo user, or a new one is created. The slug
      is used as generated, without the uniqueness probe. */
  function UpsertCampaign(cs: seq<Campaign>, slug: string, ownerId: string, env: Env): (r: (seq<Campaign>, nat))
    ensures r.1 < |r.0|
    ensures var c := r.0[r.1];
      && c.slug == Some(slug) && c.title == DemoTitle && c.question == DemoQuestion
      && c.userId == ownerId && c.isActive && !c.publicReportOn && !c.aiReportGenerated
      && c.closeDate == Some(env.now + CloseAfterMs)
    ensures r.1 < |cs| <==> exists c :: c in cs && c.slug == Some(slug)
    ensures r.1 < |cs| ==>
      (|r.0| == |cs| && r.0[r.1].id == cs[r.1].id && forall i :: 0 <= i < |cs| && i != r.1 ==> r.0[i] == cs[i])
    ensures r.1 == |cs| ==> r.0 == cs + [r.0[r.1]] && r.0[r.1].id == env.campaignId
  {
    var j := Collections.FirstIndex(cs, SlugIs(slug));
    var closeDate := Some(env.now + CloseAfterMs);
    if j < |cs| then
      var c := cs[j].(title := DemoTitle, question := DemoQuestion, userId := ownerId, isActive := true,
                      publicReportOn := false, aiReportGenerated := false, closeDate := closeDate);
      (cs[j := c], j)
    else
      var c := Campaign(env.campaignId, DemoTitle, Some(slug), DemoQuestion, None, closeDate,
                        true, false, None, false, false, ownerId, env.now);
      (cs + [c], j)
  }

  /** The five sample responses, filed under `campaignId` and back-dated. */
  function SampleRows(campaignId: string, env: Env): (rs: seq<Response>)
    requires ValidEnv(env)
    ensures |rs| == |Samples|
    ensures forall i :: 0 <= i < |rs| ==>
      && rs[i].campaignId == campaignId && rs[i].id == env.responseIds[i]
      && rs[i].text == Samples[i].text && rs[i].mood == Some(Samples[i].mood)
      && rs[i].sentiment == Samples[i].sentiment && rs[i].status == Samples[i].status
      && env.now - BackdateLimitMs < rs[i].createdAt <= env.now
  {
    seq(|Samples|, i requires 0 <= i < |Samples| =>
      Response(env.responseIds[i], campaignId, Samples[i].text, Some(Samples[i].mood),
               Samples[i].sentiment, env.attentionDefault, Samples[i].status,
               None, None, None, env.now - env.backdates[i]))
  }

  /** `createDemoCampaign`, for the slug the demo title yields. */
  function CreateDemoCampaign(st: Store, env: Env): Outcome
    requires ValidEnv(env)
  {
    Seed(st, env, DemoSlug)
  }

  /** The seeding with the campaign slug as a parameter; the lemmas below
      hold whatever that slug is. */
  function Seed(st: Store, env: Env, slug: string): (o: Outcome)
    requires ValidEnv(env)
  {
    var (users, user, userCreated) := EnsureUser(st.users, env.userId);
    var (campaigns, j) := UpsertCampaign(st.campaigns, slug, user.id, env);
    var campaign := campaigns[j];
    var existing := Collections.Count(st.responses, InCampaign(campaign.id));
    var added := if existing == 0 then SampleRows(campaign.id, env) else [];
    Outcome(
      Store(users, campaigns, st.responses + added),
      SeedResult(user.id, user.email, userCreated, campaign.id, campaign.slug.GetOr(""), |added|, existing))
  }

  /** What one seeding promises: the demo user and campaign exist and are
      linked, and samples are added, all five, exactly when the campaign had
      no responses. */
  lemma SeedOutcome(st: Store, env: Env, slug: string)
    requires ValidEnv(env)
    ensures var o := Seed(st, env, slug);
      && o.result.userEmail == DemoEmail
      && (o.result.userCreated <==> forall u :: u in st.users ==> u.email != DemoEmail)
      && o.result.campaignSlug == slug
      && (exists c :: c in o.store.campaigns && c.id == o.result.campaignId
            && c.slug == Some(slug) && c.userId == o.result.userId && c.isActive)
      && o.result.existingResponses == Collections.Count(st.responses, InCampaign(o.result.campaignId))
      && (o.result.responsesAdded == if o.result.existingResponses == 0 then |Samples| else 0)
      && |o.store.responses| == |st.responses| + o.result.responsesAdded
      && o.store.responses[..|st.responses|] == st.responses
  {
    var (users, user, userCreated) := EnsureUser(st.users, env.userId);
    var (campaigns, j) := UpsertCampaign(st.campaigns, slug, user.id, env);
    assert campaigns[j] in campaigns;
  }

  /** The first match is where `p` first holds. */
  lemma {:induction false} FirstIndexAt<T>(s: seq<T>, p: T -> bool, k: nat)
    requires k < |s| && p(s[k])
    requires forall i :: 0 <= i < k ==> !p(s[i])
    ensures Collections.FirstIndex(s, p) == k
  {
    if k > 0 {
      FirstIndexAt(s[1..], p, k - 1);
    }
  }

  /** A second look-up finds the user the first one returned or created. */
  lemma EnsureUserAgain(us: seq<User>, id1: string, id2: string)
    ensures var r := EnsureUser(us, id1);
      EnsureUser(r.0, id2) == (r.0, r.1, false)
  {
    var r := EnsureUser(us, id1);
    var k := Collections.FirstIndex(us, EmailIs(DemoEmail));
    if k < |us| {
      FirstIndexAt(us, EmailIs(DemoEmail), k);
    } else {
      assert EmailIs(DemoEmail)(r.0[|us|]);
      FirstIndexAt(r.0, EmailIs(DemoEmail), |us|);
    }
  }

  /** A second upsert lands on the campaign the first one wrote. */
  lemma UpsertAgain(cs: seq<Campaign>, slug: string, owner1: string, owner2: string, env1: Env, env2: Env)
    ensures var r1 := UpsertCampaign(cs, slug, owner1, env1);
      var r2 := UpsertCampaign(r1.0, slug, owner2, env2);
      r2.1 == r1.1 && |r2.0| == |r1.0| && r2.0[r2.1].id == r1.0[r1.1].id
  {
    var r1 := UpsertCampaign(cs, slug, owner1, env1);
    var j := r1.1;
    forall i | 0 <= i < j
      ensures !SlugIs(slug)(r1.0[i])
    {
      assert r1.0[i] == cs[i];
    }
    assert SlugIs(slug)(r1.0[j]);
    FirstIndexAt(r1.0, SlugIs(slug), j);
  }

  /** After a seeding the demo campaign has at least one response. */
  lemma SeededNonEmpty(st: Store, env: Env, slug: string)
    requires ValidEnv(env)
    ensures var o := Seed(st, env, slug);
      Collections.Count(o.store.responses, InCampaign(o.result.campaignId)) > 0
  {
    var o := Seed(st, env, slug);
    var id := o.result.campaignId;
    var n := Collections.Count(st.responses, InCampaign(id));
    var added := if n == 0 then SampleRows(id, env) else [];
    assert o.store.responses == st.responses + added;
    Collections.CountAppend(st.responses, added, InCampaign(id));
    if n == 0 {
      assert InCampaign(id)(added[0]);
      Collections.CountPositive(added, InCampaign(id));
    }
  }

  /** Seeding twice adds nothing the second time: the user and campaign are
      found again, and the campaign now has responses. */
  lemma SecondSeedAddsNothing(st: Store, env1: Env, env2: Env, slug: string)
    requires ValidEnv(env1) && ValidEnv(env2)
    ensures var o1 := Seed(st, env1, slug);
      var o2 := Seed(o1.store, env2, slug);
      && !o2.result.userCreated
      && o2.result.userId == o1.result.userId
      && o2.result.campaignId == o1.result.campaignId
      && o2.result.responsesAdded == 0
      && o2.store.responses == o1.store.responses
      && o2.store.users == o1.store.users
      && |o2.store.campaigns| == |o1.store.campaigns|
  {
    var u1 := EnsureUser(st.users, env1.userId);
    EnsureUserAgain(st.users, env1.userId, env2.userId);
    UpsertAgain(st.campaigns, slug, u1.1.id, u1.1.id, env1, env2);
    SeededNonEmpty(st, env1, slug);
  }

  /** The demo seeding itself is idempotent in the same sense. */
  lemma DemoSeedIdempotent(st: Store, env1: Env, env2: Env)
    requires ValidEnv(env1) && ValidEnv(env2)
    ensures var o1 := CreateDemoCampaign(st, env1);
      var o2 := CreateDemoCampaign(o1.store, env2);
      && !o2.result.userCreated && o2.result.responsesAdded == 0
      && o2.store.responses == o1.store.responses && o2.store.users == o1.store.users
  {
    SecondSeedAddsNothing(st, env1, env2, DemoSlug);
  }
}

=== FILE: digest.dfy ===
/** The notification digest (app/api/notifications/digest/route.ts): a
    summary of the last 24 hours across one user's campaigns and the
    decision whether to send it over Telegram. */
module Digest {
  import opened Domain
  import Collections

  /** `24 * 60 * 60 * 1000`: one day in milliseconds. */
  const DayMs := 86400000

  /** Created at or after `now - 24h`. */
  predicate Recent(r: Response, now: int)
  {
    r.createdAt >= now - DayMs
  }

  predicate Open(r: Response)
  {
    r.status == StatusNeedsAttention || r.status == StatusNew
  }

  /** The recent responses of one campaign. */
  function RecentOf(c: Campaign, responses: seq<Response>, now: int): seq<Response>
  {
    Collections.Filter(responses, (r: Response) => r.campaignId == c.id && Recent(r, now))
  }

  /** `user.campaigns.flatMap(c => c.responses)`. */
  function AllRecent(cs: seq<Campaign>, responses: seq<Response>, now: int): seq<Response>
  {
    if |cs| == 0 then [] else RecentOf(cs[0], responses, now) + AllRecent(cs[1..], responses, now)
  }

  /** `_count.responses` summed over the campaigns. */
  function TotalCount(cs: seq<Campaign>, responses: seq<Response>): nat
  {
    if |cs| == 0 then 0
    else Collections.Count(responses, (r: Response) => r.campaignId == cs[0].id) + TotalCount(cs[1..], responses)
  }

  datatype CampaignDigest = CampaignDigest(title: string, responseCount: nat, campaignId: string)

  datatype Summary = Summary(
    totalResponses: nat,
    newResponses: nat,
    needsAttention: nat,
    campaigns: seq<CampaignDigest>)

  /** The per-campaign lines: campaigns with at least one recent response. */
  function Lines(cs: seq<Campaign>, responses: seq<Response>, now: int): seq<CampaignDigest>
  {
    if |cs| == 0 then []
    else
      var n := |RecentOf(cs[0], responses, now)|;
      (if n > 0 then [CampaignDigest(cs[0].title, n, cs[0].id)] else []) + Lines(cs[1..], responses, now)
  }

  /** The summary of one user's campaigns: `newResponses` counts the
      recent responses, `needsAttention` those of them still `new` or
      `needs_attention`, and one line per campaign with recent responses. */
  function SummaryOf(cs: seq<Campaign>, responses: seq<Response>, now: int): (s: Summary)
    ensures s.newResponses == |AllRecent(cs, responses, now)|
    ensures s.needsAttention == Collections.Count(AllRecent(cs, responses, now), Open)
    ensures s.needsAttention <= s.newResponses
    ensures s.campaigns == Lines(cs, responses, now)
  {
    var all := AllRecent(cs, responses, now);
    Summary(TotalCount(cs, responses), |all|, Collections.Count(all, Open), Lines(cs, responses, now))
  }

  function LineSum(ls: seq<CampaignDigest>): nat
  {
    if |ls| == 0 then 0 else ls[0].responseCount + LineSum(ls[1..])
  }

  lemma {:induction false} LineSumAppend(a: seq<CampaignDigest>, b: seq<CampaignDigest>)
    ensures LineSum(a + b) == LineSum(a) + LineSum(b)
  {
    if |a| == 0 {
      assert a + b == b;
    } else {
      assert (a + b)[1..] == a[1..] + b;
      LineSumAppend(a[1..], b);
    }
  }

  /** The campaign lines account for every new response. */
  lemma {:induction false} LinesSum(cs: seq<Campaign>, responses: seq<Response>, now: int)
    ensures LineSum(Lines(cs, responses, now)) == |AllRecent(cs, responses, now)|
  {
    if |cs| > 0 {
      LinesSum(cs[1..], responses, now);
      var n := |RecentOf(cs[0], responses, now)|;
      var head: seq<CampaignDigest> := if n > 0 then [CampaignDigest(cs[0].title, n, cs[0].id)] else [];
      LineSumAppend(head, Lines(cs[1..], responses, now));
    }
  }

  /** A campaign of the list has a line exactly when it has a recent
      response, and every line carries the recent count of its campaign. */
  lemma {:induction false} LinesMembers(cs: seq<Campaign>, responses: seq<Response>, now: int, c: Campaign)
    requires forall i, j :: 0 <= i < j < |cs| ==> cs[i].id != cs[j].id
    requires c in cs
    ensures (exists l :: l in Lines(cs, responses, now) && l.campaignId == c.id)
        <==> |RecentOf(c, responses, now)| > 0
    ensures forall l :: l in Lines(cs, responses, now) && l.campaignId == c.id ==>
      l.responseCount == |RecentOf(c, responses, now)| && l.title == c.title
  {
    LinesFromCampaigns(cs, responses, now);
    var n := |RecentOf(cs[0], responses, now)|;
    var head: seq<CampaignDigest> := if n > 0 then [CampaignDigest(cs[0].title, n, cs[0].id)] else [];
    var rest := Lines(cs[1..], responses, now);
    assert Lines(cs, responses, now) == head + rest;
    if c == cs[0] {
      LinesFromCampaigns(cs[1..], responses, now);
      forall l | l in rest
        ensures l.campaignId != c.id
      {
        var d :| d in cs[1..] && d.id == l.campaignId;
        var k :| 0 <= k < |cs[1..]| && cs[1..][k] == d;
        assert cs[k + 1] == d;
      }
    } else {
      assert c in cs[1..];
      assert c.id != cs[0].id;
      LinesMembers(cs[1..], responses, now, c);
    }
  }

  /** Every line names a campaign of the list. */
  lemma {:induction false} LinesFromCampaigns(cs: seq<Campaign>, responses: seq<Response>, now: int)
    ensures forall l :: l in Lines(cs, responses, now) ==> exists d :: d in cs && d.id == l.campaignId
  {
    if |cs| > 0 {
      LinesFromCampaigns(cs[1..], responses, now);
      forall l | l in Lines(cs[1..], responses, now)
        ensures exists d :: d in cs && d.id == l.campaignId
      {
        var d :| d in cs[1..] && d.id == l.campaignId;
        assert d in cs;
      }
    }
  }

  // ---------------------------------------------------------------------
  // New responses as a count over the whole table

  predicate InCampaigns(cs: seq<Campaign>, r: Response)
  {
    exists c :: c in cs && c.id == r.campaignId
  }

  lemma {:induction false} AllRecentCount(cs: seq<Campaign>, responses: seq<Response>, now: int)
    requires forall i, j :: 0 <= i < j < |cs| ==> cs[i].id != cs[j].id
    ensures |AllRecent(cs, responses, now)| ==
      Collections.Count(responses, (r: Response) => InCampaigns(cs, r) && Recent(r, now))
  {
    var inAll := (r: Response) => InCampaigns(cs, r) && Recent(r, now);
    if |cs| == 0 {
      Collections.CountMonotone(responses, inAll, (r: Response) => false);
      Collections.CountPositive(responses, (r: Response) => false);
    } else {
      var head := (r: Response) => r.campaignId == cs[0].id && Recent(r, now);
      var rest := (r: Response) => InCampaigns(cs[1..], r) && Recent(r, now);
      AllRecentCount(cs[1..], responses, now);
      Collections.CountIsFilterLength(responses, head);
      assert forall r: Response :: !(head(r) && rest(r));
      assert forall r: Response :: inAll(r) <==> head(r) || rest(r) by {
        forall r: Response
          ensures inAll(r) <==> head(r) || rest(r)
        {
          if InCampaigns(cs, r) && cs[0].id != r.campaignId {
            var c :| c in cs && c.id == r.campaignId;
            assert c in cs[1..];
          }
          if InCampaigns(cs[1..], r) {
            var c :| c in cs[1..] && c.id == r.campaignId;
            assert c in cs;
          }
        }
      }
      Collections.CountDisjointSum(responses, head, rest, inAll);
    }
  }

  /** The open responses among the recent ones of the list, as a count over
      the whole table. */
  lemma {:induction false} AllRecentOpenCount(cs: seq<Campaign>, responses: seq<Response>, now: int)
    requires forall i, j :: 0 <= i < j < |cs| ==> cs[i].id != cs[j].id
    ensures Collections.Count(AllRecent(cs, responses, now), Open) ==
      Collections.Count(responses, (r: Response) => InCampaigns(cs, r) && Recent(r, now) && Open(r))
  {
    var inAll := (r: Response) => InCampaigns(cs, r) && Recent(r, now) && Open(r);
    if |cs| == 0 {
      Collections.CountMonotone(responses, inAll, (r: Response) => false);
      Collections.CountPositive(responses, (r: Response) => false);
    } else {
      var inHead := (r: Response) => r.campaignId == cs[0].id && Recent(r, now);
      var head := (r: Response) => inHead(r) && Open(r);
      var rest := (r: Response) => InCampaigns(cs[1..], r) && Recent(r, now) && Open(r);
      AllRecentOpenCount(cs[1..], responses, now);
      Collections.CountAppend(RecentOf(cs[0], responses, now), AllRecent(cs[1..], responses, now), Open);
      Collections.CountFilter(responses, inHead, Open, head);
      assert forall r: Response :: !(head(r) && rest(r));
      assert forall r: Response :: inAll(r) <==> head(r) || rest(r) by {
        forall r: Response
          ensures inAll(r) <==> head(r) || rest(r)
        {
          if InCampaigns(cs, r) && cs[0].id != r.campaignId {
            var c :| c in cs && c.id == r.campaignId;
            assert c in cs[1..];
          }
          if InCampaigns(cs[1..], r) {
            var c :| c in cs[1..] && c.id == r.campaignId;
            assert c in cs;
          }
        }
      }
      Collections.CountDisjointSum(responses, head, rest, inAll);
    }
  }

  // ---------------------------------------------------------------------
  // Preferences and the route

  /** Truthiness of an optional flag in the stored preferences. */
  predicate On(b: Option<bool>)
  {
    b == Some(true)
  }

  /** The digest goes out when a digest is wanted, Telegram is on and a chat
      is linked; unset preferences mean telegram and weekly digest on,
      daily digest off. */
  predicate SendDigest(u: User)
  {
    var p := if u.preferences.Some? then u.preferences.value
             else Prefs(Some(true), Some(false), Some(true));
    (On(p.dailyDigest) || On(p.weeklyDigest)) && On(p.telegram) && Truthy(u.telegramChatId)
  }

  lemma DefaultPrefsSend(u: User)
    requires u.preferences.None?
    ensures SendDigest(u) <==> Truthy(u.telegramChatId)
  {
  }

  datatype DigestResult = DigestResult(status: int, summary: Option<Summary>, send: bool)

  /** `body.userId || session.user.id`. */
  function TargetId(s: Session, bodyUserId: Option<string>): string
  {
    if Truthy(bodyUserId) then bodyUserId.value else s.userId
  }

  function OwnedBy(campaigns: seq<Campaign>, uid: string): seq<Campaign>
  {
    Collections.Filter(campaigns, (c: Campaign) => c.userId == uid)
  }

  /** `POST /api/notifications/digest`. */
  function RunDigest(session: Option<Session>, bodyUserId: Option<string>, users: seq<User>,
                     campaigns: seq<Campaign>, responses: seq<Response>, now: int): (r: DigestResult)
    ensures session.None? ==> r.status == Unauthorized
    ensures r.status == Ok <==> session.Some? && FindUser(users, TargetId(session.value, bodyUserId)).Some?
    ensures r.status != Ok ==> r.summary.None? && !r.send
    ensures r.status == Ok ==>
      var u := FindUser(users, TargetId(session.value, bodyUserId)).value;
      && r.summary == Some(SummaryOf(OwnedBy(campaigns, u.id), responses, now))
      && (r.send <==> SendDigest(u))
  {
    if session.None? then DigestResult(Unauthorized, None, false)
    else
      var user := FindUser(users, TargetId(session.value, bodyUserId));
      if user.None? then DigestResult(NotFound, None, false)
      else
        var u := user.value;
        DigestResult(Ok, Some(SummaryOf(OwnedBy(campaigns, u.id), responses, now)), SendDigest(u))
  }

  /** The summary's figures in terms of the whole table: new responses are
      the recent ones of the target's campaigns, the lines sum to that, and
      those needing attention are the recent ones still `new` or
      `needs_attention`. */
  lemma DigestFigures(s: Session, bodyUserId: Option<string>, users: seq<User>,
                      campaigns: seq<Campaign>, responses: seq<Response>, now: int)
    requires forall i, j :: 0 <= i < j < |campaigns| ==> campaigns[i].id != campaigns[j].id
    requires FindUser(users, TargetId(s, bodyUserId)).Some?
    ensures var u := FindUser(users, TargetId(s, bodyUserId)).value;
      var sm := RunDigest(Some(s), bodyUserId, users, campaigns, responses, now).summary.value;
      var mine := OwnedBy(campaigns, u.id);
      && sm.newResponses == Collections.Count(responses, (r: Response) => InCampaigns(mine, r) && Recent(r, now))
      && LineSum(sm.campaigns) == sm.newResponses
      && sm.needsAttention == Collections.Count(responses, (r: Response) => InCampaigns(mine, r) && Recent(r, now) && Open(r))
      && sm.needsAttention <= sm.newResponses
  {
    var u := FindUser(users, TargetId(s, bodyUserId)).value;
    var mine := OwnedBy(campaigns, u.id);
    OwnedDistinct(campaigns, u.id);
    AllRecentCount(mine, responses, now);
    AllRecentOpenCount(mine, responses, now);
    LinesSum(mine, responses, now);
  }

  lemma OwnedDistinct(campaigns: seq<Campaign>, uid: string)
    requires forall i, j :: 0 <= i < j < |campaigns| ==> campaigns[i].id != campaigns[j].id
    ensures var m := OwnedBy(campaigns, uid);
      forall i, j :: 0 <= i < j < |m| ==> m[i].id != m[j].id
  {
    Collections.FilterIsSubsequence(campaigns, (c: Campaign) => c.userId == uid);
    SubsequenceDistinct(OwnedBy(campaigns, uid), campaigns);
  }

  lemma {:induction false} SubsequenceDistinct(a: seq<Campaign>, b: seq<Campaign>)
    requires Collections.IsSubsequence(a, b)
    requires forall i, j :: 0 <= i < j < |b| ==> b[i].id != b[j].id
    ensures forall i, j :: 0 <= i < j < |a| ==> a[i].id != a[j].id
    ensures forall i :: 0 <= i < |a| ==> a[i] in b
    decreases |b|
  {
    if |a| > 0 && |b| > 0 {
      if a[0] == b[0] {
        SubsequenceDistinct(a[1..], b[1..]);
        forall j | 0 < j < |a|
          ensures a[0].id != a[j].id
        {
          assert a[1..][j - 1] in b[1..];
          var k :| 0 <= k < |b[1..]| && b[1..][k] == a[j];
          assert b[k + 1] == a[j];
        }
        forall i, j | 0 <= i < j < |a|
          ensures a[i].id != a[j].id
        {
          if i > 0 {
            assert a[1..][i - 1] == a[i] && a[1..][j - 1] == a[j];
          }
        }
        forall i | 0 <= i < |a|
          ensures a[i] in b
        {
          if i > 0 {
            assert a[1..][i - 1] in b[1..];
          }
        }
      } else {
        SubsequenceDistinct(a, b[1..]);
        forall i | 0 <= i < |a|
          ensures a[i] in b
        {
          assert a[i] in b[1..];
        }
      }
    }
  }

  /** No role check guards the target: any signed-in caller may request
      any user's digest by naming that user. */
  lemma AnyCallerMayTarget(s: Session, users: seq<User>, campaigns: seq<Campaign>,
                           responses: seq<Response>, now: int, target: User)
    requires target in users && target.id != ""
    ensures RunDigest(Some(s), Some(target.id), users, campaigns, responses, now).status == Ok
  {
  }
}

=== FILE: domain.dfy ===
/** The records of the feedback platform as the relational store holds them:
    users, campaigns and anonymous responses. Times are instants on an
    abstract, totally ordered clock (milliseconds as an `int`). */
module Domain {
  import Collections

  datatype Option<T> = None | Some(value: T) {
    function GetOr(default: T): T
    {
      if Some? then value else default
    }
  }

  /** JavaScript truthiness of an optional string: present and non-empty. */
  predicate Truthy(s: Option<string>)
  {
    s.Some? && s.value != ""
  }

  datatype Role = Admin | Hr

  /** An authenticated next-auth session: the caller's user id and role. */
  datatype Session = Session(userId: string, role: Role)

  /** The five mood emojis a respondent may pick. */
  datatype Mood = Grinning | Smiling | Neutral | Frowning | Disappointed

  function MoodEmoji(m: Mood): string
  {
    match m
    case Grinning => "\U{1F600}"
    case Smiling => "\U{1F642}"
    case Neutral => "\U{1F610}"
    case Frowning => "\U{1F641}"
    case Disappointed => "\U{1F61E}"
  }

  /** The zod enum for moods: the mood whose emoji is `s`, if any. */
  function ParseMood(s: string): (m: Option<Mood>)
    ensures m.Some? ==> MoodEmoji(m.value) == s
    ensures m.None? ==> forall k: Mood :: MoodEmoji(k) != s
  {
    if s == MoodEmoji(Grinning) then Some(Grinning)
    else if s == MoodEmoji(Smiling) then Some(Smiling)
    else if s == MoodEmoji(Neutral) then Some(Neutral)
    else if s == MoodEmoji(Frowning) then Some(Frowning)
    else if s == MoodEmoji(Disappointed) then Some(Disappointed)
    else None
  }

  datatype Interval = Weekly | Monthly | Quarterly

  datatype Campaign = Campaign(
    id: string,
    title: string,
    slug: Option<string>,
    question: string,
    startDate: Option<int>,
    closeDate: Option<int>,
    isActive: bool,
    isRecurring: bool,
    recurringInterval: Option<Interval>,
    publicReportOn: bool,
    aiReportGenerated: bool,
    userId: string,
    createdAt: int)

  /** One anonymous submission. `sentiment`, `attention` and `status` are
      free strings in the store: later edits (the bulk PATCH among them)
      may write any string there. */
  datatype Response = Response(
    id: string,
    campaignId: string,
    text: string,
    mood: Option<Mood>,
    sentiment: string,
    attention: string,
    status: string,
    assignedTo: Option<string>,
    tags: Option<seq<string>>,
    aiLabels: Option<seq<string>>,
    createdAt: int)

  /** A parsed `notificationPreferences` blob; each key may be missing. */
  datatype Prefs = Prefs(
    telegram: Option<bool>,
    dailyDigest: Option<bool>,
    weeklyDigest: Option<bool>)

  datatype User = User(
    id: string,
    email: string,
    name: string,
    role: Role,
    telegramChatId: Option<string>,
    preferences: Option<Prefs>)

  /** The triage states written by the intake and the triage board. */
  const StatusNew := "new"
  const StatusNeedsAttention := "needs_attention"
  const StatusInReview := "in_review"
  const StatusResolved := "resolved"
  const StatusParked := "parked"

  /** The labels the intake writes into `sentiment` and `attention`. */
  const SentimentPositive := "positive"
  const SentimentNeutral := "neutral"
  const SentimentNegative := "negative"
  const AttentionUrgent := "urgent"
  const AttentionModerate := "moderate"
  const AttentionPositive := "positive"

  /** The HTTP status codes the route handlers answer with. */
  const Ok := 200
  const Created := 201
  const BadRequest := 400
  const Unauthorized := 401
  const Forbidden := 403
  const NotFound := 404
  const ServerError := 500

  /** The slugs other campaigns already hold, as `map(c => c.slug!).filter(Boolean)`
      computes them: null and empty slugs are dropped. */
  function ExistingSlugs(cs: seq<Campaign>): (r: seq<string>)
    ensures forall s :: s in r <==> s != "" && exists c :: c in cs && c.slug == Some(s)
  {
    if |cs| == 0 then []
    else (if Truthy(cs[0].slug) then [cs[0].slug.value] else []) + ExistingSlugs(cs[1..])
  }

  /** `user.findUnique({ where: { id } })`: the user with that id, if any. */
  function FindUser(users: seq<User>, id: string): (r: Option<User>)
    ensures r.Some? ==> r.value in users && r.value.id == id
    ensures r.None? ==> forall u :: u in users ==> u.id != id
  {
    var i := Collections.FirstIndex(users, (u: User) => u.id == id);
    if i < |users| then Some(users[i]) else None
  }
}

=== FILE: issues.dfy ===
/** The cross-campaign issue board (app/issues/page.tsx): the open
    responses of every campaign, filtered, grouped by campaign, counted. */
module Issues {
  import opened Domain
  import opened Text
  import opened Dashboard
  import Collections

  /** A response spread together with its campaign's id, title and question;
      the campaign's id replaces the response's own `campaignId`. */
  datatype Issue = Issue(response: Response, campaignId: string, campaignTitle: string, campaignQuestion: string)

  predicate OpenStatus(s: string)
  {
    s == StatusNeedsAttention || s == StatusNew || s == StatusInReview
  }

  function MakeIssue(c: Campaign, r: Response): Issue
  {
    Issue(r.(campaignId := c.id), c.id, c.title, c.question)
  }

  /** The open responses of one campaign, as issues, in order. */
  function IssuesOf(c: Campaign, rs: seq<Response>): (r: seq<Issue>)
    ensures |r| <= |rs|
  {
    if |rs| == 0 then []
    else (if OpenStatus(rs[0].status) then [MakeIssue(c, rs[0])] else []) + IssuesOf(c, rs[1..])
  }

  /** `allIssues`: campaign by campaign, response by response. */
  function AllIssues(vs: seq<CampaignView>): seq<Issue>
  {
    if |vs| == 0 then [] else IssuesOf(vs[0].campaign, vs[0].responses) + AllIssues(vs[1..])
  }

  lemma {:induction false} IssuesOfMembers(c: Campaign, rs: seq<Response>, x: Issue)
    ensures x in IssuesOf(c, rs) <==> exists r :: r in rs && OpenStatus(r.status) && x == MakeIssue(c, r)
  {
    if |rs| > 0 {
      IssuesOfMembers(c, rs[1..], x);
      if x in IssuesOf(c, rs[1..]) {
        var r :| r in rs[1..] && OpenStatus(r.status) && x == MakeIssue(c, r);
        assert r in rs;
      }
      if exists r :: r in rs && OpenStatus(r.status) && x == MakeIssue(c, r) {
        var r :| r in rs && OpenStatus(r.status) && x == MakeIssue(c, r);
        if r != rs[0] {
          assert r in rs[1..];
        }
      }
    }
  }

  /** Exactly the open responses of the listed campaigns become issues. */
  lemma {:induction false} AllIssuesMembers(vs: seq<CampaignView>, x: Issue)
    ensures x in AllIssues(vs) <==>
      exists v, r :: v in vs && r in v.responses && OpenStatus(r.status) && x == MakeIssue(v.campaign, r)
  {
    if |vs| > 0 {
      AllIssuesMembers(vs[1..], x);
      IssuesOfMembers(vs[0].campaign, vs[0].responses, x);
      if exists v, r :: v in vs && r in v.responses && OpenStatus(r.status) && x == MakeIssue(v.campaign, r) {
        var v, r :| v in vs && r in v.responses && OpenStatus(r.status) && x == MakeIssue(v.campaign, r);
        if v != vs[0] {
          assert v in vs[1..];
        }
      }
      if x in AllIssues(vs[1..]) {
        var v, r :| v in vs[1..] && r in v.responses && OpenStatus(r.status) && x == MakeIssue(v.campaign, r);
        assert v in vs;
      }
    }
  }

  lemma {:induction false} AllIssuesOpen(vs: seq<CampaignView>)
    ensures forall i :: 0 <= i < |AllIssues(vs)| ==> OpenStatus(AllIssues(vs)[i].response.status)
  {
    forall i | 0 <= i < |AllIssues(vs)|
      ensures OpenStatus(AllIssues(vs)[i].response.status)
    {
      AllIssuesMembers(vs, AllIssues(vs)[i]);
    }
  }

  // ---------------------------------------------------------------------
  // Filters

  /** `None` stands for the "all" choice of a drop-down. */
  datatype IssueFilters = IssueFilters(search: string, status: Option<string>, campaign: Option<string>)

  predicate KeepIssue(x: Issue, f: IssueFilters)
  {
    && (f.search == "" || MatchesQuery(x.response.text, f.search) || MatchesQuery(x.campaignTitle, f.search))
    && (f.status.None? || x.response.status == f.status.value)
    && (f.campaign.None? || x.campaignId == f.campaign.value)
  }

  function IssueKeeper(f: IssueFilters): Issue -> bool
  {
    (x: Issue) => KeepIssue(x, f)
  }

  /** `filteredIssues`. */
  function FilterIssues(xs: seq<Issue>, f: IssueFilters): seq<Issue>
  {
    Collections.Filter(xs, IssueKeeper(f))
  }

  /** The filtered issues are an order-preserving selection of all issues,
      namely those every filter accepts. */
  lemma FilterIssuesSpec(xs: seq<Issue>, f: IssueFilters, x: Issue)
    ensures Collections.IsSubsequence(FilterIssues(xs, f), xs)
    ensures x in FilterIssues(xs, f) <==> x in xs && KeepIssue(x, f)
  {
    Collections.FilterIsSubsequence(xs, IssueKeeper(f));
    Collections.FilterMembers(xs, IssueKeeper(f));
  }

  /** With every control at "all" and an empty search, nothing is dropped. */
  lemma NoFilterKeepsAll(xs: seq<Issue>)
    ensures FilterIssues(xs, IssueFilters("", None, None)) == xs
  {
    NoFilterKeepsAllRec(xs, IssueFilters("", None, None));
  }

  lemma {:induction false} NoFilterKeepsAllRec(xs: seq<Issue>, f: IssueFilters)
    requires f == IssueFilters("", None, None)
    ensures Collections.Filter(xs, IssueKeeper(f)) == xs
  {
    if |xs| > 0 {
      NoFilterKeepsAllRec(xs[1..], f);
      assert xs == [xs[0]] + xs[1..];
    }
  }

  // ---------------------------------------------------------------------
  // Grouping

  datatype Group = Group(id: string, title: string, question: string, issues: seq<Issue>)

  function IdIs(id: string): Issue -> bool
  {
    (x: Issue) => x.campaignId == id
  }

  /** One step of the `reduce`: the issue joins its campaign's group, which
      is opened (with this issue's campaign details) on first sight. */
  function AddIssue(gs: seq<Group>, x: Issue): seq<Group>
  {
    var k := Collections.FirstIndex(gs, (g: Group) => g.id == x.campaignId);
    if k < |gs| then gs[k := gs[k].(issues := gs[k].issues + [x])]
    else gs + [Group(x.campaignId, x.campaignTitle, x.campaignQuestion, [x])]
  }

  /** `issuesByCampaign`, with groups in the order their first issue appears. */
  function GroupIssues(xs: seq<Issue>): seq<Group>
    decreases |xs|
  {
    if |xs| == 0 then [] else AddIssue(GroupIssues(xs[..|xs| - 1]), xs[|xs| - 1])
  }

  function SizeSum(gs: seq<Group>): nat
  {
    if |gs| == 0 then 0 else |gs[0].issues| + SizeSum(gs[1..])
  }

  lemma {:induction false} SizeSumUpdate(gs: seq<Group>, k: nat, g: Group)
    requires k < |gs|
    ensures SizeSum(gs[k := g]) == SizeSum(gs) - |gs[k].issues| + |g.issues|
  {
    if k > 0 {
      SizeSumUpdate(gs[1..], k - 1, g);
      assert gs[k := g][1..] == gs[1..][k - 1 := g];
    }
  }

  lemma {:induction false} SizeSumAppend(gs: seq<Group>, g: Group)
    ensures SizeSum(gs + [g]) == SizeSum(gs) + |g.issues|
  {
    if |gs| > 0 {
      SizeSumAppend(gs[1..], g);
      assert (gs + [g])[1..] == gs[1..] + [g];
    }
  }

  predicate WellGrouped(gs: seq<Group>, xs: seq<Issue>)
  {
    && (forall i, j :: 0 <= i < j < |gs| ==> gs[i].id != gs[j].id)
    && (forall k :: 0 <= k < |gs| ==> gs[k].issues == Collections.Filter(xs, IdIs(gs[k].id)))
    && (forall i :: 0 <= i < |xs| ==> exists k :: 0 <= k < |gs| && gs[k].id == xs[i].campaignId)
    && SizeSum(gs) == |xs|
  }

  /** Grouping is faithful: one group per campaign, each holding exactly that
      campaign's filtered issues in order, and the sizes add up. */
  lemma {:induction false} GroupIssuesSpec(xs: seq<Issue>)
    ensures WellGrouped(GroupIssues(xs), xs)
    decreases |xs|
  {
    if |xs| > 0 {
      var init := xs[..|xs| - 1];
      var x := xs[|xs| - 1];
      assert xs == init + [x];
      GroupIssuesSpec(init);
      AddIssueKeepsGrouped(GroupIssues(init), init, x);
    }
  }

  lemma {:induction false} FilterNone(xs: seq<Issue>, id: string)
    requires forall i :: 0 <= i < |xs| ==> xs[i].campaignId != id
    ensures Collections.Filter(xs, IdIs(id)) == []
  {
    if |xs| > 0 {
      FilterNone(xs[1..], id);
    }
  }

  /** After one step every group still holds exactly its campaign's issues. */
  lemma AddIssueContents(gs: seq<Group>, xs: seq<Issue>, x: Issue, m: nat)
    requires WellGrouped(gs, xs)
    requires m < |AddIssue(gs, x)|
    ensures AddIssue(gs, x)[m].issues == Collections.Filter(xs + [x], IdIs(AddIssue(gs, x)[m].id))
  {
    var k := Collections.FirstIndex(gs, (g: Group) => g.id == x.campaignId);
    var gs' := AddIssue(gs, x);
    var p := IdIs(gs'[m].id);
    Collections.FilterAppend(xs, [x], p);
    assert Collections.Filter([x], p) == if p(x) then [x] else [];
    if k < |gs| {
      if m != k {
        assert gs'[m] == gs[m] && gs[m].id != gs[k].id;
      }
    } else if m < |gs| {
      assert gs'[m] == gs[m];
    } else {
      forall i | 0 <= i < |xs|
        ensures xs[i].campaignId != x.campaignId
      {
        var n :| 0 <= n < |gs| && gs[n].id == xs[i].campaignId;
      }
      FilterNone(xs, x.campaignId);
    }
  }

  lemma AddIssueKeepsGrouped(gs: seq<Group>, xs: seq<Issue>, x: Issue)
    requires WellGrouped(gs, xs)
    ensures WellGrouped(AddIssue(gs, x), xs + [x])
  {
    var k := Collections.FirstIndex(gs, (g: Group) => g.id == x.campaignId);
    var gs' := AddIssue(gs, x);
    var xs' := xs + [x];
    forall m | 0 <= m < |gs'|
      ensures gs'[m].issues == Collections.Filter(xs', IdIs(gs'[m].id))
    {
      AddIssueContents(gs, xs, x, m);
    }
    forall i | 0 <= i < |xs'|
      ensures exists m :: 0 <= m < |gs'| && gs'[m].id == xs'[i].campaignId
    {
      if i < |xs| {
        var m :| 0 <= m < |gs| && gs[m].id == xs[i].campaignId;
        assert gs'[m].id == xs'[i].campaignId;
      } else if k < |gs| {
        assert gs'[k].id == xs'[i].campaignId;
      } else {
        assert gs'[|gs|].id == xs'[i].campaignId;
      }
    }
    if k < |gs| {
      SizeSumUpdate(gs, k, gs[k].(issues := gs[k].issues + [x]));
    } else {
      SizeSumAppend(gs, Group(x.campaignId, x.campaignTitle, x.campaignQuestion, [x]));
    }
  }

  // ---------------------------------------------------------------------
  // Stats and labels

  /** The three status cards split the total. */
  lemma StatCountsSum(vs: seq<CampaignView>)
    ensures var all := AllIssues(vs);
      Collections.Count(all, (x: Issue) => x.response.status == StatusNeedsAttention)
      + Collections.Count(all, (x: Issue) => x.response.status == StatusNew)
      + Collections.Count(all, (x: Issue) => x.response.status == StatusInReview)
      == |all|
  {
    var all := AllIssues(vs);
    var na := (x: Issue) => x.response.status == StatusNeedsAttention;
    var nw := (x: Issue) => x.response.status == StatusNew;
    var ir := (x: Issue) => x.response.status == StatusInReview;
    var naNw := (x: Issue) => na(x) || nw(x);
    var any := (x: Issue) => naNw(x) || ir(x);
    assert StatusNeedsAttention[2] != StatusNew[2] && StatusNeedsAttention[0] != StatusInReview[0];
    assert StatusNew[0] != StatusInReview[0];
    Collections.CountDisjointSum(all, na, nw, naNw);
    Collections.CountDisjointSum(all, naNw, ir, any);
    AllIssuesOpen(vs);
    Collections.CountFull(all, any);
  }

  /** `getStatusLabel`: the open states get display labels, any other
      status is shown as it is. */
  function StatusLabel(s: string): (l: string)
    ensures s == StatusNeedsAttention ==> l == "Needs Attention"
    ensures s == StatusNew ==> l == "New"
    ensures s == StatusInReview ==> l == "In Review"
    ensures l == s <==> !OpenStatus(s)
  {
    if s == StatusNeedsAttention then "Needs Attention"
    else if s == StatusNew then "New"
    else if s == StatusInReview then "In Review"
    else s
  }
}

=== FILE: middleware.dfy ===
/** Page-level access control (middleware.ts): which paths the middleware
    runs on, which need a sign-in, and the admin-only prefix. */
module Middleware {
  import opened Domain
  import opened Text

  /** The session token, when present, carries the user's role. */
  type Token = Option<Role>

  datatype Decision = Pass | RedirectToLogin | RedirectHome

  /** `/((?!api|_next/static|_next/image|favicon.ico).*)`: the middleware runs
      on every path except those whose first segment text starts with one
      of the excluded words (the `.` in `favicon.ico` matches any character
      but a line break). */
  predicate Matched(path: string)
  {
    && StartsWith(path, "/")
    && var rest := path[1..];
       && !StartsWith(rest, "api")
       && !StartsWith(rest, "_next/static")
       && !StartsWith(rest, "_next/image")
       && !(|rest| >= 11 && rest[..7] == "favicon" && rest[7] != '\n' && rest[8..11] == "ico")
  }

  predicate PublicPath(path: string)
  {
    StartsWith(path, "/submit") || StartsWith(path, "/reports") || StartsWith(path, "/login") || StartsWith(path, "/api")
  }

  /** The `authorized` callback. */
  predicate Authorized(path: string, token: Token)
  {
    if StartsWith(path, "/submit") || StartsWith(path, "/reports") then true
    else if StartsWith(path, "/login") then true
    else if StartsWith(path, "/api") then true
    else token.Some?
  }

  /** The middleware body, run once the callback has let the request in:
      `/admin…` without an admin token goes home. */
  function AdminGate(path: string, token: Token): (d: Decision)
    ensures d == Pass || d == RedirectHome
    ensures d == RedirectHome <==> StartsWith(path, "/admin") && token != Some(Admin)
  {
    if StartsWith(path, "/admin") && token != Some(Admin) then RedirectHome else Pass
  }

  /** The outcome for a request: unmatched paths pass untouched, an
      unauthorised one is sent to the sign-in page, the rest meet the admin gate. */
  function Decide(path: string, token: Token): (d: Decision)
    ensures !Matched(path) ==> d == Pass
    ensures Matched(path) && !Authorized(path, token) ==> d == RedirectToLogin
    ensures Matched(path) && Authorized(path, token) ==> d == AdminGate(path, token)
  {
    if !Matched(path) then Pass
    else if !Authorized(path, token) then RedirectToLogin
    else AdminGate(path, token)
  }

  /** The callback in closed form: public prefixes need no token, every
      other path needs one. */
  lemma AuthorizedIff(path: string, token: Token)
    ensures Authorized(path, token) <==> PublicPath(path) || token.Some?
  {
  }

  /** Signed-out visitors reach a matched page iff its path is public. */
  lemma SignedOut(path: string)
    requires Matched(path)
    ensures Decide(path, None) == Pass <==> PublicPath(path) && !StartsWith(path, "/admin")
    ensures Decide(path, None) == RedirectToLogin <==> !PublicPath(path)
  {
    if PublicPath(path) && StartsWith(path, "/admin") {
      assert path[..2] == "/a";
      assert path[1] == 'a';
      assert path[..2] != "/s" && path[..2] != "/r" && path[..2] != "/l";
    }
  }

  /** A signed-in HR user is turned away from `/admin…` and nowhere else. */
  lemma HrAdminPages(path: string)
    requires Matched(path)
    ensures Decide(path, Some(Hr)) == RedirectHome <==> StartsWith(path, "/admin")
    ensures Decide(path, Some(Hr)) != RedirectToLogin
  {
  }

  /** An admin passes everywhere the middleware runs. */
  lemma AdminPassesEverywhere(path: string)
    ensures Decide(path, Some(Admin)) == Pass
  {
  }

  /** API routes never reach the callback: the matcher excludes them. */
  lemma ApiUnmatched(path: string)
    requires StartsWith(path, "/api")
    ensures !Matched(path)
    ensures Decide(path, None) == Pass
  {
    assert path[1..][..3] == path[1..4] == "api";
  }

  /** `/submitted` is public: it starts with `/submit`. */
  lemma SubmittedIsPublic()
    ensures Decide("/submitted", None) == Pass
  {
    assert "/submitted"[..7] == "/submit";
    assert "/submitted"[..6][1] != "/admin"[1];
    assert "/submitted"[1..][..3] != "api";
    assert "/submitted"[1..][..3] != "_ne";
    assert "/submitted"[1..][..7] != "favicon";
  }

  /** A members-only page sends a signed-out visitor to the sign-in page. */
  lemma DashboardNeedsSignIn()
    ensures Decide("/issues", None) == RedirectToLogin
  {
    assert "/issues"[..7][1] != "/submit"[1] && "/issues"[..7][1] != "/report"[1];
    assert "/issues"[..6][1] != "/login"[1] && "/issues"[..4][1] != "/api"[1] && "/issues"[..6][1] != "/admin"[1];
    assert "/issues"[1..][..3] != "api";
    assert "/issues"[1..][..3] != "_ne";
  }
}

=== FILE: ordering.dfy ===
/** Descending order on an integer key, as `orderBy: { createdAt: 'desc' }`
    and the dashboard's `(b.x || 0) - (a.x || 0)` comparator produce it. */
module Ordering {

  predicate SortedDesc<T>(s: seq<T>, key: T -> int)
  {
    forall i, j :: 0 <= i < j < |s| ==> key(s[i]) >= key(s[j])
  }

  /** Puts `x` in front of the first element whose key is not larger. */
  function Insert<T>(x: T, s: seq<T>, key: T -> int): seq<T>
  {
    if |s| == 0 || key(x) >= key(s[0]) then [x] + s
    else [s[0]] + Insert(x, s[1..], key)
  }

  lemma {:induction false} InsertPermutes<T>(x: T, s: seq<T>, key: T -> int)
    ensures multiset(Insert(x, s, key)) == multiset(s) + multiset{x}
  {
    if |s| > 0 && key(x) < key(s[0]) {
      InsertPermutes(x, s[1..], key);
      assert s == [s[0]] + s[1..];
    }
  }

  lemma {:induction false} InsertSorted<T>(x: T, s: seq<T>, key: T -> int)
    requires SortedDesc(s, key)
    ensures SortedDesc(Insert(x, s, key), key)
  {
    if |s| > 0 && key(x) < key(s[0]) {
      var t := Insert(x, s[1..], key);
      InsertSorted(x, s[1..], key);
      InsertPermutes(x, s[1..], key);
      forall k | 0 <= k < |t|
        ensures key(s[0]) >= key(t[k])
      {
        assert t[k] in multiset(t);
        if t[k] != x {
          assert t[k] in multiset(s[1..]);
          var m :| 0 <= m < |s[1..]| && s[1..][m] == t[k];
          assert s[m + 1] == t[k];
        }
      }
      var r := [s[0]] + t;
      forall i, j | 0 <= i < j < |r|
        ensures key(r[i]) >= key(r[j])
      {
        if i > 0 {
          assert r[i] == t[i - 1] && r[j] == t[j - 1];
        } else {
          assert r[j] == t[j - 1];
        }
      }
    }
  }

  /** Insertion sort by descending key. */
  function SortDesc<T>(s: seq<T>, key: T -> int): (r: seq<T>)
    ensures multiset(r) == multiset(s)
    ensures SortedDesc(r, key)
  {
    if |s| == 0 then []
    else
      var t := SortDesc(s[1..], key);
      InsertPermutes(s[0], t, key);
      InsertSorted(s[0], t, key);
      assert s == [s[0]] + s[1..];
      Insert(s[0], t, key)
  }
}

=== FILE: report.dfy ===
/** The deterministic parts of AI report generation (`generateAIReport` in
    lib/ai.ts): the statistics computed from the responses, the clean-up of
    the model's reply, the fields overwritten with local values, the
    suggestion fallback and the upsert of the stored report.

    The language model is not modelled: its reply is an input (`content`),
    and the markdown-fence removal and `JSON.parse` are function parameters. */
module Report {
  import opened Domain
  import opened Text
  import Collections

  // ---------------------------------------------------------------------
  // Statistics

  /** `Math.round(total / n)` for naturals: halves round up. */
  function RoundedAverage(total: nat, n: nat): (avg: nat)
    requires n > 0
    ensures n * (2 * avg - 1) <= 2 * total < n * (2 * avg + 1)
  {
    var q := (2 * total + n) / (2 * n);
    var r := (2 * total + n) % (2 * n);
    assert 2 * total + n == 2 * n * q + r;
    q
  }

  /** The rounding condition pins the average down: no other natural is
      within half a unit of `total / n`. */
  lemma RoundedAverageUnique(total: nat, n: nat, a: nat)
    requires n > 0
    requires n * (2 * a - 1) <= 2 * total < n * (2 * a + 1)
    ensures a == RoundedAverage(total, n)
  {
    var q := RoundedAverage(total, n);
    MulMonotone(n, 2 * (q as int) + 1, 2 * (a as int) - 1);
    MulMonotone(n, 2 * (a as int) + 1, 2 * (q as int) - 1);
  }

  lemma MulMonotone(n: nat, x: int, y: int)
    ensures x <= y ==> n * x <= n * y
  {
  }

  /** The sum of the text lengths. */
  function TotalLength(rs: seq<Response>): nat
  {
    if |rs| == 0 then 0 else |rs[0].text| + TotalLength(rs[1..])
  }

  const DetailThreshold := 200
  const ActionWords: seq<string> := ["should", "need", "suggest", "recommend"]

  predicate HasSentiment(value: string, r: Response) { r.sentiment == value }
  predicate IsPositive(r: Response) { HasSentiment(SentimentPositive, r) }
  predicate IsNeutral(r: Response) { HasSentiment(SentimentNeutral, r) }
  predicate IsNegative(r: Response) { HasSentiment(SentimentNegative, r) }
  predicate Detailed(r: Response) { |r.text| > DetailThreshold }
  predicate Actionable(r: Response) { Hits(Lower(r.text), ActionWords) > 0 }

  datatype Stats = Stats(
    count: nat,
    averageLength: nat,
    positive: nat,
    neutral: nat,
    negative: nat,
    detailed: nat,
    actionable: nat)

  /** The statistics gathered before the model is called: the average
      text length rounded to the nearest whole number, the responses with
      each exact sentiment label, those over 200 characters and those
      naming an action. */
  function LocalStats(rs: seq<Response>): (s: Stats)
    requires |rs| > 0
    ensures s.count == |rs|
    ensures |rs| * (2 * s.averageLength - 1) <= 2 * TotalLength(rs) < |rs| * (2 * s.averageLength + 1)
    ensures s.positive == Collections.Count(rs, IsPositive)
    ensures s.neutral == Collections.Count(rs, IsNeutral)
    ensures s.negative == Collections.Count(rs, IsNegative)
    ensures s.detailed == Collections.Count(rs, Detailed)
    ensures s.actionable == Collections.Count(rs, Actionable)
    ensures s.positive + s.neutral + s.negative <= s.count
    ensures s.detailed <= s.count && s.actionable <= s.count
  {
    var s := Stats(
      count := |rs|,
      averageLength := RoundedAverage(TotalLength(rs), |rs|),
      positive := Collections.Count(rs, IsPositive),
      neutral := Collections.Count(rs, IsNeutral),
      negative := Collections.Count(rs, IsNegative),
      detailed := Collections.Count(rs, Detailed),
      actionable := Collections.Count(rs, Actionable));
    SentimentCountsBounded(rs);
    s
  }

  /** The three sentiment labels are distinct strings, so no response is
      counted twice. */
  lemma SentimentCountsBounded(rs: seq<Response>)
    ensures Collections.Count(rs, IsPositive) + Collections.Count(rs, IsNeutral)
          + Collections.Count(rs, IsNegative) <= |rs|
  {
    var pos := IsPositive;
    var neu := IsNeutral;
    var neg := IsNegative;
    var posNeu := (r: Response) => pos(r) || neu(r);
    var any := (r: Response) => posNeu(r) || neg(r);
    assert SentimentPositive[0] != SentimentNeutral[0] && SentimentNeutral[2] != SentimentNegative[2];
    assert SentimentPositive[0] != SentimentNegative[0];
    Collections.CountDisjointSum(rs, pos, neu, posNeu);
    Collections.CountDisjointSum(rs, posNeu, neg, any);
  }

  /** An actionable response is one containing an action word, counted once
      however many it contains. */
  lemma ActionableIff(r: Response)
    ensures Actionable(r) <==> exists i :: 0 <= i < |ActionWords| && Contains(Lower(r.text), ActionWords[i])
  {
    HitsPositive(Lower(r.text), ActionWords);
  }

  // ---------------------------------------------------------------------
  // Mood breakdown

  function Get(m: map<Mood, nat>, k: Mood): nat
  {
    if k in m then m[k] else 0
  }

  /** One step of the `forEach`: a response with a mood bumps its tally. */
  function Tally(acc: map<Mood, nat>, r: Response): map<Mood, nat>
  {
    if r.mood.Some? then acc[r.mood.value := Get(acc, r.mood.value) + 1] else acc
  }

  function TallyFrom(rs: seq<Response>, acc: map<Mood, nat>): map<Mood, nat>
  {
    if |rs| == 0 then acc else TallyFrom(rs[1..], Tally(acc, rs[0]))
  }

  /** `moodCounts`. */
  function MoodBreakdown(rs: seq<Response>): map<Mood, nat>
  {
    TallyFrom(rs, map[])
  }

  function MoodCount(rs: seq<Response>, k: Mood): nat
  {
    Collections.Count(rs, (r: Response) => r.mood == Some(k))
  }

  lemma {:induction false} TallyFromCounts(rs: seq<Response>, acc: map<Mood, nat>, k: Mood)
    ensures Get(TallyFrom(rs, acc), k) == Get(acc, k) + MoodCount(rs, k)
    ensures k in TallyFrom(rs, acc) <==> k in acc || MoodCount(rs, k) > 0
  {
    if |rs| > 0 {
      TallyFromCounts(rs[1..], Tally(acc, rs[0]), k);
    }
  }

  /** The breakdown has a key for exactly the moods that occur, holding
      how many responses carry that mood. */
  lemma MoodBreakdownCounts(rs: seq<Response>, k: Mood)
    ensures k in MoodBreakdown(rs) <==> exists i :: 0 <= i < |rs| && rs[i].mood == Some(k)
    ensures Get(MoodBreakdown(rs), k) == MoodCount(rs, k)
  {
    TallyFromCounts(rs, map[], k);
    Collections.CountPositive(rs, (r: Response) => r.mood == Some(k));
  }

  function MoodSum(m: map<Mood, nat>): nat
  {
    Get(m, Grinning) + Get(m, Smiling) + Get(m, Neutral) + Get(m, Frowning) + Get(m, Disappointed)
  }

  lemma {:induction false} MoodCountsSum(rs: seq<Response>)
    ensures MoodCount(rs, Grinning) + MoodCount(rs, Smiling) + MoodCount(rs, Neutral)
          + MoodCount(rs, Frowning) + MoodCount(rs, Disappointed)
         == Collections.Count(rs, (r: Response) => r.mood.Some?)
  {
    if |rs| > 0 {
      MoodCountsSum(rs[1..]);
      match rs[0].mood {
        case None =>
        case Some(m) =>
          match m {
            case Grinning =>
            case Smiling =>
            case Neutral =>
            case Frowning =>
            case Disappointed =>
          }
      }
    }
  }

  /** The breakdown's values add up to the number of responses with a mood. */
  lemma MoodBreakdownSum(rs: seq<Response>)
    ensures MoodSum(MoodBreakdown(rs)) == Collections.Count(rs, (r: Response) => r.mood.Some?)
  {
    MoodBreakdownCounts(rs, Grinning);
    MoodBreakdownCounts(rs, Smiling);
    MoodBreakdownCounts(rs, Neutral);
    MoodBreakdownCounts(rs, Frowning);
    MoodBreakdownCounts(rs, Disappointed);
    MoodCountsSum(rs);
  }

  // ---------------------------------------------------------------------
  // Cleaning the reply

  /** The position of the last `c` in `s`, or -1. */
  function LastIndexOf(s: string, c: char): (j: int)
    ensures -1 <= j < |s|
    ensures j >= 0 ==> s[j] == c
    ensures forall k :: j < k < |s| ==> s[k] != c
  {
    if |s| == 0 then -1
    else if s[|s| - 1] == c then |s| - 1
    else LastIndexOf(s[..|s| - 1], c)
  }

  predicate IsOpen(c: char) { c == '{' }

  /** Some `{` has a `}` somewhere after it: `/\{[\s\S]*\}/` matches. */
  predicate HasBraceSpan(s: string)
  {
    exists i, j :: 0 <= i < j < |s| && s[i] == '{' && s[j] == '}'
  }

  /** `s[i..j]` inclusive runs from the first `{` to the last `}`. */
  predicate GreedySpan(s: string, i: int, j: int)
  {
    && 0 <= i < j < |s|
    && s[i] == '{' && (forall k :: 0 <= k < i ==> s[k] != '{')
    && s[j] == '}' && (forall k :: j < k < |s| ==> s[k] != '}')
  }

  /** Text already starting with `{` is kept; otherwise the greedy match of
      `/\{[\s\S]*\}/` is taken: from the first `{` to the last `}`. */
  function ExtractJson(s: string): (r: Option<string>)
    ensures StartsWith(s, "{") ==> r == Some(s)
    ensures r.Some? ==> |r.value| > 0 && r.value[0] == '{'
    ensures !StartsWith(s, "{") ==> (r.Some? <==> HasBraceSpan(s))
    ensures !StartsWith(s, "{") && r.Some? ==>
      exists i, j :: GreedySpan(s, i, j) && r.value == s[i..j + 1]
  {
    if StartsWith(s, "{") then Some(s)
    else
      var i := Collections.FirstIndex(s, IsOpen);
      var j := LastIndexOf(s, '}');
      if i < j then assert GreedySpan(s, i, j); Some(s[i..j + 1]) else None
  }

  /** Extraction is idempotent: its result starts with `{`. */
  lemma ExtractJsonIdempotent(s: string)
    requires ExtractJson(s).Some?
    ensures ExtractJson(ExtractJson(s).value) == ExtractJson(s)
  {
  }

  /** The clean-up before extraction: trim; if a fence opens the text,
      strip the fences (`stripFences`, the two regular expressions) and
      trim again; trim. */
  function Unfence(content: string, stripFences: string -> string): string
  {
    var t := Trim(content);
    var u := if StartsWith(t, "```") then Trim(stripFences(t)) else t;
    Trim(u)
  }

  /** The cleaned reply: the brace span of the unfenced text. */
  function CleanContent(content: string, stripFences: string -> string): Option<string>
  {
    ExtractJson(Unfence(content, stripFences))
  }

  // ---------------------------------------------------------------------
  // The parsed report

  datatype Recommendation = Recommendation(
    title: string,
    description: string,
    priority: string,
    impact: string,
    effort: string,
    timeline: string,
    successMetrics: seq<string>,
    resources: seq<string>,
    dependencies: seq<string>)

  /** The participation block: five figures the local code overwrites and
      three optional fields only the model supplies. */
  datatype Participation = Participation(
    totalResponses: int,
    averageLength: int,
    detailedResponses: int,
    actionableFeedback: int,
    moodBreakdown: map<Mood, nat>,
    engagementQuality: Option<string>,
    insights: Option<string>,
    responseRate: Option<int>)

  /** The parts of the model's JSON the local code reads or writes. */
  datatype ReportData = ReportData(
    summary: string,
    participation: Option<Participation>,
    recommendations: Option<seq<Recommendation>>,
    suggestions: Option<seq<string>>)

  /** The legacy shape: a bare suggestion becomes a medium-priority recommendation. */
  function FromSuggestion(s: string): Recommendation
  {
    Recommendation(s, s, "medium", "medium", "medium", "1-3 months", ["Improved satisfaction"], [], [])
  }

  function Fallback(d: ReportData): (r: ReportData)
    ensures d.recommendations.Some? || d.suggestions.None? ==> r == d
    ensures d.recommendations.None? && d.suggestions.Some? ==>
      r == d.(recommendations := r.recommendations)
      && r.recommendations.Some? && |r.recommendations.value| == |d.suggestions.value|
      && forall i :: 0 <= i < |d.suggestions.value| ==>
           var rec := r.recommendations.value[i];
           && rec.title == d.suggestions.value[i] && rec.description == d.suggestions.value[i]
           && rec.priority == "medium" && rec.impact == "medium" && rec.effort == "medium"
  {
    if d.recommendations.None? && d.suggestions.Some? then
      var ss := d.suggestions.value;
      d.(recommendations := Some(seq(|ss|, i requires 0 <= i < |ss| => FromSuggestion(ss[i]))))
    else d
  }

  /** After the fallback, recommendations are missing only when suggestions
      are too, so the stored blob's `|| suggestions` alternative never fires. */
  lemma FallbackCoversSuggestions(d: ReportData)
    ensures Fallback(d).recommendations.None? ==> Fallback(d).suggestions.None?
  {
  }

  /** The participation block with every local figure written over the
      model's; the fields only the model supplies are kept. */
  function Overwrite(p: Participation, rs: seq<Response>): (q: Participation)
    requires |rs| > 0
    ensures q.totalResponses == |rs|
    ensures q.averageLength == RoundedAverage(TotalLength(rs), |rs|)
    ensures q.detailedResponses == Collections.Count(rs, Detailed)
    ensures q.actionableFeedback == Collections.Count(rs, Actionable)
    ensures q.moodBreakdown == MoodBreakdown(rs)
    ensures q.engagementQuality == p.engagementQuality
    ensures q.insights == p.insights
    ensures q.responseRate == p.responseRate
  {
    var s := LocalStats(rs);
    p.(totalResponses := s.count, averageLength := s.averageLength,
       detailedResponses := s.detailed, actionableFeedback := s.actionable,
       moodBreakdown := MoodBreakdown(rs))
  }

  /** The fields of the participation block that only the model supplies. */
  predicate SameModelFields(p1: Participation, p2: Participation)
  {
    && p1.engagementQuality == p2.engagementQuality
    && p1.insights == p2.insights
    && p1.responseRate == p2.responseRate
  }

  /** The model's own figures are discarded: two replies lead to the same
      stored participation exactly when they agree on the fields only the
      model supplies. */
  lemma OverwriteIgnoresModel(p1: Participation, p2: Participation, rs: seq<Response>)
    requires |rs| > 0
    ensures Overwrite(p1, rs) == Overwrite(p2, rs) <==> SameModelFields(p1, p2)
  {
  }

  // ---------------------------------------------------------------------
  // The whole generation

  datatype ReportError = NoResponses | NoContent | NoJson | ParseFailure | NoParticipation

  datatype ReportOutcome = ReportOutcome(
    result: Option<ReportData>,
    error: Option<ReportError>,
    campaigns: seq<Campaign>,
    reports: map<string, ReportData>)

  /** `campaign.update({ where: { id }, data: { aiReportGenerated: true } })`. */
  function MarkGenerated(cs: seq<Campaign>, campaignId: string): (r: seq<Campaign>)
    ensures |r| == |cs|
    ensures forall i :: 0 <= i < |cs| ==>
      r[i] == (if cs[i].id == campaignId then cs[i].(aiReportGenerated := true) else cs[i])
  {
    seq(|cs|, i requires 0 <= i < |cs| =>
      if cs[i].id == campaignId then cs[i].(aiReportGenerated := true) else cs[i])
  }

  function ForCampaign(responses: seq<Response>, campaignId: string): seq<Response>
  {
    Collections.Filter(responses, (r: Response) => r.campaignId == campaignId)
  }

  function Failed(e: ReportError, cs: seq<Campaign>, reports: map<string, ReportData>): ReportOutcome
  {
    ReportOutcome(None, Some(e), cs, reports)
  }

  /** `generateAIReport(campaignId)`: `content` is the model's reply, if any. */
  function GenerateReport(campaignId: string, responses: seq<Response>, cs: seq<Campaign>,
                          reports: map<string, ReportData>, content: Option<string>,
                          stripFences: string -> string, parse: string -> Option<ReportData>): (r: ReportOutcome)
    ensures r.error.Some? <==> r.result.None?
    ensures r.error == Some(NoResponses) <==> |ForCampaign(responses, campaignId)| == 0
    ensures r.error.Some? ==> r.campaigns == cs && r.reports == reports
    ensures r.error == Some(NoContent) <==>
      |ForCampaign(responses, campaignId)| > 0 && (content.None? || content.value == "")
    ensures r.error == Some(NoJson) <==>
      && |ForCampaign(responses, campaignId)| > 0 && content.Some? && content.value != ""
      && CleanContent(content.value, stripFences).None?
    ensures (&& |ForCampaign(responses, campaignId)| > 0 && content.Some? && content.value != ""
             && !StartsWith(Unfence(content.value, stripFences), "{")
             && !HasBraceSpan(Unfence(content.value, stripFences)))
            ==> r.error == Some(NoJson)
    ensures (&& |ForCampaign(responses, campaignId)| > 0 && content.Some? && content.value != ""
             && CleanContent(content.value, stripFences).Some?)
            ==> var parsed := parse(CleanContent(content.value, stripFences).value);
                && (r.result.Some? <==> parsed.Some? && parsed.value.participation.Some?)
                && (r.error == Some(ParseFailure) <==> parsed.None?)
                && (r.error == Some(NoParticipation) <==> parsed.Some? && parsed.value.participation.None?)
    ensures r.result.Some? ==>
      && content.Some? && CleanContent(content.value, stripFences).Some?
      && var parsed := parse(CleanContent(content.value, stripFences).value);
         && parsed.Some? && parsed.value.participation.Some?
         && r.result.value == Fallback(parsed.value.(participation :=
              Some(Overwrite(parsed.value.participation.value, ForCampaign(responses, campaignId)))))
    ensures r.result.Some? ==>
      && r.reports == reports[campaignId := r.result.value]
      && r.campaigns == MarkGenerated(cs, campaignId)
      && r.result.value.participation.Some?
      && var rs := ForCampaign(responses, campaignId);
         var p := r.result.value.participation.value;
         && |rs| > 0
         && p.totalResponses == |rs|
         && p.averageLength == RoundedAverage(TotalLength(rs), |rs|)
         && p.detailedResponses == Collections.Count(rs, Detailed)
         && p.actionableFeedback == Collections.Count(rs, Actionable)
         && p.moodBreakdown == MoodBreakdown(rs)
  {
    var rs := ForCampaign(responses, campaignId);
    if |rs| == 0 then Failed(NoResponses, cs, reports)
    else if content.None? || content.value == "" then Failed(NoContent, cs, reports)
    else
      var cleaned := CleanContent(content.value, stripFences);
      if cleaned.None? then Failed(NoJson, cs, reports)
      else
        var parsed := parse(cleaned.value);
        if parsed.None? then Failed(ParseFailure, cs, reports)
        else if parsed.value.participation.None? then Failed(NoParticipation, cs, reports)
        else
          var d := parsed.value.(participation := Some(Overwrite(parsed.value.participation.value, rs)));
          var report := Fallback(d);
          ReportOutcome(Some(report), None, MarkGenerated(cs, campaignId), reports[campaignId := report])
  }
}

=== FILE: responses_api.dfy ===
/** Anonymous response intake (app/api/responses/route.ts): validating the
    body, finding the campaign, checking that it is open, classifying the
    text and deciding whether the owner is notified. */
module ResponsesApi {
  import opened Domain
  import opened Text
  import Collections

  // ---------------------------------------------------------------------
  // Classification

  const PositiveWords: seq<string> :=
    ["good", "great", "excellent", "love", "happy", "amazing", "wonderful", "fantastic"]
  const NegativeWords: seq<string> :=
    ["bad", "terrible", "hate", "awful", "worst", "horrible", "frustrated", "angry"]
  const RiskKeywords: seq<string> :=
    ["harassment", "discrimination", "bully", "unsafe", "illegal", "violation"]

  /** The keyword sentiment of the lower-cased text. */
  function Sentiment(text: string): (s: string)
    ensures s == SentimentPositive || s == SentimentNeutral || s == SentimentNegative
  {
    var pos := Hits(text, PositiveWords);
    var neg := Hits(text, NegativeWords);
    if pos > neg then SentimentPositive
    else if neg > pos then SentimentNegative
    else SentimentNeutral
  }

  /** Each label holds exactly when the keyword counts compare that way. */
  lemma SentimentIff(text: string)
    ensures var pos := Hits(text, PositiveWords);
      var neg := Hits(text, NegativeWords);
      && (Sentiment(text) == SentimentPositive <==> pos > neg)
      && (Sentiment(text) == SentimentNegative <==> neg > pos)
      && (Sentiment(text) == SentimentNeutral <==> pos == neg)
  {
  }

  predicate SadMood(m: Option<Mood>)
  {
    m == Some(Frowning) || m == Some(Disappointed)
  }

  predicate HappyMood(m: Option<Mood>)
  {
    m == Some(Grinning) || m == Some(Smiling)
  }

  /** The attention level: a negative signal wins over a positive one. */
  function Attention(sentiment: string, mood: Option<Mood>): (a: string)
    ensures a == AttentionUrgent || a == AttentionModerate || a == AttentionPositive
  {
    if sentiment == SentimentNegative || SadMood(mood) then AttentionUrgent
    else if sentiment == SentimentPositive || HappyMood(mood) then AttentionPositive
    else AttentionModerate
  }

  /** The precedence of the attention levels, in both directions. */
  lemma AttentionIff(sentiment: string, mood: Option<Mood>)
    ensures Attention(sentiment, mood) == AttentionUrgent <==>
      sentiment == SentimentNegative || mood == Some(Frowning) || mood == Some(Disappointed)
    ensures Attention(sentiment, mood) == AttentionPositive <==>
      sentiment != SentimentNegative && mood != Some(Frowning) && mood != Some(Disappointed)
      && (mood == Some(Grinning) || mood == Some(Smiling) || sentiment == SentimentPositive)
    ensures Attention(sentiment, mood) == AttentionModerate <==>
      sentiment != SentimentNegative && sentiment != SentimentPositive && (mood.None? || mood == Some(Neutral))
  {
    assert AttentionModerate[0] != AttentionPositive[0];
    assert |AttentionModerate| != |AttentionUrgent|;
    match mood {
      case None =>
      case Some(m) =>
        match m {
          case Grinning =>
          case Smiling =>
          case Neutral =>
          case Frowning =>
          case Disappointed =>
        }
    }
  }

  /** The triage status: flagged exactly when a risk keyword occurs. */
  function TriageStatus(text: string): (s: string)
    ensures s == StatusNeedsAttention || s == StatusNew
  {
    if Hits(text, RiskKeywords) > 0 then StatusNeedsAttention else StatusNew
  }

  lemma TriageStatusIff(text: string)
    ensures TriageStatus(text) == StatusNeedsAttention <==>
      exists i :: 0 <= i < |RiskKeywords| && Contains(text, RiskKeywords[i])
  {
    HitsPositive(text, RiskKeywords);
  }

  /** The risk flag looks at the text only: whatever the sentiment and
      attention of two texts, they get the same status when they hold the
      same risk keywords. */
  lemma TriageStatusIgnoresSentiment(t1: string, t2: string)
    requires forall i :: 0 <= i < |RiskKeywords| ==> (Contains(t1, RiskKeywords[i]) <==> Contains(t2, RiskKeywords[i]))
    ensures TriageStatus(t1) == TriageStatus(t2)
  {
    TriageStatusIff(t1);
    TriageStatusIff(t2);
  }

  // ---------------------------------------------------------------------
  // Lookup and gate

  /** `findUnique` by id, then by slug. */
  function FindCampaign(cs: seq<Campaign>, key: string): (r: Option<Campaign>)
    ensures r.None? <==> forall c :: c in cs ==> c.id != key && c.slug != Some(key)
    ensures r.Some? ==> r.value in cs
    ensures r.Some? && r.value.id != key ==>
      r.value.slug == Some(key) && forall c :: c in cs ==> c.id != key
  {
    var i := Collections.FirstIndex(cs, (c: Campaign) => c.id == key);
    if i < |cs| then Some(cs[i])
    else
      var j := Collections.FirstIndex(cs, (c: Campaign) => c.slug == Some(key));
      if j < |cs| then Some(cs[j]) else None
  }

  /** A campaign takes submissions while active and before its close date. */
  predicate Open(c: Campaign, now: int)
  {
    c.isActive && !(c.closeDate.Some? && c.closeDate.value < now)
  }

  // ---------------------------------------------------------------------
  // Notification

  /** Unset preferences mean "telegram on"; a stored blob must say so. */
  predicate TelegramOn(prefs: Option<Prefs>)
  {
    prefs.None? || prefs.value.telegram == Some(true)
  }

  predicate ShouldNotify(owner: Option<User>)
  {
    owner.Some? && TelegramOn(owner.value.preferences) && Truthy(owner.value.telegramChatId)
  }

  // ---------------------------------------------------------------------
  // POST

  /** The request body: `mood` is the raw string, if any. */
  datatype SubmitRequest = SubmitRequest(campaignId: string, text: string, mood: Option<string>)

  /** The outcome: status code, the stored response, the response table
      afterwards, and whether a Telegram message is attempted. */
  datatype SubmitResult = SubmitResult(status: int, response: Option<Response>, responses: seq<Response>, notify: bool)

  predicate ValidRequest(req: SubmitRequest)
  {
    req.text != "" && (req.mood.None? || ParseMood(req.mood.value).Some?)
  }

  function ParsedMood(req: SubmitRequest): Option<Mood>
    requires ValidRequest(req)
  {
    if req.mood.None? then None else ParseMood(req.mood.value)
  }

  /** The response row the intake writes; `aiLabels` is whatever the
      categoriser produced, if it ran and succeeded. */
  function NewResponse(req: SubmitRequest, newId: string, now: int, aiLabels: Option<seq<string>>): (r: Response)
    requires ValidRequest(req)
    ensures r.campaignId == req.campaignId && r.text == req.text && r.mood == ParsedMood(req)
    ensures r.sentiment == Sentiment(Lower(req.text))
    ensures r.attention == Attention(r.sentiment, r.mood)
    ensures r.status == TriageStatus(Lower(req.text))
    ensures r.assignedTo.None? && r.tags.None?
  {
    var text := Lower(req.text);
    var sentiment := Sentiment(text);
    var mood := ParsedMood(req);
    Response(
      id := newId,
      campaignId := req.campaignId,
      text := req.text,
      mood := mood,
      sentiment := sentiment,
      attention := Attention(sentiment, mood),
      status := TriageStatus(text),
      assignedTo := None,
      tags := None,
      aiLabels := aiLabels,
      createdAt := now)
  }

  /** `POST /api/responses`. The row is written with the identifier sent as
      its `campaignId`; the store refuses a `campaignId` that is no
      campaign's id (a campaign found by its slug), and the route then
      answers 500. */
  function Submit(req: SubmitRequest, campaigns: seq<Campaign>, responses: seq<Response>, users: seq<User>,
                  now: int, newId: string, aiLabels: Option<seq<string>>): (r: SubmitResult)
    ensures r.status == Created || r.status == BadRequest || r.status == NotFound || r.status == ServerError
    ensures r.status == Created <==>
      && ValidRequest(req) && FindCampaign(campaigns, req.campaignId).Some?
      && Open(FindCampaign(campaigns, req.campaignId).value, now)
      && FindCampaign(campaigns, req.campaignId).value.id == req.campaignId
    ensures r.status == ServerError <==>
      && ValidRequest(req) && FindCampaign(campaigns, req.campaignId).Some?
      && Open(FindCampaign(campaigns, req.campaignId).value, now)
      && FindCampaign(campaigns, req.campaignId).value.id != req.campaignId
    ensures r.status == NotFound <==> ValidRequest(req) && FindCampaign(campaigns, req.campaignId).None?
    ensures r.status != Created ==> r.response.None? && r.responses == responses && !r.notify
    ensures r.status == Created ==>
      r.response == Some(NewResponse(req, newId, now, aiLabels)) && r.responses == responses + [r.response.value]
      && (r.notify <==> ShouldNotify(FindUser(users, FindCampaign(campaigns, req.campaignId).value.userId)))
  {
    if !ValidRequest(req) then SubmitResult(BadRequest, None, responses, false)
    else
      var found := FindCampaign(campaigns, req.campaignId);
      if found.None? then SubmitResult(NotFound, None, responses, false)
      else if !found.value.isActive then SubmitResult(BadRequest, None, responses, false)
      else if found.value.closeDate.Some? && found.value.closeDate.value < now then SubmitResult(BadRequest, None, responses, false)
      else if found.value.id != req.campaignId then SubmitResult(ServerError, None, responses, false)
      else
        var resp := NewResponse(req, newId, now, aiLabels);
        SubmitResult(Created, Some(resp), responses + [resp], ShouldNotify(FindUser(users, found.value.userId)))
  }

  /** The row is written with the identifier sent as its `campaignId`. For
      an open campaign addressed by its id that is the campaign's id and the
      response is stored; for one addressed by its slug no campaign has that
      id, so the write is refused and nothing is stored. */
  lemma StoredCampaignIdVerbatim(req: SubmitRequest, campaigns: seq<Campaign>, responses: seq<Response>,
                                 users: seq<User>, now: int, newId: string, aiLabels: Option<seq<string>>)
    requires ValidRequest(req) && FindCampaign(campaigns, req.campaignId).Some?
    requires Open(FindCampaign(campaigns, req.campaignId).value, now)
    ensures var r := Submit(req, campaigns, responses, users, now, newId, aiLabels);
      var c := FindCampaign(campaigns, req.campaignId).value;
      && NewResponse(req, newId, now, aiLabels).campaignId == req.campaignId
      && (c.id == req.campaignId ==> r.status == Created && r.response.value.campaignId == c.id)
      && (c.id != req.campaignId ==>
            && c.slug == Some(req.campaignId)
            && (forall d :: d in campaigns ==> d.id != req.campaignId)
            && r.status == ServerError && r.response.None? && r.responses == responses && !r.notify)
  {
  }

  /** The outcome of a submission never depends on the categoriser: with or
      without labels the status, the notification and every other field of
      the stored row agree. */
  lemma LabelsDoNotAffectOutcome(req: SubmitRequest, campaigns: seq<Campaign>, responses: seq<Response>,
                                 users: seq<User>, now: int, newId: string, l1: Option<seq<string>>, l2: Option<seq<string>>)
    ensures var r1 := Submit(req, campaigns, responses, users, now, newId, l1);
      var r2 := Submit(req, campaigns, responses, users, now, newId, l2);
      && r1.status == r2.status && r1.notify == r2.notify
      && (r1.status == Created ==> r1.response.value.(aiLabels := l2) == r2.response.value)
  {
  }

  // ---------------------------------------------------------------------
  // A worked example

  /** A word holding a character the text lacks does not occur in it. */
  lemma MissingCharNotContained(text: string, w: string, c: char)
    requires c in w && c !in text
    ensures !Contains(text, w)
  {
    ContainsIffOccurs(text, w);
    var k :| 0 <= k < |w| && w[k] == c;
    forall i | 0 <= i && i + |w| <= |text|
      ensures !OccursAt(text, w, i)
    {
      assert text[i..i + |w|][k] == text[i + k];
      assert text[i + k] in text;
    }
  }

  /** Lower-casing works character by character, so it distributes over `+`. */
  lemma LowerAppend(a: string, b: string)
    ensures Lower(a + b) == Lower(a) + Lower(b)
  {
    assert forall i :: 0 <= i < |a + b| ==> Lower(a + b)[i] == (Lower(a) + Lower(b))[i];
  }

  const ScenarioText := "I hate the" + " broken tools," + " this is terrible"

  const ScenarioLowered := "i hate the" + " broken tools," + " this is terrible"

  /** The scenario text lower-cased: only the leading `I` changes. */
  lemma ScenarioLower()
    ensures Lower(ScenarioText) == ScenarioLowered
  {
    LowerAppend("I hate the" + " broken tools,", " this is terrible");
    LowerAppend("I hate the", " broken tools,");
    assert Lower("I hate the") == "i hate the" by {
      assert forall i :: 0 <= i < 10 ==> Lower("I hate the")[i] == "i hate the"[i];
    }
    assert Lower(" broken tools,") == " broken tools," by {
      assert forall i :: 0 <= i < 14 ==> Lower(" broken tools,")[i] == " broken tools,"[i];
    }
    assert Lower(" this is terrible") == " this is terrible" by {
      assert forall i :: 0 <= i < 17 ==> Lower(" this is terrible")[i] == " this is terrible"[i];
    }
  }

  /** Six letters the lowered scenario text lacks; every positive word and
      every risk keyword holds one of them. */
  lemma ScenarioLacks()
    ensures && 'g' !in ScenarioLowered && 'c' !in ScenarioLowered && 'v' !in ScenarioLowered
            && 'y' !in ScenarioLowered && 'u' !in ScenarioLowered && 'm' !in ScenarioLowered
  {
    ScenarioLacksGcv();
    ScenarioLacksYum();
  }

  lemma ScenarioLacksGcv()
    ensures 'g' !in ScenarioLowered && 'c' !in ScenarioLowered && 'v' !in ScenarioLowered
  {
  }

  lemma ScenarioLacksYum()
    ensures 'y' !in ScenarioLowered && 'u' !in ScenarioLowered && 'm' !in ScenarioLowered
  {
  }

  /** No positive word occurs in the scenario text: each holds one of
      the letters it lacks. */
  lemma ScenarioNoPositive()
    ensures Hits(Lower(ScenarioText), PositiveWords) == 0
  {
    var l := ScenarioLowered;
    ScenarioLacks();
    forall i | 0 <= i < |PositiveWords|
      ensures !Contains(l, PositiveWords[i])
    {
      if i == 0 { MissingCharNotContained(l, PositiveWords[i], 'g'); }
      else if i == 1 { MissingCharNotContained(l, PositiveWords[i], 'g'); }
      else if i == 2 { MissingCharNotContained(l, PositiveWords[i], 'c'); }
      else if i == 3 { MissingCharNotContained(l, PositiveWords[i], 'v'); }
      else if i == 4 { MissingCharNotContained(l, PositiveWords[i], 'y'); }
      else if i == 5 { MissingCharNotContained(l, PositiveWords[i], 'm'); }
      else if i == 6 { MissingCharNotContained(l, PositiveWords[i], 'u'); }
      else { MissingCharNotContained(l, PositiveWords[i], 'c'); }
    }
    HitsPositive(l, PositiveWords);
    ScenarioLower();
  }

  /** No risk keyword occurs in the scenario text: each holds one of
      the letters it lacks. */
  lemma ScenarioNoRisk()
    ensures Hits(Lower(ScenarioText), RiskKeywords) == 0
  {
    var l := ScenarioLowered;
    ScenarioLacks();
    forall i | 0 <= i < |RiskKeywords|
      ensures !Contains(l, RiskKeywords[i])
    {
      if i == 0 { MissingCharNotContained(l, RiskKeywords[i], 'm'); }
      else if i == 1 { MissingCharNotContained(l, RiskKeywords[i], 'c'); }
      else if i == 2 { MissingCharNotContained(l, RiskKeywords[i], 'y'); }
      else if i == 3 { MissingCharNotContained(l, RiskKeywords[i], 'u'); }
      else if i == 4 { MissingCharNotContained(l, RiskKeywords[i], 'g'); }
      else { MissingCharNotContained(l, RiskKeywords[i], 'v'); }
    }
    HitsPositive(l, RiskKeywords);
    ScenarioLower();
  }

  /** `hate` occurs in the lower-cased scenario text, at position 2. */
  lemma ScenarioHasHate()
    ensures Contains(Lower(ScenarioText), NegativeWords[2])
  {
    ScenarioLower();
    var l := ScenarioLowered;
    assert l[2..6] == "hate" by {
      assert l[2] == 'h' && l[3] == 'a' && l[4] == 't' && l[5] == 'e';
    }
    assert OccursAt(l, NegativeWords[2], 2);
    ContainsIffOccurs(l, NegativeWords[2]);
  }

  /** A text with a negative word, no positive word and no risk keyword is
      negative, urgent whatever the mood, and `new`. */
  lemma NegativeWithoutRisk(t: string, mood: Option<Mood>)
    requires Hits(t, PositiveWords) == 0 && Hits(t, RiskKeywords) == 0
    requires exists i :: 0 <= i < |NegativeWords| && Contains(t, NegativeWords[i])
    ensures Sentiment(t) == SentimentNegative
    ensures Attention(Sentiment(t), mood) == AttentionUrgent
    ensures TriageStatus(t) == StatusNew
  {
    HitsPositive(t, NegativeWords);
  }

  /** "I hate the broken tools, this is terrible" is negative, hence urgent
      whatever the mood, and, holding no risk keyword, stays `new`. */
  lemma ScenarioClassification(mood: Option<Mood>)
    ensures Sentiment(Lower(ScenarioText)) == SentimentNegative
    ensures Attention(Sentiment(Lower(ScenarioText)), mood) == AttentionUrgent
    ensures TriageStatus(Lower(ScenarioText)) == StatusNew
  {
    ScenarioNoPositive();
    ScenarioNoRisk();
    ScenarioHasHate();
    NegativeWithoutRisk(Lower(ScenarioText), mood);
  }
}

=== FILE: schedule.dfy ===
/** The scheduler sweep, run by the cron endpoint
    (app/api/campaigns/schedule/route.ts) and by the stand-alone script
    (scripts/process-schedules.ts): activate, deactivate, then roll
    recurring campaigns over to their next cycle.

    Calendar arithmetic is a parameter: `advance(interval, t)` is the instant
    7 days, 1 month or 3 months after `t` as JavaScript's local-time `Date`
    setters compute it. */
module Schedule {
  import opened Domain
  import Collections

  type Advance = (Interval, int) -> int

  /** `lte: now` on a nullable date column: null never matches. */
  predicate AtOrBefore(d: Option<int>, now: int)
  {
    d.Some? && d.value <= now
  }

  // ---------------------------------------------------------------------
  // The three passes, one campaign at a time

  /** Step 1: a campaign whose start has come and that is inactive is switched on. */
  function Activate(c: Campaign, now: int): (r: Campaign)
    ensures AtOrBefore(c.startDate, now) ==> r.isActive
    ensures r == c.(isActive := r.isActive)
    ensures !AtOrBefore(c.startDate, now) ==> r == c
  {
    if AtOrBefore(c.startDate, now) && !c.isActive then c.(isActive := true) else c
  }

  /** Step 2: a campaign whose close has come and that is active is switched off. */
  function Deactivate(c: Campaign, now: int): (r: Campaign)
    ensures AtOrBefore(c.closeDate, now) ==> !r.isActive
    ensures r == c.(isActive := r.isActive)
    ensures !AtOrBefore(c.closeDate, now) ==> r == c
  {
    if AtOrBefore(c.closeDate, now) && c.isActive then c.(isActive := false) else c
  }

  /** Step 3's `findMany`: recurring, inactive and closed. */
  predicate Selected(c: Campaign, now: int)
  {
    c.isRecurring && !c.isActive && AtOrBefore(c.closeDate, now)
  }

  function SelectedAt(now: int): Campaign -> bool
  {
    c => Selected(c, now)
  }

  /** The start of the next cycle, counted from the close date (or, failing
      that, the creation time). */
  function NextStart(c: Campaign, advance: Advance): int
    requires c.recurringInterval.Some?
  {
    advance(c.recurringInterval.value, if c.closeDate.Some? then c.closeDate.value else c.createdAt)
  }

  /** Step 3's loop body: skipped without an interval, otherwise the
      campaign reopens at the next start, with no close date. */
  function Rollover(c: Campaign, now: int, advance: Advance): (r: Campaign)
    ensures c.recurringInterval.None? ==> r == c
    ensures c.recurringInterval.Some? ==>
      && r.startDate == Some(NextStart(c, advance))
      && r.closeDate.None?
      && r.isActive == (NextStart(c, advance) <= now)
    ensures r.(startDate := c.startDate, closeDate := c.closeDate, isActive := c.isActive) == c
  {
    if c.recurringInterval.None? then c
    else
      var next := NextStart(c, advance);
      c.(startDate := Some(next), closeDate := None, isActive := next <= now)
  }

  /** A campaign after steps 1 and 2. */
  function Settle(c: Campaign, now: int): Campaign
  {
    Deactivate(Activate(c, now), now)
  }

  /** What the whole sweep does to one campaign. */
  function SweepOne(c: Campaign, now: int, advance: Advance): Campaign
  {
    var s := Settle(c, now);
    if Selected(s, now) then Rollover(s, now, advance) else s
  }

  // ---------------------------------------------------------------------
  // The passes over the store

  function ActivatePass(cs: seq<Campaign>, now: int): (r: seq<Campaign>)
    ensures |r| == |cs| && forall i :: 0 <= i < |cs| ==> r[i] == Activate(cs[i], now)
  {
    seq(|cs|, i requires 0 <= i < |cs| => Activate(cs[i], now))
  }

  function DeactivatePass(cs: seq<Campaign>, now: int): (r: seq<Campaign>)
    ensures |r| == |cs| && forall i :: 0 <= i < |cs| ==> r[i] == Deactivate(cs[i], now)
  {
    seq(|cs|, i requires 0 <= i < |cs| => Deactivate(cs[i], now))
  }

  function RecurringPass(cs: seq<Campaign>, now: int, advance: Advance): (r: seq<Campaign>)
    ensures |r| == |cs|
    ensures forall i :: 0 <= i < |cs| ==> r[i] == if Selected(cs[i], now) then Rollover(cs[i], now, advance) else cs[i]
  {
    seq(|cs|, i requires 0 <= i < |cs| => if Selected(cs[i], now) then Rollover(cs[i], now, advance) else cs[i])
  }

  /** The three passes in order. */
  function Sweep(cs: seq<Campaign>, now: int, advance: Advance): seq<Campaign>
  {
    RecurringPass(DeactivatePass(ActivatePass(cs, now), now), now, advance)
  }

  /** `recurringCampaigns.length`: skipped campaigns are counted too. */
  function Processed(cs: seq<Campaign>, now: int): nat
  {
    Collections.Count(DeactivatePass(ActivatePass(cs, now), now), SelectedAt(now))
  }

  lemma SweepPointwise(cs: seq<Campaign>, now: int, advance: Advance, i: nat)
    requires i < |cs|
    ensures |Sweep(cs, now, advance)| == |cs|
    ensures Sweep(cs, now, advance)[i] == SweepOne(cs[i], now, advance)
  {
  }

  // ---------------------------------------------------------------------
  // Properties of the sweep

  /** Step 2 runs after step 1: after both, a campaign is active exactly
      when it was active or has started, and has not closed. A campaign
      with both dates in the past therefore ends step 2 inactive. */
  lemma SettleActive(c: Campaign, now: int)
    ensures Settle(c, now).isActive <==>
      (c.isActive || AtOrBefore(c.startDate, now)) && !AtOrBefore(c.closeDate, now)
    ensures Settle(c, now) == c.(isActive := Settle(c, now).isActive)
  {
  }

  /** A campaign no step applies to leaves the sweep as it came. */
  lemma Untouched(c: Campaign, now: int, advance: Advance)
    requires !(AtOrBefore(c.startDate, now) && !c.isActive)
    requires !(AtOrBefore(c.closeDate, now) && c.isActive)
    requires !Selected(c, now)
    ensures SweepOne(c, now, advance) == c
  {
  }

  /** Only `isActive`, `startDate` and `closeDate` ever change. */
  lemma SweepFrame(c: Campaign, now: int, advance: Advance)
    ensures SweepOne(c, now, advance).(startDate := c.startDate, closeDate := c.closeDate, isActive := c.isActive) == c
  {
  }

  /** A rolled-over campaign reopens at the next start and is active iff
      that start has come. */
  lemma RolledOver(c: Campaign, now: int, advance: Advance)
    requires Selected(Settle(c, now), now) && c.recurringInterval.Some?
    ensures var r := SweepOne(c, now, advance);
      && r.startDate == Some(NextStart(c, advance))
      && r.closeDate.None?
      && (r.isActive <==> NextStart(c, advance) <= now)
  {
  }

  /** One campaign swept twice at the same instant is swept once. */
  lemma SweepOneIdempotent(c: Campaign, now: int, advance: Advance)
    ensures SweepOne(SweepOne(c, now, advance), now, advance) == SweepOne(c, now, advance)
  {
    var s := Settle(c, now);
    SettleActive(c, now);
    if Selected(s, now) && s.recurringInterval.Some? {
      var r := Rollover(s, now, advance);
      assert Settle(r, now) == r;
      assert !Selected(r, now);
    } else {
      var s2 := Settle(s, now);
      SettleActive(s, now);
      assert s2 == s;
    }
  }

  /** Running the sweep twice with the same `now` leaves the store as one run does. */
  lemma SweepIdempotent(cs: seq<Campaign>, now: int, advance: Advance)
    ensures Sweep(Sweep(cs, now, advance), now, advance) == Sweep(cs, now, advance)
  {
    var once := Sweep(cs, now, advance);
    var twice := Sweep(once, now, advance);
    forall i | 0 <= i < |cs|
      ensures twice[i] == once[i]
    {
      SweepPointwise(cs, now, advance, i);
      SweepPointwise(once, now, advance, i);
      SweepOneIdempotent(cs[i], now, advance);
    }
  }

  // ---------------------------------------------------------------------
  // The cron endpoint

  /** The header value the endpoint compares against: the secret is
      interpolated into a template string, so an unset secret reads
      "undefined". */
  function ExpectedHeader(secret: Option<string>): string
  {
    "Bearer " + (if secret.Some? then secret.value else "undefined")
  }

  datatype ScheduleResult = ScheduleResult(status: int, processed: nat, campaigns: seq<Campaign>)

  /** `POST /api/campaigns/schedule`. */
  function RunSchedule(authHeader: Option<string>, secret: Option<string>, cs: seq<Campaign>,
                       now: int, advance: Advance): (r: ScheduleResult)
    ensures r.status == Ok <==> authHeader == Some(ExpectedHeader(secret))
    ensures r.status != Ok ==> r.status == Unauthorized && r.campaigns == cs && r.processed == 0
    ensures r.status == Ok ==> r.campaigns == Sweep(cs, now, advance) && r.processed == Processed(cs, now)
  {
    if authHeader != Some(ExpectedHeader(secret)) then ScheduleResult(Unauthorized, 0, cs)
    else ScheduleResult(Ok, Processed(cs, now), Sweep(cs, now, advance))
  }

  /** With the secret unset, the literal header "Bearer undefined" is accepted. */
  lemma UnsetSecretAcceptsUndefined(cs: seq<Campaign>, now: int, advance: Advance)
    ensures RunSchedule(Some("Bearer undefined"), None, cs, now, advance).status == Ok
  {
    assert ExpectedHeader(None) == "Bearer " + "undefined";
    assert "Bearer " + "undefined" == "Bearer undefined";
  }

  // ---------------------------------------------------------------------
  // The stand-alone script

  /** The script's activation `updateMany`, written as a loop over the store. */
  method ActivateAll(cs: seq<Campaign>, now: int) returns (r: seq<Campaign>)
    ensures r == ActivatePass(cs, now)
  {
    r := [];
    var i := 0;
    while i < |cs|
      invariant 0 <= i <= |cs|
      invariant |r| == i && forall j :: 0 <= j < i ==> r[j] == Activate(cs[j], now)
    {
      r := r + [Activate(cs[i], now)];
      i := i + 1;
    }
  }

  /** The script's deactivation `updateMany`, written as a loop over the store. */
  method DeactivateAll(cs: seq<Campaign>, now: int) returns (r: seq<Campaign>)
    ensures r == DeactivatePass(cs, now)
  {
    r := [];
    var i := 0;
    while i < |cs|
      invariant 0 <= i <= |cs|
      invariant |r| == i && forall j :: 0 <= j < i ==> r[j] == Deactivate(cs[j], now)
    {
      r := r + [Deactivate(cs[i], now)];
      i := i + 1;
    }
  }

  /** `sel` lists, in increasing order, exactly the selected positions below `i`. */
  predicate SelectedBelow(cs: seq<Campaign>, now: int, sel: seq<nat>, i: nat)
    requires i <= |cs|
  {
    && (forall k :: 0 <= k < |sel| ==> sel[k] < i && Selected(cs[sel[k]], now))
    && (forall j :: 0 <= j < i && Selected(cs[j], now) ==> j in sel)
    && (forall k, l :: 0 <= k < l < |sel| ==> sel[k] < sel[l])
  }

  /** One iteration of the scan: position `i` joins the list when selected. */
  method SelectStep(cs: seq<Campaign>, now: int, sel: seq<nat>, i: nat) returns (sel': seq<nat>)
    requires i < |cs| && SelectedBelow(cs, now, sel, i)
    ensures SelectedBelow(cs, now, sel', i + 1)
  {
    if Selected(cs[i], now) {
      sel' := sel + [i];
    } else {
      sel' := sel;
    }
  }

  /** The `findMany` of step 3, as positions in increasing order. */
  method FindSelected(cs: seq<Campaign>, now: int) returns (sel: seq<nat>)
    ensures forall k :: 0 <= k < |sel| ==> sel[k] < |cs| && Selected(cs[sel[k]], now)
    ensures forall j :: 0 <= j < |cs| && Selected(cs[j], now) ==> j in sel
    ensures forall k, l :: 0 <= k < l < |sel| ==> sel[k] < sel[l]
  {
    sel := [];
    var i := 0;
    while i < |cs|
      invariant 0 <= i <= |cs|
      invariant SelectedBelow(cs, now, sel, i)
    {
      sel := SelectStep(cs, now, sel, i);
      i := i + 1;
    }
  }

  /** A list of exactly the selected positions below `i`, in increasing
      order, is as long as the number of selected campaigns there: the
      script's count of found campaigns is the route's `processed`. */
  lemma {:induction false} SelectionCount(cs: seq<Campaign>, now: int, sel: seq<nat>, i: nat)
    requires i <= |cs| && SelectedBelow(cs, now, sel, i)
    ensures |sel| == Collections.Count(cs[..i], SelectedAt(now))
    decreases i
  {
    if i > 0 {
      Collections.CountPrefixStep(cs, i - 1, SelectedAt(now));
      assert cs[..i - 1 + 1] == cs[..i];
      if Selected(cs[i - 1], now) {
        var n := |sel|;
        assert i - 1 in sel;
        var k :| 0 <= k < n && sel[k] == i - 1;
        assert sel[n - 1] == i - 1;
        var sel' := sel[..n - 1];
        forall j | 0 <= j < i - 1 && Selected(cs[j], now)
          ensures j in sel'
        {
          var m :| 0 <= m < n && sel[m] == j;
          assert m != n - 1;
          assert sel'[m] == j;
        }
        SelectionCount(cs, now, sel', i - 1);
      } else {
        forall k | 0 <= k < |sel|
          ensures sel[k] < i - 1
        {
          assert sel[k] != i - 1;
        }
        SelectionCount(cs, now, sel, i - 1);
      }
    }
  }

  /** Step 3's loop over the selected campaigns. */
  method RollAll(cs: seq<Campaign>, now: int, advance: Advance, sel: seq<nat>) returns (r: seq<Campaign>)
    requires forall k :: 0 <= k < |sel| ==> sel[k] < |cs| && Selected(cs[sel[k]], now)
    requires forall j :: 0 <= j < |cs| && Selected(cs[j], now) ==> j in sel
    requires forall k, l :: 0 <= k < l < |sel| ==> sel[k] < sel[l]
    ensures r == RecurringPass(cs, now, advance)
  {
    r := cs;
    var k := 0;
    while k < |sel|
      invariant 0 <= k <= |sel|
      invariant |r| == |cs|
      invariant forall j :: 0 <= j < |cs| ==> r[j] == if j in sel[..k] then Rollover(cs[j], now, advance) else cs[j]
    {
      var j := sel[k];
      if cs[j].recurringInterval.Some? {
        r := r[j := Rollover(cs[j], now, advance)];
      }
      assert sel[..k + 1] == sel[..k] + [j];
      forall m | 0 <= m < |cs| && m != j
        ensures m in sel[..k + 1] <==> m in sel[..k]
      {
      }
      assert j !in sel[..k];
      k := k + 1;
    }
    assert sel[..k] == sel;
  }

  /** `processSchedules` (scripts/process-schedules.ts): the same three
      passes without the header check; `logged` is the count it prints. */
  method ProcessSchedules(cs: seq<Campaign>, now: int, advance: Advance) returns (result: seq<Campaign>, logged: nat)
    ensures result == Sweep(cs, now, advance)
    ensures logged == Processed(cs, now)
  {
    var afterActivate := ActivateAll(cs, now);
    var afterDeactivate := DeactivateAll(afterActivate, now);
    var sel := FindSelected(afterDeactivate, now);
    result := RollAll(afterDeactivate, now, advance, sel);
    logged := |sel|;
    SelectionCount(afterDeactivate, now, sel, |afterDeactivate|);
    assert afterDeactivate[..|afterDeactivate|] == afterDeactivate;
  }

  /** The script and an authorised call to the endpoint leave the store in
      the same state and report the same count. */
  lemma ScriptMatchesRoute(secret: Option<string>, cs: seq<Campaign>, now: int, advance: Advance)
    ensures var r := RunSchedule(Some(ExpectedHeader(secret)), secret, cs, now, advance);
      r.status == Ok && r.campaigns == Sweep(cs, now, advance) && r.processed == Processed(cs, now)
  {
  }
}

=== FILE: slug.dfy ===
/** URL slugs for campaigns: normalising a title into a short, URL-safe
    identifier (`generateSlug`) and resolving collisions by appending
    `-1`, `-2`, ... (`ensureUniqueSlug`). */
module Slug {
  import opened Text
  import Collections

  /** The length cap applied by `substring(0, 50)`. */
  const MaxSlugLength := 50

  /** The fallback slug for titles that normalise to nothing. */
  const DefaultSlug := "campaign"

  // ---------------------------------------------------------------------
  // Normalisation

  /** `\w` in a JavaScript regular expression: ASCII letters, digits, `_`. */
  predicate IsWordChar(c: char)
  {
    IsLower(c) || IsUpper(c) || IsDigit(c) || c == '_'
  }

  /** Characters surviving `replace(/[^\w\s-]/g, '')`. */
  predicate IsKept(c: char)
  {
    IsWordChar(c) || IsSpace(c) || c == '-'
  }

  /** Characters matched by the separator class `[\s_-]`. */
  predicate IsSep(c: char)
  {
    IsSpace(c) || c == '_' || c == '-'
  }

  predicate IsHyphen(c: char) { c == '-' }

  /** The characters a slug is made of: lower-case letters, digits, hyphens. */
  predicate IsSlugChar(c: char)
  {
    IsLower(c) || IsDigit(c) || c == '-'
  }

  predicate NoDoubleHyphen(s: string)
  {
    forall i :: 0 <= i < |s| - 1 ==> !(s[i] == '-' && s[i + 1] == '-')
  }

  function KeepSlugChars(s: string): string
  {
    Collections.Filter(s, IsKept)
  }

  /** `replace(/[\s_-]+/g, '-')`: every maximal run of separators becomes a
      single hyphen. A separator followed by another separator is dropped;
      the last separator of a run emits the hyphen. */
  function Collapse(s: string): string
  {
    if |s| == 0 then []
    else if IsSep(s[0]) then
      if |s| > 1 && IsSep(s[1]) then Collapse(s[1..]) else "-" + Collapse(s[1..])
    else [s[0]] + Collapse(s[1..])
  }

  /** Collapsing leaves only hyphens and non-separator characters of the
      input, never two hyphens in a row, and keeps a leading non-separator. */
  lemma {:induction false} CollapseShape(s: string)
    ensures var r := Collapse(s);
      && (forall i :: 0 <= i < |r| ==> r[i] == '-' || (!IsSep(r[i]) && r[i] in s))
      && NoDoubleHyphen(r)
      && (|s| > 0 && !IsSep(s[0]) ==> |r| > 0 && r[0] == s[0])
  {
    if |s| > 0 {
      CollapseShape(s[1..]);
    }
  }

  /** `replace(/^-+|-+$/g, '')`. */
  function StripHyphens(s: string): string
  {
    DropWhileEnd(DropWhile(s, IsHyphen), IsHyphen)
  }

  /** The title after every rewriting step and before the length cap. */
  function Normalise(title: string): string
  {
    StripHyphens(Collapse(KeepSlugChars(Trim(Lower(title)))))
  }

  /** `substring(0, n)`. */
  function Take(s: string, n: nat): string
  {
    if |s| <= n then s else s[..n]
  }

  /** Everything `generateSlug` promises about the shape of a slug. */
  predicate WellShaped(r: string)
  {
    && r != ""
    && |r| <= MaxSlugLength
    && (forall i :: 0 <= i < |r| ==> IsSlugChar(r[i]))
    && r[0] != '-'
    && NoDoubleHyphen(r)
  }

  /** `generateSlug` (lib/slug.ts). */
  function GenerateSlug(title: string): (r: string)
    ensures WellShaped(r)
    ensures title == "" || Normalise(title) == "" ==> r == DefaultSlug
    ensures title != "" && Normalise(title) != "" ==>
      && |r| == (if |Normalise(title)| <= MaxSlugLength then |Normalise(title)| else MaxSlugLength)
      && r == Normalise(title)[..|r|]
    ensures r[|r| - 1] == '-' ==> |r| == MaxSlugLength && |Normalise(title)| > MaxSlugLength
  {
    if title == "" then DefaultSlug
    else
      var s := Take(Normalise(title), MaxSlugLength);
      NormaliseShape(title);
      if s == "" then DefaultSlug else s
  }

  /** Lower-casing happens before trimming, so no upper-case letter is left. */
  lemma LowerTrimNoUpper(title: string)
    ensures forall i :: 0 <= i < |Trim(Lower(title))| ==> !IsUpper(Trim(Lower(title))[i])
  {
    var l := Lower(title);
    var a := DropWhile(l, IsSpace);
    forall i | 0 <= i < |Trim(l)|
      ensures !IsUpper(Trim(l)[i])
    {
      assert Trim(l)[i] == a[i] == l[i + LeadCount(l, IsSpace)];
    }
  }

  /** Keeping `[\w\s-]` and collapsing separator runs leaves slug characters only. */
  lemma KeepCollapseShape(t: string)
    requires forall i :: 0 <= i < |t| ==> !IsUpper(t[i])
    ensures var c := Collapse(KeepSlugChars(t));
      (forall i :: 0 <= i < |c| ==> IsSlugChar(c[i])) && NoDoubleHyphen(c)
  {
    var k := KeepSlugChars(t);
    Collections.FilterMembers(t, IsKept);
    assert forall i :: 0 <= i < |k| ==> IsKept(k[i]) && !IsUpper(k[i]);
    CollapseShape(k);
  }

  /** Stripping hyphens from both ends keeps the character class and the
      absence of double hyphens, and leaves no hyphen at either end. */
  lemma StripHyphensShape(c: string)
    requires forall i :: 0 <= i < |c| ==> IsSlugChar(c[i])
    requires NoDoubleHyphen(c)
    ensures var n := StripHyphens(c);
      && (forall i :: 0 <= i < |n| ==> IsSlugChar(n[i]))
      && (|n| > 0 ==> n[0] != '-' && n[|n| - 1] != '-')
      && NoDoubleHyphen(n)
  {
    var off := LeadCount(c, IsHyphen);
    var a := DropWhile(c, IsHyphen);
    var n := DropWhileEnd(a, IsHyphen);
    forall i | 0 <= i < |n|
      ensures IsSlugChar(n[i])
    {
      assert n[i] == a[i] == c[i + off];
    }
    forall i | 0 <= i < |n| - 1
      ensures !(n[i] == '-' && n[i + 1] == '-')
    {
      assert n[i] == c[i + off] && n[i + 1] == c[i + 1 + off];
    }
  }

  /** The normalised title is made of slug characters, neither starts nor
      ends with a hyphen, and never holds two hyphens in a row. */
  lemma NormaliseShape(title: string)
    ensures var n := Normalise(title);
      && (forall i :: 0 <= i < |n| ==> IsSlugChar(n[i]))
      && (|n| > 0 ==> n[0] != '-' && n[|n| - 1] != '-')
      && NoDoubleHyphen(n)
  {
    LowerTrimNoUpper(title);
    KeepCollapseShape(Trim(Lower(title)));
    StripHyphensShape(Collapse(KeepSlugChars(Trim(Lower(title)))));
  }

  lemma TeamPulseLower()
    ensures Lower("Team Pulse!!") == "team pulse!!"
  {
  }

  lemma TeamPulseTrimStart()
    ensures LeadCount("team pulse!!", IsSpace) == 0
  {
  }

  lemma TeamPulseTrimEnd()
    ensures TrailCount("team pulse!!", IsSpace) == 0
  {
  }

  lemma TeamPulseLowerTrim()
    ensures Trim(Lower("Team Pulse!!")) == "team pulse!!"
  {
    TeamPulseLower();
    TeamPulseTrimStart();
    TeamPulseTrimEnd();
  }

  lemma TeamPulseAllKept()
    ensures forall i :: 0 <= i < |"team pulse"| ==> IsKept("team pulse"[i])
  {
    forall i | 0 <= i < |"team pulse"|
      ensures IsKept("team pulse"[i])
    {
      assert "team pulse"[i] == ' ' || IsLower("team pulse"[i]);
    }
  }

  lemma TeamPulseSplit()
    ensures "team pulse!!" == "team pulse" + "!!"
  {
  }

  lemma BangsDropped()
    ensures KeepSlugChars("!!") == ""
  {
    assert forall i :: 0 <= i < |"!!"| ==> !IsKept("!!"[i]);
    Collections.FilterDropsAll("!!", IsKept);
  }

  lemma TeamPulseKept()
    ensures KeepSlugChars("team pulse") == "team pulse"
  {
    TeamPulseAllKept();
    Collections.FilterKeepsAll("team pulse", IsKept);
  }

  lemma TeamPulseKeep()
    ensures KeepSlugChars("team pulse!!") == "team pulse"
  {
    TeamPulseSplit();
    Collections.FilterAppend("team pulse", "!!", IsKept);
    TeamPulseKept();
    BangsDropped();
  }

  /** A run without separators passes through `Collapse` unchanged. */
  lemma {:induction false} CollapseWord(a: string, b: string)
    requires forall i :: 0 <= i < |a| ==> !IsSep(a[i])
    ensures Collapse(a + b) == a + Collapse(b)
  {
    if |a| > 0 {
      assert (a + b)[1..] == a[1..] + b;
      CollapseWord(a[1..], b);
      assert Collapse(a + b) == [a[0]] + Collapse(a[1..] + b);
    } else {
      assert a + b == b;
    }
  }

  lemma PulseHasNoSep()
    ensures forall i :: 0 <= i < |"pulse"| ==> !IsSep("pulse"[i])
  {
  }

  lemma TeamHasNoSep()
    ensures forall i :: 0 <= i < |"team"| ==> !IsSep("team"[i])
  {
  }

  lemma TeamPulseCollapseTail()
    ensures Collapse(" pulse") == "-pulse"
  {
    PulseHasNoSep();
    CollapseWord("pulse", "");
    assert "pulse" + "" == "pulse";
  }

  lemma TeamPulseCollapseRun()
    ensures Collapse("team pulse") == "team-pulse"
  {
    TeamPulseCollapseTail();
    TeamHasNoSep();
    CollapseWord("team", " pulse");
    assert "team" + " pulse" == "team pulse";
  }

  lemma TeamPulseStrip()
    ensures StripHyphens("team-pulse") == "team-pulse"
  {
    assert LeadCount("team-pulse", IsHyphen) == 0;
    assert TrailCount("team-pulse", IsHyphen) == 0;
  }

  lemma TeamPulseCollapse()
    ensures StripHyphens(Collapse("team pulse")) == "team-pulse"
  {
    TeamPulseCollapseRun();
    TeamPulseStrip();
  }

  /** `generateSlug("Team Pulse!!") == "team-pulse"`. */
  lemma TeamPulseExample()
    ensures GenerateSlug("Team Pulse!!") == "team-pulse"
  {
    TeamPulseLowerTrim();
    TeamPulseKeep();
    TeamPulseCollapse();
    assert Normalise("Team Pulse!!") == "team-pulse";
  }

  // ---------------------------------------------------------------------
  // Decimal rendering of the probe counter

  function DigitChar(d: nat): (c: char)
    requires d < 10
    ensures IsDigit(c)
  {
    ('0' as int + d) as char
  }

  /** `${n}` for a natural number: its decimal digits, most significant first. */
  function NatToString(n: nat): (r: string)
    ensures |r| >= 1
    ensures forall i :: 0 <= i < |r| ==> IsDigit(r[i])
  {
    if n < 10 then [DigitChar(n)] else NatToString(n / 10) + [DigitChar(n % 10)]
  }

  /** Reads a string of decimal digits back as a number. */
  function ParseNat(s: string): nat
    requires forall i :: 0 <= i < |s| ==> IsDigit(s[i])
  {
    if |s| == 0 then 0
    else
      assert IsDigit(s[|s| - 1]);
      ParseNat(s[..|s| - 1]) * 10 + (s[|s| - 1] as int - '0' as int)
  }

  lemma {:induction false} ParseNatToString(n: nat)
    ensures ParseNat(NatToString(n)) == n
  {
    if n >= 10 {
      var s := NatToString(n);
      assert s[..|s| - 1] == NatToString(n / 10);
      ParseNatToString(n / 10);
    }
  }

  lemma NatToStringInjective(a: nat, b: nat)
    requires NatToString(a) == NatToString(b)
    ensures a == b
  {
    ParseNatToString(a);
    ParseNatToString(b);
  }

  // ---------------------------------------------------------------------
  // Collision resolution

  /** The k-th slug `ensureUniqueSlug` probes: the base itself, then
      `base-1`, `base-2`, ... */
  function Candidate(base: string, k: nat): string
  {
    if k == 0 then base else base + "-" + NatToString(k)
  }

  lemma CandidateInjective(base: string, i: nat, j: nat)
    requires Candidate(base, i) == Candidate(base, j)
    ensures i == j
  {
    if i != 0 && j != 0 {
      var p := |base| + 1;
      assert Candidate(base, i)[p..] == NatToString(i);
      assert Candidate(base, j)[p..] == NatToString(j);
      NatToStringInjective(i, j);
    }
  }

  /** `k` is the least probe index whose candidate is not taken. */
  predicate LeastFree(base: string, existing: seq<string>, k: nat)
  {
    && Candidate(base, k) !in existing
    && forall j :: 0 <= j < k ==> Candidate(base, j) in existing
  }

  function CandidateSet(base: string, m: nat): (r: set<string>)
    ensures forall x :: x in r <==> exists j :: 0 <= j < m && x == Candidate(base, j)
  {
    if m == 0 then {} else CandidateSet(base, m - 1) + {Candidate(base, m - 1)}
  }

  lemma {:induction false} CandidateSetSize(base: string, m: nat)
    ensures |CandidateSet(base, m)| == m
  {
    if m > 0 {
      CandidateSetSize(base, m - 1);
      if Candidate(base, m - 1) in CandidateSet(base, m - 1) {
        var j :| 0 <= j < m - 1 && Candidate(base, m - 1) == Candidate(base, j);
        CandidateInjective(base, m - 1, j);
      }
    }
  }

  lemma {:induction false} SeqSetSize(s: seq<string>)
    ensures |set x | x in s| <= |s|
  {
    if |s| > 0 {
      SeqSetSize(s[1..]);
      assert (set x | x in s) == {s[0]} + (set x | x in s[1..]);
    }
  }

  lemma SubsetSize(a: set<string>, b: set<string>)
    requires a <= b
    ensures |a| <= |b|
  {
    assert b == a + (b - a);
  }

  /** Pigeonhole: the first m candidates are pairwise distinct, so they can
      all be taken only if there are at least m existing slugs. */
  lemma TakenBound(base: string, existing: seq<string>, m: nat)
    requires forall j :: 0 <= j < m ==> Candidate(base, j) in existing
    ensures m <= |existing|
  {
    CandidateSetSize(base, m);
    SeqSetSize(existing);
    SubsetSize(CandidateSet(base, m), set x | x in existing);
  }

  function UniqueSlugFrom(base: string, existing: seq<string>, k: nat): (r: string)
    requires forall j :: 0 <= j < k ==> Candidate(base, j) in existing
    ensures r !in existing
    ensures exists m :: LeastFree(base, existing, m) && r == Candidate(base, m)
    decreases |existing| + 1 - k
  {
    TakenBound(base, existing, k);
    if Candidate(base, k) !in existing then
      assert LeastFree(base, existing, k);
      Candidate(base, k)
    else
      UniqueSlugFrom(base, existing, k + 1)
  }

  /** The slug `ensureUniqueSlug(base, existing)` settles on. */
  function UniqueSlug(base: string, existing: seq<string>): (r: string)
    ensures r !in existing
    ensures exists m :: LeastFree(base, existing, m) && r == Candidate(base, m)
  {
    UniqueSlugFrom(base, existing, 0)
  }

  /** `ensureUniqueSlug` (lib/slug.ts) with its probing loop. */
  method EnsureUniqueSlug(baseSlug: string, existingSlugs: seq<string>) returns (slug: string)
    ensures slug !in existingSlugs
    ensures baseSlug !in existingSlugs ==> slug == baseSlug
    ensures exists k :: LeastFree(baseSlug, existingSlugs, k) && slug == Candidate(baseSlug, k)
  {
    slug := baseSlug;
    var counter := 1;
    while slug in existingSlugs
      invariant counter >= 1
      invariant slug == Candidate(baseSlug, counter - 1)
      invariant forall j :: 0 <= j < counter - 1 ==> Candidate(baseSlug, j) in existingSlugs
      invariant counter - 1 <= |existingSlugs|
      decreases |existingSlugs| - (counter - 1)
    {
      TakenBound(baseSlug, existingSlugs, counter);
      slug := baseSlug + "-" + NatToString(counter);
      counter := counter + 1;
    }
    assert LeastFree(baseSlug, existingSlugs, counter - 1);
  }

  /** Only one index is least-free, so the loop and the functional
      reference agree on every input. */
  lemma LeastFreeUnique(base: string, existing: seq<string>, k: nat, m: nat)
    requires LeastFree(base, existing, k) && LeastFree(base, existing, m)
    ensures k == m
  {
  }

  lemma EnsureUniqueSlugAgrees(base: string, existing: seq<string>, slug: string)
    requires exists k :: LeastFree(base, existing, k) && slug == Candidate(base, k)
    ensures slug == UniqueSlug(base, existing)
  {
    var k :| LeastFree(base, existing, k) && slug == Candidate(base, k);
    var m :| LeastFree(base, existing, m) && UniqueSlug(base, existing) == Candidate(base, m);
    LeastFreeUnique(base, existing, k, m);
  }
}

=== FILE: templates.dfy ===
/** The built-in campaign templates (lib/templates.ts) and their two lookups. */
module Templates {
  import opened Domain
  import Collections

  datatype Template = Template(id: string, name: string, category: string, title: string, question: string, description: string)

  const EmployeeSatisfaction := Template("employee-satisfaction", "Employee Satisfaction", "HR", "Employee Satisfaction Survey",
    "How satisfied are you with your current role and work environment?",
    "Gather feedback on employee satisfaction and workplace experience")
  const ProductFeedback := Template("product-feedback", "Product Feedback", "Product", "Product Feedback",
    "What are your thoughts on our product? What features would you like to see?",
    "Collect user feedback and feature requests")
  const TeamRetrospective := Template("team-retrospective", "Team Retrospective", "Team", "Sprint Retrospective",
    "What went well this sprint? What could be improved?",
    "Team retrospective for continuous improvement")
  const CustomerSupport := Template("customer-support", "Customer Support", "Support", "Customer Support Experience",
    "How was your experience with our customer support team?",
    "Gather feedback on customer support interactions")
  const Onboarding := Template("onboarding", "Onboarding Experience", "HR", "Onboarding Feedback",
    "How was your onboarding experience? What could we improve?",
    "Collect feedback on the onboarding process")
  const MeetingFeedback := Template("meeting-feedback", "Meeting Feedback", "Team", "Meeting Effectiveness",
    "How effective was this meeting? What could make it better?",
    "Gather feedback on meeting quality and effectiveness")
  const WorkplaceCulture := Template("workplace-culture", "Workplace Culture", "HR", "Workplace Culture Survey",
    "How would you describe our workplace culture? What values matter most to you?",
    "Understand workplace culture and values")
  const RemoteWork := Template("remote-work", "Remote Work Experience", "HR", "Remote Work Experience",
    "How is your remote work experience? What challenges or benefits have you noticed?",
    "Collect feedback on remote work arrangements")

  /** `campaignTemplates`, in the order the picker shows them. */
  const All: seq<Template> := [
    EmployeeSatisfaction,
    ProductFeedback,
    TeamRetrospective,
    CustomerSupport,
    Onboarding,
    MeetingFeedback,
    WorkplaceCulture,
    RemoteWork
  ]

  /** The first letters of the ids, in catalogue order. */
  const Initials := "eptcomwr"

  lemma InitialsOfIds()
    ensures forall i :: 0 <= i < |All| ==> All[i].id[0] == Initials[i]
  {
    assert All[0].id[0] == 'e' && All[1].id[0] == 'p' && All[2].id[0] == 't' && All[3].id[0] == 'c';
    assert All[4].id[0] == 'o' && All[5].id[0] == 'm' && All[6].id[0] == 'w' && All[7].id[0] == 'r';
  }

  /** No two templates share an id: their first letters already differ. */
  lemma IdsDistinct()
    ensures forall i, j :: 0 <= i < j < |All| ==> All[i].id != All[j].id
  {
    InitialsOfIds();
    assert forall i, j :: 0 <= i < j < |Initials| ==> Initials[i] != Initials[j];
  }

  function InCategory(category: string): Template -> bool
  {
    (t: Template) => t.category == category
  }

  /** `getTemplatesByCategory`: a missing or empty category lists every
      template, any other keeps those of exactly that category. */
  function ByCategory(category: Option<string>): (r: seq<Template>)
    ensures !Truthy(category) ==> r == All
  {
    if !Truthy(category) then All else Collections.Filter(All, InCategory(category.value))
  }

  lemma ByCategoryMembers(category: Option<string>, t: Template)
    ensures Collections.IsSubsequence(ByCategory(category), All)
    ensures t in ByCategory(category) <==> t in All && (!Truthy(category) || t.category == category.value)
  {
    Collections.FilterIsSubsequence(All, InCategory(category.GetOr("")));
    Collections.FilterMembers(All, InCategory(category.GetOr("")));
    if !Truthy(category) {
      Collections.SubsequenceRefl(All);
    }
  }

  const Categories: seq<string> := ["HR", "Product", "Team", "Support"]

  /** Every template is filed under one of the four categories. */
  lemma CategoryKnown(t: Template)
    requires t in All
    ensures t.category in Categories
  {
    var i :| 0 <= i < |All| && All[i] == t;
  }

  /** Filtering by category partitions the templates: each one is listed
      under its own category and under no other. */
  lemma CategoriesPartition(t: Template, c: string)
    requires t in All && c in Categories
    ensures t in ByCategory(Some(c)) <==> t.category == c
    ensures exists k :: 0 <= k < |Categories| && t in ByCategory(Some(Categories[k]))
  {
    CategoryKnown(t);
    ByCategoryMembers(Some(c), t);
    var k :| 0 <= k < |Categories| && Categories[k] == t.category;
    ByCategoryMembers(Some(Categories[k]), t);
  }

  function IdIs(id: string): Template -> bool
  {
    (t: Template) => t.id == id
  }

  /** `getTemplateById`: the first template with that id, if any. */
  function ById(id: string): (r: Option<Template>)
    ensures r.Some? ==> r.value in All && r.value.id == id
    ensures r.None? <==> forall t :: t in All ==> t.id != id
  {
    var k := Collections.FirstIndex(All, IdIs(id));
    if k < |All| then Some(All[k]) else None
  }

  /** Looking a template up by its own id returns that template. */
  lemma ByIdFindsEach(t: Template)
    requires t in All
    ensures ById(t.id) == Some(t)
  {
    IdsDistinct();
    var k := Collections.FirstIndex(All, IdIs(t.id));
    var n :| 0 <= n < |All| && All[n] == t;
    assert IdIs(t.id)(All[n]);
  }
}

=== FILE: text.dfy ===
/** ASCII string helpers standing in for the JavaScript string methods the
    source uses: `toLowerCase`, `trim`, `startsWith` and `includes`.
    Only ASCII case mapping and ASCII whitespace are modelled. */
module Text {
  import Collections

  /** A whitespace character in the sense of JavaScript's `\s` and `trim`,
      restricted to ASCII: tab, line feed, vertical tab, form feed,
      carriage return and space. */
  predicate IsSpace(c: char)
  {
    c == ' ' || ('\t' <= c <= '\r')
  }

  predicate IsUpper(c: char) { 'A' <= c <= 'Z' }
  predicate IsLower(c: char) { 'a' <= c <= 'z' }
  predicate IsDigit(c: char) { '0' <= c <= '9' }

  function LowerChar(c: char): char
  {
    if IsUpper(c) then (c as int + 32) as char else c
  }

  /** `String.prototype.toLowerCase` on ASCII. */
  function Lower(s: string): string
  {
    seq(|s|, i requires 0 <= i < |s| => LowerChar(s[i]))
  }

  /** How many leading characters of `s` satisfy `p`. */
  function LeadCount(s: string, p: char -> bool): (k: nat)
    ensures k <= |s|
    ensures forall i :: 0 <= i < k ==> p(s[i])
    ensures k < |s| ==> !p(s[k])
  {
    if |s| > 0 && p(s[0]) then 1 + LeadCount(s[1..], p) else 0
  }

  /** How many trailing characters of `s` satisfy `p`. */
  function TrailCount(s: string, p: char -> bool): (k: nat)
    ensures k <= |s|
    ensures forall i :: |s| - k <= i < |s| ==> p(s[i])
    ensures k < |s| ==> !p(s[|s| - k - 1])
  {
    if |s| > 0 && p(s[|s| - 1]) then 1 + TrailCount(s[..|s| - 1], p) else 0
  }

  /** Drops the longest prefix whose characters all satisfy `p`. */
  function DropWhile(s: string, p: char -> bool): string
  {
    s[LeadCount(s, p)..]
  }

  /** Drops the longest suffix whose characters all satisfy `p`. */
  function DropWhileEnd(s: string, p: char -> bool): string
  {
    s[..|s| - TrailCount(s, p)]
  }

  /** `String.prototype.trim` on ASCII whitespace. */
  function Trim(s: string): string
  {
    DropWhileEnd(DropWhile(s, IsSpace), IsSpace)
  }

  /** `!s.trim()` in the source: the string is empty or all whitespace. */
  predicate Blank(s: string)
  {
    Trim(s) == ""
  }

  lemma BlankIffAllSpace(s: string)
    ensures Blank(s) <==> forall i :: 0 <= i < |s| ==> IsSpace(s[i])
  {
  }

  /** `s.startsWith(p)`. */
  predicate StartsWith(s: string, p: string)
  {
    |p| <= |s| && s[..|p|] == p
  }

  /** `s.includes(w)`: `w` occurs in `s` as a contiguous substring. */
  predicate Contains(s: string, w: string)
    decreases |s|
  {
    if |w| > |s| then false
    else if StartsWith(s, w) then true
    else Contains(s[1..], w)
  }

  /** The position-based reading of `includes`: some window of `s` equals `w`. */
  ghost predicate OccursAt(s: string, w: string, i: int)
  {
    0 <= i && i + |w| <= |s| && s[i..i + |w|] == w
  }

  lemma {:induction false} ContainsIffOccurs(s: string, w: string)
    ensures Contains(s, w) <==> exists i :: OccursAt(s, w, i)
    decreases |s|
  {
    if |w| > |s| {
    } else if StartsWith(s, w) {
      assert OccursAt(s, w, 0);
    } else {
      ContainsIffOccurs(s[1..], w);
      if exists i :: OccursAt(s[1..], w, i) {
        var i :| OccursAt(s[1..], w, i);
        assert s[i + 1..i + 1 + |w|] == s[1..][i..i + |w|];
        assert OccursAt(s, w, i + 1);
      }
      if exists i :: OccursAt(s, w, i) {
        var i :| OccursAt(s, w, i);
        assert i != 0;
        assert s[1..][i - 1..i - 1 + |w|] == s[i..i + |w|];
        assert OccursAt(s[1..], w, i - 1);
      }
    }
  }

  /** A string contains itself and the empty string. */
  lemma ContainsSelf(s: string)
    ensures Contains(s, s) && Contains(s, "")
  {
  }

  /** Case-insensitive substring search as the search boxes do it:
      `hay.toLowerCase().includes(query.toLowerCase())`. */
  predicate MatchesQuery(hay: string, query: string)
  {
    Contains(Lower(hay), Lower(query))
  }

  /** How many of `words` occur somewhere in `text`; a word counts once
      however often it occurs (`words.filter(w => text.includes(w)).length`). */
  function Hits(text: string, words: seq<string>): (n: nat)
    ensures n <= |words|
  {
    Collections.Count(words, w => Contains(text, w))
  }

  /** `words.some(w => text.includes(w))` is `Hits(text, words) > 0`. */
  lemma HitsPositive(text: string, words: seq<string>)
    ensures Hits(text, words) > 0 <==> exists i :: 0 <= i < |words| && Contains(text, words[i])
  {
    Collections.CountPositive(words, w => Contains(text, w));
  }
}

=== FILE: wizard.dfy ===
/** The three-step campaign creation wizard (components/campaign-wizard.tsx):
    basic info, settings, review. Each input is only on screen at its own
    step, and leaving step 1 requires a non-blank title and question. */
module Wizard {
  import opened Domain
  import opened Text

  datatype Form = Form(
    title: string,
    question: string,
    startDate: string,
    closeDate: string,
    isRecurring: bool,
    recurringInterval: Interval)

  datatype State = State(step: int, form: Form)

  /** The first render: step 1, empty form, monthly recurrence preselected. */
  const Initial := State(1, Form("", "", "", "", false, Monthly))

  /** What the user can do. Edits reach the form only while the input that
      produces them is rendered. */
  datatype Event =
    | Next
    | Prev
    | EditTitle(s: string)
    | EditQuestion(s: string)
    | EditStartDate(s: string)
    | EditCloseDate(s: string)
    | SetRecurring(b: bool)
    | SetInterval(i: Interval)

  /** `nextStep`: refused at step 1 while title or question is blank. */
  function NextStep(w: State): (r: State)
    ensures r.form == w.form
    ensures w.step == 1 && (Blank(w.form.title) || Blank(w.form.question)) ==> r == w
    ensures w.step >= 3 ==> r == w
    ensures r.step != w.step ==> r.step == w.step + 1 && !(w.step == 1 && (Blank(w.form.title) || Blank(w.form.question)))
  {
    if w.step == 1 && (Blank(w.form.title) || Blank(w.form.question)) then w
    else if w.step < 3 then w.(step := w.step + 1)
    else w
  }

  /** `prevStep`. */
  function PrevStep(w: State): (r: State)
    ensures r.form == w.form
    ensures w.step > 1 ==> r.step == w.step - 1
    ensures w.step <= 1 ==> r == w
  {
    if w.step > 1 then w.(step := w.step - 1) else w
  }

  function Handle(w: State, e: Event): State
  {
    match e
    case Next => NextStep(w)
    case Prev => PrevStep(w)
    case EditTitle(s) => if w.step == 1 then w.(form := w.form.(title := s)) else w
    case EditQuestion(s) => if w.step == 1 then w.(form := w.form.(question := s)) else w
    case EditStartDate(s) => if w.step == 2 then w.(form := w.form.(startDate := s)) else w
    case EditCloseDate(s) => if w.step == 2 then w.(form := w.form.(closeDate := s)) else w
    case SetRecurring(b) => if w.step == 2 then w.(form := w.form.(isRecurring := b)) else w
    case SetInterval(i) => if w.step == 2 && w.form.isRecurring then w.(form := w.form.(recurringInterval := i)) else w
  }

  function Run(w: State, es: seq<Event>): State
    decreases |es|
  {
    if |es| == 0 then w else Run(Handle(w, es[0]), es[1..])
  }

  /** The wizard's invariant: a valid step, and past step 1 the required
      fields are filled in. */
  predicate Valid(w: State)
  {
    && 1 <= w.step <= 3
    && (w.step >= 2 ==> !Blank(w.form.title) && !Blank(w.form.question))
  }

  lemma HandlePreserves(w: State, e: Event)
    requires Valid(w)
    ensures Valid(Handle(w, e))
  {
  }

  /** Whatever the user does, the wizard stays valid. */
  lemma {:induction false} RunPreserves(w: State, es: seq<Event>)
    requires Valid(w)
    ensures Valid(Run(w, es))
    decreases |es|
  {
    if |es| > 0 {
      HandlePreserves(w, es[0]);
      RunPreserves(Handle(w, es[0]), es[1..]);
    }
  }

  lemma InitialValid()
    ensures Valid(Initial)
  {
  }

  // ---------------------------------------------------------------------
  // The request body

  datatype Payload = Payload(
    title: string,
    question: string,
    startDate: Option<string>,
    closeDate: Option<string>,
    isRecurring: bool,
    recurringInterval: Option<Interval>)

  /** `formData.x || null` for a date field. */
  function OrNull(s: string): (r: Option<string>)
    ensures r.None? <==> s == ""
    ensures r.Some? ==> r.value == s
  {
    if s == "" then None else Some(s)
  }

  /** The JSON body `handleSubmit` posts. */
  function BuildPayload(f: Form): (p: Payload)
    ensures p.title == f.title && p.question == f.question
    ensures p.startDate.None? <==> f.startDate == ""
    ensures p.closeDate.None? <==> f.closeDate == ""
    ensures p.isRecurring == f.isRecurring
    ensures p.recurringInterval.Some? <==> f.isRecurring
    ensures p.recurringInterval.Some? ==> p.recurringInterval.value == f.recurringInterval
  {
    Payload(f.title, f.question, OrNull(f.startDate), OrNull(f.closeDate), f.isRecurring,
            if f.isRecurring then Some(f.recurringInterval) else None)
  }

  /** From the review step the body always carries a title and a question,
      so the endpoint's required-field check passes. */
  lemma ReviewPayloadHasRequiredFields(es: seq<Event>)
    requires Run(Initial, es).step == 3
    ensures var p := BuildPayload(Run(Initial, es).form);
      p.title != "" && p.question != ""
  {
    RunPreserves(Initial, es);
  }

  /** Ticking recurring without choosing an interval sends monthly. */
  lemma DefaultIntervalMonthly()
    ensures BuildPayload(Run(Initial, [EditTitle("T"), EditQuestion("Q"), Next, SetRecurring(true), Next]).form).recurringInterval == Some(Monthly)
  {
    var es := [EditTitle("T"), EditQuestion("Q"), Next, SetRecurring(true), Next];
    var w1 := Handle(Initial, es[0]);
    var w2 := Handle(w1, es[1]);
    assert !Blank(w2.form.title) by { assert w2.form.title == "T"; }
    assert !Blank(w2.form.question) by { assert w2.form.question == "Q"; }
    var w3 := Handle(w2, es[2]);
    assert w3.step == 2;
    var w4 := Handle(w3, es[3]);
    var w5 := Handle(w4, es[4]);
    assert Run(Initial, es) == Run(w1, es[1..]);
    assert Run(w1, es[1..]) == Run(w2, es[2..]);
    assert Run(w2, es[2..]) == Run(w3, es[3..]);
    assert Run(w3, es[3..]) == Run(w4, es[4..]);
    assert Run(w4, es[4..]) == Run(w5, es[5..]);
    assert w5.form.isRecurring && w5.form.recurringInterval == Monthly;
  }
}
